=== FILE: README.md ===
# SGAF geospatial pipeline — a Dafny model

This project models the serverless geospatial analysis framework's
processing core in Dafny 4.11. It also proves properties about that model.

The pipeline runs in six steps:

1. An uploaded GeoJSON or GeoTIFF object arrives through the HTTP API (`Api`).
2. The partitioner (`Ingest`) checks the file's size, derives the dataset id from the object key, and starts a workflow with up to three work items, one per shard.
3. Each shard processor (`Process`) reads the features whose ordinal is congruent to its tile number. It classifies each geometry as a Point, a Polygon, or "other". It then accumulates counts, coordinate sums, shoelace polygon areas and a bounding box.
4. The aggregator (`Aggregate`) merges the partial results into one summary. The summary holds summed counters, a merged bbox, an all-ok flag, a point-count-weighted centroid and the first dataset id.
5. The status tracker (`UpdateStatus`) upserts the job record, keyed by dataset id. It writes only the fields the event carries.
6. The notification formatter (`Notify`) chooses between a failure message and a success message.

A command-line manifest validator (`ManifestCheck`) checks a stored summary. It sorts its findings into errors and warnings.

Modules and files:

| file | module | models |
|---|---|---|
| `wrappers.dfy` | `Wrappers` | `Option`, `Result` |
| `pyjson.dfy` | `PyJson` | JSON values as Python sees them: truthiness, `dict.get`, `int()`, `float()`, `str()` |
| `text.dfy` | `Text` | `in`, `endswith`, `lower()` and `split("/")[-1]` on strings |
| `geometry.dfy` | `Geometry` | `_expand_bbox`, the bbox merge and `_shoelace_area` |
| `accumulator.dfy` | `Accumulator` | the partial-result record, its merge, and folds over lists of them |
| `process.dfy` | `Process` | `lambda/process/app.py` |
| `aggregate.dfy` | `Aggregate` | `lambda/aggregate/app.py` |
| `jobs.dfy` | `Jobs` | the jobs table as a map of records: `put_item`, `update_item`, `get_item` |
| `ingest.dfy` | `Ingest` | `lambda/ingest/app.py` |
| `update_status.dfy` | `UpdateStatus` | `lambda/update_status/app.py` |
| `format_sns.dfy` | `Notify` | `lambda/format_sns/app.py` |
| `api.dfy` | `Api` | `lambda/api/app.py` |
| `view_output.dfy` | `ManifestCheck` | `verify_manifest` of `scripts/view_output.py` |
| `pipeline.dfy` | `Pipeline` | properties that span several handlers |

Modelling choices:

**JSON and exceptions**
- Events and records are `PyJson.Json` values. Integers and floats stay distinct, as `json.loads` yields them.
- A Python exception becomes `Err(e)`, where `e` names the exception class.

**Numbers**
- Coordinates, sums and areas are exact `real`s.
- The ±infinity bbox sentinel becomes `Option<Box>`.

**Environment and I/O**
- Environment settings become a `Config` record.
- Most of what the handlers get from outside is a parameter:
  - the object's contents;
  - the workflow's execution ARN;
  - the clock's reading;
  - the success of the aggregator's manifest write, metric and status call;
  - the table's scan result;
  - the JSON and base64 decoders.
- Three outside calls are assumed to succeed instead; "## Left out" names them.

## Model

| member | source | states |
|---|---|---|
| Geometry.ExpandBox | lambda/process/app.py:155-165 | The grown box covers every new point and the old box. Each of its sides is the old side or some point's coordinate. An empty point list leaves the box unchanged, and a well-formed box stays well-formed. |
| Geometry.ExpandBoxLoop | lambda/process/app.py:155-165 | The point-by-point loop yields the box the recursive definition describes. |
| Geometry.MergeBox | lambda/aggregate/app.py:57-63 | The merged bbox is absent only when both inputs are; otherwise it encloses each present input. When both are present, each side is that side of one of them, so the result is the min of the mins and the max of the maxes. |
| Geometry.MergeBoxCommutes | lambda/aggregate/app.py:57-63 | The bbox merge does not depend on argument order. |
| Geometry.MergeBoxAssociates | lambda/aggregate/app.py:57-63 | The bbox merge does not depend on grouping. |
| Geometry.ExpandIsMerge | lambda/process/app.py:155-165 | Growing a merged box by points equals merging with the grown box. A shard's box can therefore be merged in any order. |
| Geometry.NextIsModulo | lambda/process/app.py:181 | The cyclic successor index is `(i + 1) % n`. |
| Geometry.ShoelaceLoop | lambda/process/app.py:174-183 | The summing loop returns 0 for fewer than three points. Otherwise it returns half the cyclic sum of `x_i*y_(i+1) - x_(i+1)*y_i`. |
| Geometry.ShoelaceRotationInvariant | lambda/process/app.py:174-183 | The shoelace value is unchanged when the ring starts at another vertex. |
| Geometry.ShoelaceReversalNegates | lambda/process/app.py:174-183 | Reversing the ring negates the shoelace value. |
| Geometry.ReportedAreaIgnoresOrientation | lambda/process/app.py:108 | The area a polygon adds, the absolute shoelace value, ignores both the ring's orientation and its starting vertex. |
| Geometry.TriangleArea | lambda/process/app.py:174-183 | The triangle (0,0), (2,0), (0,2) has shoelace area 2. |
| Accumulator.CombineIdentity | lambda/aggregate/app.py:25-31 | The initial all-zero totals with no bbox are neutral for the merge. |
| Accumulator.CombineCommutes | lambda/aggregate/app.py:47-63 | Merging two partial results does not depend on their order. |
| Accumulator.CombineAssociates | lambda/aggregate/app.py:47-63 | Merging partial results does not depend on grouping. |
| Accumulator.FoldConcat | lambda/aggregate/app.py:34-63 | Folding a concatenation is merging the two folds. |
| Accumulator.FoldPermutation | lambda/aggregate/app.py:34-63 | Any reordering of the partial results gives the same totals. |
| Accumulator.FoldBbox | lambda/aggregate/app.py:55-63 | The merged bbox is absent exactly when no partial result has one. Otherwise it encloses every partial bbox, and each of its sides is that side of some partial bbox. |
| Accumulator.SidesAttainedExtend | lambda/aggregate/app.py:57-63 | Merging one more partial result keeps each side of the merged bbox equal to that side of some partial bbox. |
| Accumulator.BoxlessIgnored | lambda/aggregate/app.py:55-56 | A partial result without a bbox never affects the merged bbox. |
| Process.Modulus | lambda/process/app.py:89 | `max(1, num_tiles)` is at least 1 and equals `num_tiles` when that is positive. |
| Process.ShardsPartition | lambda/process/app.py:88-90 | For `num_tiles >= 1`, every feature ordinal is selected by shard `idx % num_tiles` and by no other shard. |
| Process.NonPositiveTileCount | lambda/process/app.py:89 | For `num_tiles <= 0`, only shard 0 selects anything, and it selects every feature. |
| Process.UnselectedIgnored | lambda/process/app.py:88-90 | Features another shard owns do not influence this shard's result. |
| Process.GeometryOf | lambda/process/app.py:92 | A falsy feature has the empty geometry. A truthy feature that is not a dict raises AttributeError. For a dict feature, a falsy `geometry` gives the empty geometry, a truthy dict is the geometry itself, and any other truthy value raises AttributeError. |
| Process.RingPoints | lambda/process/app.py:105 | Converting the outer ring succeeds exactly when every pair entry has numeric coordinates. It yields one point per pair entry and skips the other entries. A lone pair entry yields the point of its `float()`ed coordinates; a lone non-pair entry yields nothing. |
| Process.RingPointsConcat | lambda/process/app.py:105 | The conversion of a concatenated ring succeeds exactly when both parts convert, and yields the parts' points in order. With the one-entry cases this fixes every point a ring yields. |
| Process.Classify | lambda/process/app.py:92-111 | A feature is a Point hit exactly when its geometry is Point-shaped, and its coordinates are the point's `float()`s. A Polygon hit needs a Polygon shape and at least three vertices, and its ring is exactly the converted outer ring. Conversely a Polygon whose outer ring is a list of at least three entries is a hit on that ring when it converts to at least three points, and raises when the conversion raises. A geometry that is neither Point- nor Polygon-shaped, including a malformed Point, is "other" and never raises. |
| Process.ClassifyOutcome | lambda/process/app.py:92-111 | Classification of a feature whose geometry is found raises only when a Point's or a counted-length outer ring's `float()` raises. A geometry that is neither shape is "other". A Polygon whose outer ring is not a list, has fewer than three entries or converts to fewer than three points is uncounted. |
| Process.OtherGeometryCounted | lambda/process/app.py:110-111 | A dict geometry of any type other than Point and Polygon is "other" whatever its coordinates, and adds only to `otherCount`. |
| Process.ShortRingUncounted | lambda/process/app.py:102-106 | A Polygon whose outer ring has fewer than three pairs is counted nowhere. |
| Process.ApplyIsCombine | lambda/process/app.py:96-111 | Updating the accumulator in place for one feature is merging it with that feature's own statistics. |
| Process.Accumulate | lambda/process/app.py:88-113 | The shard loop succeeds exactly when each selected feature classifies. The three counts sum to at most the number of selected features. The area is non-negative. The bbox is absent exactly when no Point or counted Polygon was seen, and otherwise has min <= max. |
| Process.BboxCoversSeenPoints | lambda/process/app.py:101-109 | Every point or vertex that a selected feature contributed lies inside the shard's bbox. |
| Process.FeaturesOf | lambda/process/app.py:75 | A non-dict document, or a dict without `features`, has no features. |
| Process.Handle | lambda/process/app.py:14-57 | A falsy `objectKey` raises. The handler succeeds exactly when `tile` and `numTiles` convert with `int()`, the key is a non-empty string and the chosen GeoJSON or GeoTIFF processing succeeds. The file is GeoTIFF exactly when the lower-cased key has a TIFF suffix. A result echoes the work item's dataset id, tile, tile count and key. |
| Process.ToJson | lambda/process/app.py:51-55 | The returned dict has status `"ok"` and echoes `datasetId`, `tile`, `numTiles` and `objectKey`. |
| Aggregate.Normalize | lambda/aggregate/app.py:16-22 | A list event is used as is. Any event that is neither a list nor a dict with `Payload` becomes a one-element list. |
| Aggregate.NormalizeShapes | lambda/aggregate/app.py:17-22 | `{"Payload": list}` behaves as the list itself. `{"Payload": x}` with a non-list `x` behaves as `[x]`. |
| Aggregate.PointSumOf | lambda/aggregate/app.py:48-50 | A missing or falsy `pointSum` counts as (0, 0). |
| Aggregate.BboxOf | lambda/aggregate/app.py:55-56 | Only a four-element bbox list contributes to the merge. |
| Aggregate.BboxRoundTrip | lambda/aggregate/app.py:55-58 | The aggregator reads back exactly the bbox a shard wrote. |
| Aggregate.StatsOf | lambda/aggregate/app.py:47-63 | A partial result decodes into the values `int()` and `float()` give for its fields, with their defaults. A dict decodes exactly when each of the six conversions succeeds. A non-dict raises AttributeError. |
| Aggregate.DecodeAll | lambda/aggregate/app.py:34-63 | Decoding all results succeeds exactly when each one decodes. A failure is the exception of some result. |
| Aggregate.FirstDatasetId | lambda/aggregate/app.py:140-145 | The id is `""` exactly when no result has a non-empty string `datasetId`. Otherwise it is that of the first such result. |
| Aggregate.Centroid | lambda/aggregate/app.py:66-68 | The centroid is present exactly when the point count is positive. It is then the summed coordinates divided by the count. |
| Aggregate.Summarize | lambda/aggregate/app.py:33-81 | There is one tile row per result. Each total is the fold of the results' statistics. `ok` holds exactly when every status is `"ok"`. The centroid and the dataset id follow the rules above. |
| Aggregate.OrderIndependent | lambda/aggregate/app.py:47-65 | Permuting the results leaves the totals, the centroid and `ok` unchanged. |
| Aggregate.DecodeOrderIndependent | lambda/aggregate/app.py:47-53 | Whether every result decodes does not depend on their order. |
| Aggregate.StatusOrderIndependent | lambda/aggregate/app.py:65 | Whether every status is `"ok"` does not depend on the results' order. |
| Aggregate.MergedBboxEnclosesAll | lambda/aggregate/app.py:55-63 | The merged bbox is absent exactly when no result carries a bbox list. It encloses every result's bbox, and each of its sides is that side of some result's bbox. |
| Aggregate.WeightedCentroid | lambda/aggregate/app.py:66-68 | Counts 2 and 3 with sums (2,4) and (9,12) give the centroid (2.2, 3.2). |
| Aggregate.ExampleTotals | lambda/aggregate/app.py:47-53 | The same two shards sum to 5 points with coordinate sums (11, 16). |
| Aggregate.SummaryToJson | lambda/aggregate/app.py:71-81 | The summary dict carries the id, `ok`, one row per tile, the bbox, the centroid and each total. |
| Aggregate.StatusEvent | lambda/aggregate/app.py:113-117 | The status call carries the dataset id, `"COMPLETED"` exactly when `ok` (else `"FAILED"`), and the summary wrapped as `{"summary": ...}`. |
| Aggregate.Handle | lambda/aggregate/app.py:84-137 | The handler returns `{"summary": summary}`. The manifest is written under `<id>/manifest.json` only when a bucket and an id are present. The status call is made only after the manifest and the metric succeed. |
| Aggregate.ResponseIgnoresSideEffects | lambda/aggregate/app.py:134-137 | The returned dict is the same whatever the configuration and whatever the storage calls do. |
| Ingest.SearchFrom | lambda/ingest/app.py:76 | The search finds the leftmost position at or after `p` where `ingest/<run>/` matches, or reports that none exists. |
| Ingest.DeriveDatasetId | lambda/ingest/app.py:75-77 | The id is the non-empty, slash-free run after the leftmost match of `ingest/([^/]+)/`, or `"unknown"` when nothing matches. |
| Ingest.UploadKeyRoundTrip | lambda/ingest/app.py:76 | For a non-empty, slash-free id, the key `ingest/<id>/<name>` yields that id. |
| Ingest.SlashedIdTruncated | lambda/ingest/app.py:76 | An id containing `/` is cut at the slash: `ingest/a/b/f.geojson` yields `a`. |
| Ingest.DeriveWorkItems | lambda/ingest/app.py:80-90 | There are exactly `num_tiles` items (none when it is not positive). Item `i` has tile `i`, and all items share the id, the key and the tile count. |
| Ingest.ObjectOf | lambda/ingest/app.py:22-26 | The lookup succeeds exactly when `Records` is a non-empty list whose first record is a dict with an `s3` dict holding an `object` dict with a `key`. It then yields `Records[0].s3.object`. |
| Ingest.Handle | lambda/ingest/app.py:20-72 | No `Records` raises. A size over the limit raises. The handler succeeds exactly when the object is found, its size converts and is at most the limit, and its key is a string. Then the workflow gets the derived id, the key, the work items and `min(MAX_ITEMS, 3)` tiles, and the job record is stored when a table is configured. |
| Ingest.AtMostThreeItems | lambda/ingest/app.py:35-43 | The workflow never receives more than three work items. |
| Ingest.LimitSizeAccepted | lambda/ingest/app.py:29-30 | A file of exactly the size limit is accepted. |
| Ingest.OverLimitRejected | lambda/ingest/app.py:29-30 | A file one byte over the limit is rejected. |
| Jobs.Put | lambda/ingest/app.py:58-68 | The record replaces the one under its `datasetId` and leaves every other record alone. A missing or non-string key fails. |
| Jobs.Update | lambda/update_status/app.py:53-58 | The update sets each named attribute and keeps every other attribute of the record and every other record. It creates the record when absent. |
| Jobs.UpdateTwice | lambda/update_status/app.py:31-58 | Two updates of the same attributes equal the second one alone. |
| Jobs.GetItem | lambda/api/app.py:100-105 | A lookup finds the record exactly when its key is stored. |
| UpdateStatus.ReadEvent | lambda/update_status/app.py:18-29 | With `summary`, the id comes from the summary, else the event, else `"unknown"`, and the result is `{"summary": summary}`. Without it, both are read from the event. Status defaults to `"COMPLETED"`. |
| UpdateStatus.Sets | lambda/update_status/app.py:28-51 | `status` and `updatedAt` are always set. `result` and `manifestKey` (`<id>/manifest.json`) are set exactly when the result is truthy, and `error` exactly when it is truthy. Nothing else is set. |
| UpdateStatus.Response | lambda/update_status/app.py:61-64 | The response has status 200, the id and the status. With a truthy result it also has `summary`, which is `result["summary"]` when present, else the result. |
| UpdateStatus.Handle | lambda/update_status/app.py:15-64 | The table gets exactly the update `Sets` describes, and the response follows it. |
| UpdateStatus.WrittenFields | lambda/update_status/app.py:31-58 | After the handler, the record holds the new status and `updatedAt`, and the result, manifest key and error when given. |
| UpdateStatus.OnlyNamedFieldsChange | lambda/update_status/app.py:53-58 | Attributes the event does not name, such as `createdAt`, `fileName` and `fileType`, keep their values. Other records are untouched. |
| UpdateStatus.Idempotent | lambda/update_status/app.py:31-58 | Applying an event twice gives the record that applying it once at the later time gives. |
| UpdateStatus.ResponseRaisesAfterWrite | lambda/update_status/app.py:62-63 | A truthy non-dict result is written to the table, and then building the response raises. |
| Notify.FormatNumber | lambda/format_sns/app.py:100-103 | The `:,` and `:.6f` formats accept numbers and booleans. Strings raise ValueError. |
| Notify.FormatEntries | lambda/format_sns/app.py:106-115 | Formatting the bbox or centroid entries succeeds exactly when each indexed entry formats. |
| Notify.FormatTiles | lambda/format_sns/app.py:123-130 | The tile loop succeeds exactly when each tile formats. |
| Notify.TileSection | lambda/format_sns/app.py:117-130 | The tile section appears exactly when `tiles` is truthy, and it reports `len(tiles)`. |
| Notify.FormatFailure | lambda/format_sns/app.py:181-238 | The failure output has the subject `"SGAF Processing Failed: " + id` and echoes the error dict. The id falls back from the event to the error to `"unknown"`. Type and cause get their defaults. |
| Notify.FormatFigures | lambda/format_sns/app.py:61-130 | Formatting succeeds exactly when the four counters format, a truthy bbox has four formattable entries, a truthy centroid has two, and the tile section succeeds. The bbox and centroid sections then appear exactly when those fields are truthy. The tile section follows the tile rule. |
| Notify.BoxAndCentroidShown | lambda/format_sns/app.py:100-115 | A summary with numeric counters, a four-number bbox and a two-number centroid formats, and its message shows both sections. |
| Notify.FormatSuccess | lambda/format_sns/app.py:26-178 | The success output unwraps one nested `summary` and has the subject `"SGAF Processing Complete: " + id`. It echoes the summary. Its sections follow the real-data rules unless the summary looks empty. |
| Notify.ResolveSummary | lambda/format_sns/app.py:11-14 | The summary is the event's own. If that is falsy and a `result` is present, it is the result's. |
| Notify.Handle | lambda/format_sns/app.py:6-23 | When the summary resolves to a dict, the handler returns the failure message if the event has `error` or its status (default `"COMPLETED"`) is `"FAILED"`, and the success message otherwise. A summary that raises or is not a dict makes the handler raise. |
| Notify.FailureIgnoresSummary | lambda/format_sns/app.py:16-21 | Two failure events that differ only in their non-empty dict summaries get the same notification. |
| Notify.FailureDefaults | lambda/format_sns/app.py:183-186 | A bare `{"error": {}}` event gives id `"unknown"`, type `"Unknown Error"` and the default cause. |
| Notify.NestedSummaryUnwrapped | lambda/format_sns/app.py:29-31 | A summary wrapped twice inside `result` is reported on its innermost dict. |
| Notify.NonDictSummaryRaises | lambda/format_sns/app.py:16 | A non-dict summary raises AttributeError, even on a failure event. |
| Api.ErrorResponse | lambda/api/app.py:156-166 | The response carries the given code, the CORS headers and the body `{"error": message}`. |
| Api.CorsResponse | lambda/api/app.py:169-179 | The response is always 200, with the CORS headers and the data as the body. |
| Api.SameHeaders | lambda/api/app.py:156-179 | Both response builders use the same headers. |
| Api.BodyOf | lambda/api/app.py:44 | A missing body parses as `{}`. A string body goes through the JSON parser. Any other body raises TypeError. |
| Api.Decode64 | lambda/api/app.py:55 | Decoding succeeds exactly when the content is a string the base64 decoder accepts. |
| Api.Upload | lambda/api/app.py:42-91 | A body that does not parse, or is not a dict, raises. A missing id or content gives 400 and stores nothing. Otherwise the upload raises exactly when base64 decoding fails. A missing bucket gives 500. Otherwise the object is stored under `ingest/<id>/<fileName>` with content type `application/json` exactly when the type is `geojson`, and the response is PENDING. With a table and a valid key the PENDING record replaces the id's record; otherwise the table is unchanged. |
| Api.UploadValidatesFirst | lambda/api/app.py:50-51 | A missing id or content is answered with 400 before any decoding or storage. |
| Api.Status | lambda/api/app.py:94-131 | No table gives 500. A failed read gives 500 with the query error. An unknown id gives 404. A stored `result` dict without a dict `summary` whose `"M"` is not a string, list or dict makes the `in` test raise, giving 500 with TypeError. Any other known id gives 200 with the record's `fileName`, `fileType`, `createdAt`, `updatedAt`, `result` and `error`, and `status` defaults to `"UNKNOWN"`. |
| Api.StatusAfterUpload | lambda/api/app.py:42-91 | An upload with a dict body, a valid id, content that decodes, a bucket and a table succeeds. The status of that id then reads back 200 PENDING with the upload's file name, file type and time, and no result. |
| Api.StatusFound | lambda/api/app.py:119-128 | The 200 answer carries exactly the eight fields: the id, the status with its `"UNKNOWN"` default, and the record's other six values. |
| Api.NumericMapResultFails | lambda/api/app.py:113-116 | A stored `{"M": <number>}` result makes the status query answer 500 with TypeError. |
| Api.StatusOfPending | lambda/api/app.py:94-131 | The status of a freshly written PENDING record reports that record's fields. |
| Api.JobSummary | lambda/api/app.py:141-149 | Each listed job has exactly `datasetId`, `status`, `fileName` and `createdAt`, copied from its record. |
| Api.ListJobs | lambda/api/app.py:134-153 | No table gives 500. Otherwise the response is 200 with one projected job per scanned record, in order. |
| Api.RouteOf | lambda/api/app.py:19-37 | Routing is checked in this order: POST `/upload`, GET `/status`, GET `/jobs`, OPTIONS, and then 404. A GET `/status` route with dict path parameters takes `datasetId` when truthy, else the last path segment; a truthy id routes to the status query for it, a falsy one to the 400. |
| Api.StatusId | lambda/api/app.py:27 | The id is the truthy `datasetId` path parameter, else the path's last segment; a non-dict parameter map or a non-string path raises AttributeError. |
| Api.StatusPathRouted | lambda/api/app.py:26-31 | `GET /status/<id>` with no path parameters and a non-empty slash-free id is answered by the status query for `id`. |
| Api.Handle | lambda/api/app.py:17-39 | Each route gets its handler's response. An exception becomes 500. Only an upload stores anything or changes the table. |
| Api.EmptyStatusIdRejected | lambda/api/app.py:26-31 | GET `/status/` without path parameters gives 400 "Missing datasetId". |
| Api.JobsRouted | lambda/api/app.py:32-33 | GET `/jobs` reaches the job list. |
| ManifestCheck.Numeric | scripts/view_output.py:104-106 | The area arithmetic accepts numbers and booleans and raises TypeError on anything else. |
| ManifestCheck.CheckTile | scripts/view_output.py:85-109 | A non-dict tile gives exactly one "not an object" error. For a dict tile, errors are absent exactly when `tile`, the area field and status `"ok"` are present, and a bad status is reported. Area mismatches are only warnings. |
| ManifestCheck.CheckTiles | scripts/view_output.py:84-109 | The loop succeeds exactly when every tile's arithmetic does. All its errors are tile errors and all its warnings are area mismatches. |
| ManifestCheck.ExpectedTotal | scripts/view_output.py:109 | The expected total is 0.000001 per dict tile. |
| ManifestCheck.TileNotObjectReported | scripts/view_output.py:86-88 | Every non-dict tile is reported by its index, and only those. |
| ManifestCheck.NoErrorsAllOk | scripts/view_output.py:90-98 | No tile errors means every tile is a dict with status `"ok"`. |
| ManifestCheck.AllStatusOk | scripts/view_output.py:117 | The all-ok check raises exactly when an unguarded non-dict tile comes before any failing tile. Otherwise it tells whether every status is `"ok"`. |
| ManifestCheck.MissingTopLevel | scripts/view_output.py:63-69 | One missing-field error is reported per absent top-level field. There are none exactly when all three are present. |
| ManifestCheck.Assemble | scripts/view_output.py:120 | Errors come before warnings, and the verdict is true exactly when every finding is a warning. |
| ManifestCheck.VerifyTiles | scripts/view_output.py:80-120 | The verdict is true exactly when there are only warnings, and errors precede warnings. |
| ManifestCheck.TilesParts | scripts/view_output.py:80-118 | A tile count other than 3 and the area mismatches are warnings. The status and `ok` findings are errors. |
| ManifestCheck.TilesFindings | scripts/view_output.py:80-120 | The findings are the tile errors, the `ok` mismatch when present, then the warnings. |
| ManifestCheck.Verify | scripts/view_output.py:58-120 | Missing fields return `(False, missing-field errors)` immediately. A non-list `tiles` returns False. Otherwise the verdict is true exactly when there are no errors. |
| ManifestCheck.AggregatorManifestRejected | scripts/view_output.py:68-72 | Every manifest the aggregator writes is rejected for lacking `total_area`. |
| ManifestCheck.NonDictTileRaises | scripts/view_output.py:117 | A non-dict tile makes the `ok` check raise AttributeError. |
| ManifestCheck.CorrectedRaisesOnlyOnArithmetic | scripts/view_output.py:85-118 | With the guarded `ok` check, validation raises only on a non-numeric tile number, tile area or total. Each non-dict tile is reported by its index instead. |
| ManifestCheck.SummariesConsistent | lambda/aggregate/app.py:33-65 | In every summary the aggregator builds, `ok` is true exactly when every tile row's status is `"ok"`. |
| ManifestCheck.CorrectedAcceptsAggregatorManifests | scripts/view_output.py:58-120 | With the aggregator's field names, a consistent manifest validates without raising. It is valid exactly when its `ok` is true. |
| Text.Lower | lambda/process/app.py:26 | `lower()` keeps the length and maps each ASCII capital to its small letter. |
| Text.LastSegment | lambda/ingest/app.py:62 | `split("/")[-1]` is a slash-free suffix that is the whole string or follows a slash. |
| PyJson.ToInt | lambda/process/app.py:17-18 | `int()` keeps integers, truncates floats toward zero, parses digit strings, and raises TypeError on other values. |
| PyJson.IntToStringRoundTrip | lambda/ingest/app.py:30 | The decimal text of an integer parses back to it. |
| Pipeline.ShardRoundTrip | lambda/process/app.py:115-122 | What a shard returns decodes to exactly its statistics in the aggregator. |
| Pipeline.ShardsDecode | lambda/aggregate/app.py:47-63 | Every shard result decodes, to its own statistics. |
| Pipeline.AccumulateIsFold | lambda/process/app.py:88-111 | The shard loop equals the fold of its selected features' contributions. |
| Pipeline.HandledShardIsFold | lambda/process/app.py:45-57 | A shard that handled a GeoJSON work item reports the fold of the contributions of exactly the features its tile selects. |
| Pipeline.ShardsSumToWhole | lambda/process/app.py:88-90 | The shards' contributions together fold to the whole file's. |
| Pipeline.ShardMergeExact | lambda/process/app.py:88-111 | Merging the `num_tiles` shards' statistics gives exactly what one shard over the whole file computes. |
| Pipeline.WholeFileClassifies | lambda/process/app.py:88-111 | If every shard succeeds, the whole file classifies. |
| Pipeline.PipelineTotals | lambda/aggregate/app.py:47-63 | The aggregator's totals over the shard results equal a single pass over the whole file. |
| Pipeline.UploadKeyNamesDataset | lambda/api/app.py:61 | The partitioner derives the uploaded dataset's own id from the key the API builds. |
| Pipeline.StatusEventRecorded | lambda/aggregate/app.py:113-117 | The status call records COMPLETED or FAILED, the wrapped summary and the manifest key. |
| Pipeline.StatusEventRead | lambda/update_status/app.py:23-29 | The status tracker reads the aggregator's status call as sent. |
| Pipeline.ReturnedSummaryRecordsCompleted | lambda/update_status/app.py:18-28 | The aggregator's return value carries no status, so the tracker records COMPLETED for it even when a tile failed. |
| Pipeline.TriangleClassified | lambda/process/app.py:102-105 | The triangle feature classifies as a Polygon with its three vertices. |
| Pipeline.WorkedExample | lambda/process/app.py:88-122 | A Point, a triangle and a LineString in one shard give one of each count, area 2, the triangle's bbox and the point as centroid. |

## Left out

- Storage and service calls are not modelled: object get/put, `put_item`, `get_item`, `scan`, `start_execution`, the metrics and the Lambda `invoke`. Their results are parameters: the object's contents, the execution ARN, the `Outcome` flags and the scanned items.
  - The asynchronous `invoke` fallback is not modelled separately: any status-call outcome leaves the response unchanged.
- Clocks are not modelled. `datetime.utcnow()` is a `now` string parameter, and the notification's processing-time text is omitted.
  - The ingest and upload records read the clock twice, once for `createdAt` and once for `updatedAt` (lambda/ingest/app.py:65-66, lambda/api/app.py:77-78). Both readings are taken as the same `now`, so the model's two fields are always equal.
- Decoding is left to parameters. `json.loads` of the object, of the API body and of the JSON round trip in the status handler are given as already-parsed `Json` values or as the `Decoders` parameter. The same holds for `base64.b64decode`.
- Floats are exact reals. There is no IEEE rounding, overflow, infinity or NaN.
- The figures a notification prints with `:,` and `:.6f` are not formatted. Only whether they raise is modelled.
- Notify.FormatSuccess: the figures made up with `random` for an empty-looking summary are not modelled; only their presence and fixed sections are.
- The notification banner prose and message text are not modelled.
- PyJson.ToFloat: `float()` of a numeric string raises ValueError here. The source parses such strings; the model does not.
- PyJson.ToInt: `int()` of a string accepts only an optional sign and ASCII digits. Surrounding whitespace and `_` separators are not accepted.
- Text.Lower: only ASCII letters are lower-cased.
- PyJson.Display: `str()` is exact for strings, None, booleans and integers. Floats, lists and dicts get a placeholder text.
- Api.Handle: a 500 response carries the exception's class name rather than Python's message text.
- Process.FeaturesOf: a `features` value that is present but not a list raises TypeError. Python's iteration over a dict's keys or a string's characters is not modelled.
- Aggregate.BboxOf: a four-element bbox with a non-number entry raises TypeError at once. Python raises only when `min`/`max` compares that entry with a value it cannot be ordered against.
- Integer bbox entries are read as reals; Python keeps them as ints until `min`/`max` mixes them with floats.
- Api.Status: the JSON round trip applied to a DynamoDB-shaped `result` is the identity, since stored values are already JSON. A GetItem failure other than a non-string key is not modelled.
- Api.Upload, Ingest.Handle and Process.Handle assume three outside calls succeed. These are the upload's `s3.put_object`, whose exception the source turns into a 500, ingest's `sfn.start_execution`, and the shard's `put_metric_data` before processing; the last two raise out of their handlers. Modelling their failures would add an outcome parameter for each and change no other branch.
- The table's value types (`Decimal` numbers) and scan pagination are not modelled.
  - A real DynamoDB write of a Python float raises TypeError. The aggregate's summary holds floats (lambda/aggregate/app.py:29,52,79), so the status update's `update_item` (lambda/update_status/app.py:53-58) would raise on it. Pipeline.StatusEventRecorded and UpdateStatus.WrittenFields describe the record the update would produce if the table accepted floats.
  - Api.Upload: stores the PENDING record even for a float `fileName` or `fileType`. There the real `put_item` (lambda/api/app.py:70-82) raises; the source prints that error, stores nothing and still answers 200.
- Process.ProcessGeotiff: the GeoTIFF stub is its fixed mock statistics. The header read is modelled only as succeeding or failing.
- The exception texts of raised errors are not modelled, except the ones a handler builds itself.
- The manifest validator's float tolerance comparisons are computed in exact reals.
- Infrastructure definitions, the web frontend, and the validator's CLI and I/O functions are not part of this model.

## Findings

| source | as written | input that shows it | evidently intended | confidence | as-written member | corrected member |
|---|---|---|---|---|---|---|
| scripts/view_output.py:68-69 | The validator requires a top-level `total_area` and a per-tile `area`. The aggregator writes `polygonArea` and per-tile `polygonAreaSum` instead. | Any manifest the aggregator writes, for example one for an empty result list. | Check the aggregator's field names, so that a consistent manifest validates. | not executed | ManifestCheck.AggregatorManifestRejected | ManifestCheck.CorrectedAcceptsAggregatorManifests |
| scripts/view_output.py:117 | The `ok` check calls `t.get` on every tile. A non-dict tile, already reported as "not an object", makes it raise AttributeError. | `{"tiles": [5], "ok": true, "total_area": 0}` | Count a non-dict tile as not ok in the `ok` check instead of calling `.get` on it. The tile is already reported as "not an object", so the manifest is invalid rather than crashing the validator. | not executed | ManifestCheck.NonDictTileRaises | ManifestCheck.CorrectedRaisesOnlyOnArithmetic |

=== FILE: accumulator.dfy ===
/**
 * The statistics one shard accumulates and the aggregator sums: counts,
 * raw coordinate sums (never pre-divided), summed polygon area and the
 * bounding box. `Combine` makes them a commutative monoid, which is why
 * the merge of shard results is exact and independent of shard order.
 */
module Accumulator {
  import opened Wrappers
  import opened PyJson
  import opened Geometry

  datatype Stats = Stats(
    pointCount: int,
    sumX: real,
    sumY: real,
    polygonCount: int,
    polygonArea: real,
    otherCount: int,
    bbox: Option<Box>)

  /** The accumulator before any feature is seen (`bbox` still the sentinel). */
  const Zero: Stats := Stats(0, 0.0, 0.0, 0, 0.0, 0, None)

  /** Field-wise sum, with the bbox merge of the aggregator. */
  function Combine(a: Stats, b: Stats): Stats {
    Stats(
      a.pointCount + b.pointCount,
      a.sumX + b.sumX,
      a.sumY + b.sumY,
      a.polygonCount + b.polygonCount,
      a.polygonArea + b.polygonArea,
      a.otherCount + b.otherCount,
      MergeBox(a.bbox, b.bbox))
  }

  lemma CombineIdentity(a: Stats)
    ensures Combine(Zero, a) == a && Combine(a, Zero) == a
  {
  }

  lemma CombineCommutes(a: Stats, b: Stats)
    ensures Combine(a, b) == Combine(b, a)
  {
    MergeBoxCommutes(a.bbox, b.bbox);
  }

  lemma CombineAssociates(a: Stats, b: Stats, c: Stats)
    ensures Combine(Combine(a, b), c) == Combine(a, Combine(b, c))
  {
    MergeBoxAssociates(a.bbox, b.bbox, c.bbox);
  }

  /** The aggregator's loop: combine the partial results in order, starting from `Zero`. */
  function Fold(ts: seq<Stats>): Stats {
    if |ts| == 0 then Zero else Combine(Fold(ts[..|ts| - 1]), ts[|ts| - 1])
  }

  lemma {:induction false} FoldConcat(a: seq<Stats>, b: seq<Stats>)
    ensures Fold(a + b) == Combine(Fold(a), Fold(b))
    decreases |b|
  {
    if |b| == 0 {
      assert a + b == a;
      CombineIdentity(Fold(a));
    } else {
      var b' := b[..|b| - 1];
      assert (a + b)[..|a + b| - 1] == a + b';
      assert (a + b)[|a + b| - 1] == b[|b| - 1];
      FoldConcat(a, b');
      CombineAssociates(Fold(a), Fold(b'), b[|b| - 1]);
    }
  }

  lemma FoldSingle(x: Stats)
    ensures Fold([x]) == x
  {
    assert [x][..0] == [];
    CombineIdentity(x);
  }

  /** Removing element `i` from the middle of a fold and combining it at the end. */
  lemma FoldExtract(b: seq<Stats>, i: nat)
    requires i < |b|
    ensures Fold(b) == Combine(Fold(b[..i] + b[i + 1..]), b[i])
  {
    assert b == b[..i] + [b[i]] + b[i + 1..];
    FoldConcat(b[..i] + [b[i]], b[i + 1..]);
    FoldConcat(b[..i], [b[i]]);
    FoldSingle(b[i]);
    FoldConcat(b[..i], b[i + 1..]);
    var l, x, r := Fold(b[..i]), b[i], Fold(b[i + 1..]);
    CombineAssociates(l, x, r);
    CombineCommutes(x, r);
    CombineAssociates(l, r, x);
  }

  /** The merge does not depend on the order the partial results arrive in. */
  lemma {:induction false} FoldPermutation(a: seq<Stats>, b: seq<Stats>)
    requires multiset(a) == multiset(b)
    ensures Fold(a) == Fold(b)
    decreases |a|
  {
    if |a| == 0 {
      assert |b| == |multiset(b)| == 0;
    } else {
      var n := |a|;
      var x := a[n - 1];
      assert x in multiset(b) by {
        assert a == a[..n - 1] + [x];
        assert x in multiset(a);
      }
      var i :| 0 <= i < |b| && b[i] == x;
      var b' := b[..i] + b[i + 1..];
      assert b == b[..i] + [x] + b[i + 1..];
      assert a == a[..n - 1] + [x];
      assert multiset(a[..n - 1]) == multiset(b') by {
        calc {
          multiset(a[..n - 1]) + multiset{x};
          multiset(a);
          multiset(b);
          multiset(b[..i] + [x] + b[i + 1..]);
          multiset(b[..i]) + multiset{x} + multiset(b[i + 1..]);
          multiset(b') + multiset{x};
        }
        assert multiset(a[..n - 1]) == multiset(a[..n - 1]) + multiset{x} - multiset{x};
        assert multiset(b') == multiset(b') + multiset{x} - multiset{x};
      }
      FoldPermutation(a[..n - 1], b');
      FoldExtract(b, i);
    }
  }

  /** Each side of `b` is that side of the bbox of some partial result in `ts`. */
  predicate SidesAttained(b: Box, ts: seq<Stats>) {
    && (exists k :: 0 <= k < |ts| && ts[k].bbox.Some? && ts[k].bbox.value.minX == b.minX)
    && (exists k :: 0 <= k < |ts| && ts[k].bbox.Some? && ts[k].bbox.value.minY == b.minY)
    && (exists k :: 0 <= k < |ts| && ts[k].bbox.Some? && ts[k].bbox.value.maxX == b.maxX)
    && (exists k :: 0 <= k < |ts| && ts[k].bbox.Some? && ts[k].bbox.value.maxY == b.maxY)
  }

  /**
   * The merged bbox is `None` exactly when no partial result has one, and
   * otherwise encloses every partial result's bbox while each of its sides
   * is that side of some partial bbox: the min of the mins and the max of
   * the maxes.
   */
  lemma {:induction false} FoldBbox(ts: seq<Stats>)
    ensures Fold(ts).bbox.None? <==> forall k :: 0 <= k < |ts| ==> ts[k].bbox.None?
    ensures Fold(ts).bbox.Some? ==>
      forall k :: 0 <= k < |ts| && ts[k].bbox.Some? ==> Encloses(Fold(ts).bbox.value, ts[k].bbox.value)
    ensures Fold(ts).bbox.Some? ==> SidesAttained(Fold(ts).bbox.value, ts)
    decreases |ts|
  {
    if |ts| > 0 {
      var init := ts[..|ts| - 1];
      FoldBbox(init);
      forall k | 0 <= k < |ts| - 1
        ensures ts[k] == init[k]
      {
      }
      if Fold(ts).bbox.Some? {
        forall k | 0 <= k < |ts| && ts[k].bbox.Some?
          ensures Encloses(Fold(ts).bbox.value, ts[k].bbox.value)
        {
        }
        var n := |ts| - 1;
        if Fold(init).bbox.Some? {
          SidesAttainedExtend(Fold(init).bbox.value, init, ts[n]);
        }
        assert ts == init + [ts[n]];
      }
    }
  }

  /** Merging one more partial result keeps every side attained. */
  lemma SidesAttainedExtend(b: Box, init: seq<Stats>, x: Stats)
    requires SidesAttained(b, init)
    ensures var m := MergeBox(Some(b), x.bbox).value; SidesAttained(m, init + [x])
  {
    var ts := init + [x];
    var m := MergeBox(Some(b), x.bbox).value;
    assert forall k :: 0 <= k < |init| ==> ts[k] == init[k];
    assert ts[|init|] == x;
  }

  /** A partial result without a bbox never affects the merged bbox. */
  lemma BoxlessIgnored(a: seq<Stats>, x: Stats, b: seq<Stats>)
    requires x.bbox.None?
    ensures Fold(a + [x] + b).bbox == Fold(a + b).bbox
  {
    var ts := a + [x] + b;
    FoldExtract(ts, |a|);
    assert ts[..|a|] + ts[|a| + 1..] == a + b;
  }

  /** A bbox as the result dicts carry it: a 4-element list, or `None`. */
  function BoxToJson(b: Option<Box>): Json {
    match b
    case None => Null
    case Some(bx) => Arr([Float(bx.minX), Float(bx.minY), Float(bx.maxX), Float(bx.maxY)])
  }

  /** `[f(x) for x in xs]` */
  function MapSeq<A, B>(f: A -> B, xs: seq<A>): (ys: seq<B>)
    ensures |ys| == |xs|
    ensures forall k :: 0 <= k < |xs| ==> ys[k] == f(xs[k])
  {
    seq(|xs|, k requires 0 <= k < |xs| => f(xs[k]))
  }

  lemma MapConcat<A, B>(f: A -> B, a: seq<A>, b: seq<A>)
    ensures MapSeq(f, a + b) == MapSeq(f, a) + MapSeq(f, b)
  {
  }

  /** Removing one element before mapping removes its image after. */
  lemma MapRemove<A, B>(f: A -> B, ys: seq<A>, i: nat)
    requires i < |ys|
    ensures multiset(MapSeq(f, ys)) == multiset(MapSeq(f, ys[..i] + ys[i + 1..])) + multiset{f(ys[i])}
  {
    assert ys == ys[..i] + [ys[i]] + ys[i + 1..];
    MapConcat(f, ys[..i] + [ys[i]], ys[i + 1..]);
    MapConcat(f, ys[..i], [ys[i]]);
    MapConcat(f, ys[..i], ys[i + 1..]);
  }

  /** Mapping a permutation gives a permutation. */
  lemma {:induction false} MapPermutation<A, B>(f: A -> B, xs: seq<A>, ys: seq<A>)
    requires multiset(xs) == multiset(ys)
    ensures multiset(MapSeq(f, xs)) == multiset(MapSeq(f, ys))
    decreases |xs|
  {
    if |xs| == 0 {
      assert |ys| == |multiset(ys)| == 0;
    } else {
      var x := xs[0];
      assert x in multiset(xs);
      var i :| 0 <= i < |ys| && ys[i] == x;
      var ys' := ys[..i] + ys[i + 1..];
      assert multiset(xs[1..]) == multiset(ys') by {
        assert xs == [x] + xs[1..];
        assert ys == ys[..i] + [x] + ys[i + 1..];
        calc {
          multiset(xs[1..]) + multiset{x};
          multiset(xs);
          multiset(ys);
          multiset(ys[..i]) + multiset{x} + multiset(ys[i + 1..]);
          multiset(ys') + multiset{x};
        }
        assert multiset(xs[1..]) == multiset(xs[1..]) + multiset{x} - multiset{x};
        assert multiset(ys') == multiset(ys') + multiset{x} - multiset{x};
      }
      MapPermutation(f, xs[1..], ys');
      MapRemove(f, xs, 0);
      MapRemove(f, ys, i);
      assert xs[..0] + xs[1..] == xs[1..];
    }
  }
}

=== FILE: aggregate.dfy ===
/**
 * The aggregator (`lambda/aggregate/app.py`): it normalises the Map state's
 * output into a list of shard results, folds their statistics into one
 * summary, writes the manifest and forwards a status event.
 */
module Aggregate {
  import opened Wrappers
  import opened PyJson
  import opened Geometry
  import opened Accumulator

  // ---------------------------------------------------------------------
  // Input normalisation
  // ---------------------------------------------------------------------

  /** The list of shard results the event carries. */
  function Normalize(event: Json): (results: seq<Json>)
    ensures event.Arr? ==> results == event.elems
    ensures !event.Arr? && !(event.Obj? && "Payload" in event.fields) ==> results == [event]
  {
    if event.Arr? then event.elems
    else if event.Obj? && "Payload" in event.fields then
      var p := event.fields["Payload"];
      if p.Arr? then p.elems else [p]
    else [event]
  }

  /**
   * The two shapes a Map state's output reaches the aggregator in, a bare
   * list or a dict wrapping it under `Payload`, give the same results, and
   * a single wrapped result is treated as a one-element list.
   */
  lemma NormalizeShapes(xs: seq<Json>, x: Json)
    ensures Normalize(Obj(map["Payload" := Arr(xs)])) == Normalize(Arr(xs)) == xs
    ensures !x.Arr? ==> Normalize(Obj(map["Payload" := x])) == Normalize(Arr([x])) == [x]
  {
  }

  // ---------------------------------------------------------------------
  // One shard result
  // ---------------------------------------------------------------------

  /** The per-tile row of the summary: the result's own values, with count defaults. */
  datatype TileRow = TileRow(
    tile: Json,
    status: Json,
    pointCount: Json,
    polygonCount: Json,
    polygonAreaSum: Json,
    otherCount: Json)

  function RowOf(d: Dict): TileRow {
    TileRow(
      Get(d, "tile"),
      Get(d, "status"),
      GetOr(d, "pointCount", Int(0)),
      GetOr(d, "polygonCount", Int(0)),
      GetOr(d, "polygonAreaSum", Float(0.0)),
      GetOr(d, "otherCount", Int(0)))
  }

  /** `r.get("pointSum") or [0.0, 0.0]`, then `float(ps[0])` and `float(ps[1])`. */
  function PointSumOf(d: Dict): (r: Result<(real, real), Error>)
    ensures !Truthy(Get(d, "pointSum")) ==> r == Ok((0.0, 0.0))
    ensures var ps := Get(d, "pointSum");
      ps.Arr? && |ps.elems| >= 2 && ToFloat(ps.elems[0]).Ok? && ToFloat(ps.elems[1]).Ok? ==>
      r == Ok((ToFloat(ps.elems[0]).value, ToFloat(ps.elems[1]).value))
  {
    var ps := Or(Get(d, "pointSum"), Arr([Float(0.0), Float(0.0)]));
    var x :- Subscript(ps, 0);
    var sx :- ToFloat(x);
    var y :- Subscript(ps, 1);
    var sy :- ToFloat(y);
    Ok((sx, sy))
  }

  /** A 4-element list of numbers. */
  predicate IsBboxList(j: Json) {
    j.Arr? && |j.elems| == 4 && forall k :: 0 <= k < 4 ==> ToFloat(j.elems[k]).Ok?
  }

  /**
   * The result's bbox when it is a 4-element list; any other value is
   * skipped. The entries of a 4-element list must be numbers.
   */
  function BboxOf(d: Dict): (r: Result<Option<Box>, Error>)
    ensures r.Ok? && r.value.Some? <==> IsBboxList(Get(d, "bbox"))
    ensures r == Ok(None) <==> !(Get(d, "bbox").Arr? && |Get(d, "bbox").elems| == 4)
  {
    var bb := Get(d, "bbox");
    if bb.Arr? && |bb.elems| == 4 then
      if IsBboxList(bb) then
        Ok(Some(Box(ToFloat(bb.elems[0]).value, ToFloat(bb.elems[1]).value,
                    ToFloat(bb.elems[2]).value, ToFloat(bb.elems[3]).value)))
      else Err(TypeError)
    else Ok(None)
  }

  /** A bbox a shard writes is read back as the same box. */
  lemma BboxRoundTrip(d: Dict, b: Option<Box>)
    ensures BboxOf(d["bbox" := BoxToJson(b)]) == Ok(b)
  {
  }

  /**
   * The statistics one loop iteration adds, in the order the source reads
   * them; the first conversion that fails raises.
   */
  function StatsOf(r: Json): (s: Result<Stats, Error>)
    ensures s.Ok? ==> r.Obj?
    ensures !r.Obj? ==> s == Err(AttributeError)
    ensures s.Ok? ==> BboxOf(r.fields) == Ok(s.value.bbox)
    ensures s.Ok? ==> ToInt(GetOr(r.fields, "pointCount", Int(0))) == Ok(s.value.pointCount)
    ensures s.Ok? ==> ToInt(GetOr(r.fields, "polygonCount", Int(0))) == Ok(s.value.polygonCount)
    ensures s.Ok? ==> ToInt(GetOr(r.fields, "otherCount", Int(0))) == Ok(s.value.otherCount)
    ensures s.Ok? ==> ToFloat(GetOr(r.fields, "polygonAreaSum", Float(0.0))) == Ok(s.value.polygonArea)
    ensures s.Ok? ==> PointSumOf(r.fields) == Ok((s.value.sumX, s.value.sumY))
    ensures r.Obj? && (forall k :: k in r.fields ==> k == "tile" || k == "status" || k == "datasetId") ==>
      s == Ok(Zero)
    ensures r.Obj? ==>
      var d := r.fields;
      s.Ok? <==>
        && ToInt(GetOr(d, "pointCount", Int(0))).Ok?
        && PointSumOf(d).Ok?
        && ToInt(GetOr(d, "polygonCount", Int(0))).Ok?
        && ToFloat(GetOr(d, "polygonAreaSum", Float(0.0))).Ok?
        && ToInt(GetOr(d, "otherCount", Int(0))).Ok?
        && BboxOf(d).Ok?
  {
    if !r.Obj? then Err(AttributeError)
    else
      var d := r.fields;
      var pc :- ToInt(GetOr(d, "pointCount", Int(0)));
      var ps :- PointSumOf(d);
      var gc :- ToInt(GetOr(d, "polygonCount", Int(0)));
      var area :- ToFloat(GetOr(d, "polygonAreaSum", Float(0.0)));
      var oc :- ToInt(GetOr(d, "otherCount", Int(0)));
      var bb :- BboxOf(d);
      Ok(Stats(pc, ps.0, ps.1, gc, area, oc, bb))
  }

  /** The statistics of a result that decodes, `Zero` for one that does not. */
  function StatsOrZero(r: Json): Stats {
    if StatsOf(r).Ok? then StatsOf(r).value else Zero
  }

  predicate AllDecode(results: seq<Json>) {
    forall k :: 0 <= k < |results| ==> StatsOf(results[k]).Ok?
  }

  /** The loop over the results: the first one that raises ends the handler. */
  function DecodeAll(results: seq<Json>): (r: Result<seq<Stats>, Error>)
    ensures r.Ok? <==> AllDecode(results)
    ensures r.Ok? ==> r.value == MapSeq(StatsOrZero, results)
    ensures r.Err? ==> exists k :: 0 <= k < |results| && StatsOf(results[k]) == Err(r.error)
  {
    if |results| == 0 then Ok([])
    else
      var head :- StatsOf(results[0]);
      var tail :- DecodeAll(results[1..]);
      assert forall k :: 1 <= k < |results| ==> results[k] == results[1..][k - 1];
      Ok([head] + tail)
  }

  // ---------------------------------------------------------------------
  // The summary
  // ---------------------------------------------------------------------

  /** The first `datasetId` that is a non-empty string. */
  predicate IsIdString(j: Json) {
    j.Str? && |j.s| > 0
  }

  function IdOf(r: Json): Json {
    if r.Obj? then Get(r.fields, "datasetId") else Null
  }

  function FirstDatasetId(results: seq<Json>): (id: string)
    ensures id == "" <==> forall k :: 0 <= k < |results| ==> !IsIdString(IdOf(results[k]))
    ensures id != "" ==>
      exists k :: 0 <= k < |results| && IdOf(results[k]) == Str(id) && (forall j :: 0 <= j < k ==> !IsIdString(IdOf(results[j])))
  {
    if |results| == 0 then ""
    else if IsIdString(IdOf(results[0])) then IdOf(results[0]).s
    else
      var id := FirstDatasetId(results[1..]);
      assert forall k :: 1 <= k < |results| ==> results[k] == results[1..][k - 1];
      id
  }

  function Centroid(totals: Stats): (c: Option<(real, real)>)
    ensures c.Some? <==> totals.pointCount > 0
    ensures c.Some? ==>
      c.value.0 * totals.pointCount as real == totals.sumX &&
      c.value.1 * totals.pointCount as real == totals.sumY
  {
    if totals.pointCount > 0 then
      Some((totals.sumX / totals.pointCount as real, totals.sumY / totals.pointCount as real))
    else None
  }

  datatype Summary = Summary(
    datasetId: string,
    ok: bool,
    tiles: seq<TileRow>,
    totals: Stats,
    centroid: Option<(real, real)>)

  predicate StatusOk(r: Json)
    requires r.Obj?
  {
    Get(r.fields, "status") == Str("ok")
  }

  /** The summary of a list of shard results, or the exception its loop raises. */
  function Summarize(results: seq<Json>): (r: Result<Summary, Error>)
    ensures r.Ok? <==> AllDecode(results)
    ensures r.Ok? ==> |r.value.tiles| == |results|
    ensures r.Ok? ==>
      forall k :: 0 <= k < |results| ==> results[k].Obj? && r.value.tiles[k] == RowOf(results[k].fields)
    ensures r.Ok? ==> r.value.totals == Fold(MapSeq(StatsOrZero, results))
    ensures r.Ok? ==> (r.value.ok <==> forall k :: 0 <= k < |results| ==> StatusOk(results[k]))
    ensures r.Ok? ==> r.value.centroid == Centroid(r.value.totals)
    ensures r.Ok? ==> r.value.datasetId == FirstDatasetId(results)
  {
    var stats :- DecodeAll(results);
    var tiles := seq(|results|, k requires 0 <= k < |results| => RowOf(results[k].fields));
    var ok := forall k :: 0 <= k < |results| ==> Get(results[k].fields, "status") == Str("ok");
    var totals := Fold(stats);
    Ok(Summary(FirstDatasetId(results), ok, tiles, totals, Centroid(totals)))
  }

  /** The summary the handler builds from its event. */
  function Aggregate(event: Json): Result<Summary, Error> {
    Summarize(Normalize(event))
  }

  lemma SameElements(xs: seq<Json>, ys: seq<Json>)
    requires multiset(xs) == multiset(ys)
    ensures forall x :: x in xs <==> x in ys
  {
    forall x
      ensures x in xs <==> x in ys
    {
      assert x in xs <==> x in multiset(xs);
      assert x in ys <==> x in multiset(ys);
    }
  }

  /**
   * The totals, the merged bbox, the all-ok flag and the centroid do not
   * depend on the order the shard results arrive in; neither does whether
   * the loop raises.
   */
  lemma OrderIndependent(xs: seq<Json>, ys: seq<Json>)
    requires multiset(xs) == multiset(ys)
    ensures Summarize(xs).Ok? <==> Summarize(ys).Ok?
    ensures Summarize(xs).Ok? ==>
      Summarize(xs).value.totals == Summarize(ys).value.totals &&
      Summarize(xs).value.ok == Summarize(ys).value.ok &&
      Summarize(xs).value.centroid == Summarize(ys).value.centroid
  {
    SameElements(xs, ys);
    DecodeOrderIndependent(xs, ys);
    if AllDecode(xs) {
      StatusOrderIndependent(xs, ys);
      MapPermutation(StatsOrZero, xs, ys);
      FoldPermutation(MapSeq(StatsOrZero, xs), MapSeq(StatsOrZero, ys));
    }
  }

  lemma DecodeOrderIndependent(xs: seq<Json>, ys: seq<Json>)
    requires forall x :: x in xs <==> x in ys
    ensures AllDecode(xs) <==> AllDecode(ys)
  {
    if AllDecode(xs) {
      forall k | 0 <= k < |ys|
        ensures StatsOf(ys[k]).Ok?
      {
        assert ys[k] in xs;
      }
    }
    if AllDecode(ys) {
      forall k | 0 <= k < |xs|
        ensures StatsOf(xs[k]).Ok?
      {
        assert xs[k] in ys;
      }
    }
  }

  lemma StatusOrderIndependent(xs: seq<Json>, ys: seq<Json>)
    requires forall x :: x in xs <==> x in ys
    requires forall k :: 0 <= k < |xs| ==> xs[k].Obj?
    requires forall k :: 0 <= k < |ys| ==> ys[k].Obj?
    ensures (forall k :: 0 <= k < |xs| ==> StatusOk(xs[k])) <==> (forall k :: 0 <= k < |ys| ==> StatusOk(ys[k]))
  {
    if forall k :: 0 <= k < |xs| ==> StatusOk(xs[k]) {
      forall k | 0 <= k < |ys|
        ensures StatusOk(ys[k])
      {
        assert ys[k] in xs;
      }
    }
    if forall k :: 0 <= k < |ys| ==> StatusOk(ys[k]) {
      forall k | 0 <= k < |xs|
        ensures StatusOk(xs[k])
      {
        assert xs[k] in ys;
      }
    }
  }

  /** The bbox a result dict carries, when it carries a bbox list. */
  predicate CarriesBox(r: Json) {
    r.Obj? && IsBboxList(Get(r.fields, "bbox"))
  }

  /** Each side of `b` is that side of the bbox some result carries. */
  predicate ResultSidesAttained(b: Box, results: seq<Json>) {
    && (exists k :: 0 <= k < |results| && CarriesBox(results[k]) && BboxOf(results[k].fields).value.value.minX == b.minX)
    && (exists k :: 0 <= k < |results| && CarriesBox(results[k]) && BboxOf(results[k].fields).value.value.minY == b.minY)
    && (exists k :: 0 <= k < |results| && CarriesBox(results[k]) && BboxOf(results[k].fields).value.value.maxX == b.maxX)
    && (exists k :: 0 <= k < |results| && CarriesBox(results[k]) && BboxOf(results[k].fields).value.value.maxY == b.maxY)
  }

  /**
   * The merged bbox is `None` exactly when no result carries a bbox list;
   * otherwise it encloses every result's bbox, and each of its sides is
   * that side of some result's bbox.
   */
  lemma MergedBboxEnclosesAll(results: seq<Json>)
    ensures Summarize(results).Ok? ==> var t := Summarize(results).value.totals;
      t.bbox.None? <==> forall k :: 0 <= k < |results| ==> !IsBboxList(Get(results[k].fields, "bbox"))
    ensures Summarize(results).Ok? ==> var t := Summarize(results).value.totals;
      forall k :: 0 <= k < |results| && IsBboxList(Get(results[k].fields, "bbox")) ==>
        t.bbox.Some? && Encloses(t.bbox.value, BboxOf(results[k].fields).value.value)
    ensures Summarize(results).Ok? && Summarize(results).value.totals.bbox.Some? ==>
      ResultSidesAttained(Summarize(results).value.totals.bbox.value, results)
  {
    if Summarize(results).Ok? {
      var ts := MapSeq(StatsOrZero, results);
      FoldBbox(ts);
      var t := Summarize(results).value.totals;
      if t.bbox.Some? {
        var b := t.bbox.value;
        assert SidesAttained(b, ts);
        forall k | 0 <= k < |results| && ts[k].bbox.Some?
          ensures CarriesBox(results[k]) && BboxOf(results[k].fields).value.value == ts[k].bbox.value
        {
        }
        var k0 :| 0 <= k0 < |ts| && ts[k0].bbox.Some? && ts[k0].bbox.value.minX == b.minX;
        var k1 :| 0 <= k1 < |ts| && ts[k1].bbox.Some? && ts[k1].bbox.value.minY == b.minY;
        var k2 :| 0 <= k2 < |ts| && ts[k2].bbox.Some? && ts[k2].bbox.value.maxX == b.maxX;
        var k3 :| 0 <= k3 < |ts| && ts[k3].bbox.Some? && ts[k3].bbox.value.maxY == b.maxY;
        assert CarriesBox(results[k0]) && CarriesBox(results[k1]) && CarriesBox(results[k2]) && CarriesBox(results[k3]);
      }
    }
  }

  /**
   * The centroid weights each shard by its point count: counts 2 and 3 with
   * sums (2, 4) and (9, 12) give (2.2, 3.2), not the mean of the per-shard
   * centroids (1, 2) and (3, 4).
   */
  lemma WeightedCentroid()
    ensures var a := PointShard(2, 2.0, 4.0);
      var b := PointShard(3, 9.0, 12.0);
      Summarize([a, b]).Ok? && Summarize([a, b]).value.centroid == Some((2.2, 3.2))
  {
    var a, b := PointShard(2, 2.0, 4.0), PointShard(3, 9.0, 12.0);
    var t := Stats(5, 11.0, 16.0, 0, 0.0, 0, None);
    ExampleTotals();
    var r := Summarize([a, b]);
    assert r.Ok? && r.value.totals == t;
    assert Centroid(t) == Some((2.2, 3.2));
  }

  lemma ExampleTotals()
    ensures var a, b := PointShard(2, 2.0, 4.0), PointShard(3, 9.0, 12.0);
      AllDecode([a, b]) && Fold(MapSeq(StatsOrZero, [a, b])) == Stats(5, 11.0, 16.0, 0, 0.0, 0, None)
  {
    var a, b := PointShard(2, 2.0, 4.0), PointShard(3, 9.0, 12.0);
    var sa, sb := PointStats(2, 2.0, 4.0), PointStats(3, 9.0, 12.0);
    PointShardStats(2, 2.0, 4.0);
    PointShardStats(3, 9.0, 12.0);
    assert MapSeq(StatsOrZero, [a, b]) == [sa, sb];
    assert [sa, sb][..1] == [sa];
    FoldSingle(sa);
  }

  /** A shard result carrying only a point count and a point sum. */
  function PointShard(n: int, x: real, y: real): Json {
    Obj(map["pointCount" := Int(n), "pointSum" := Arr([Float(x), Float(y)])])
  }

  function PointStats(n: int, x: real, y: real): Stats {
    Stats(n, x, y, 0, 0.0, 0, None)
  }

  lemma PointShardStats(n: int, x: real, y: real)
    ensures StatsOf(PointShard(n, x, y)) == Ok(PointStats(n, x, y))
  {
    var d := PointShard(n, x, y).fields;
    assert GetOr(d, "pointCount", Int(0)) == Int(n);
    assert Get(d, "pointSum") == Arr([Float(x), Float(y)]);
    assert PointSumOf(d) == Ok((x, y));
    assert "polygonCount" !in d && "polygonAreaSum" !in d && "otherCount" !in d && "bbox" !in d;
    assert BboxOf(d) == Ok(None);
  }

  // ---------------------------------------------------------------------
  // The handler
  // ---------------------------------------------------------------------

  function TileRowToJson(t: TileRow): Json {
    Obj(map[
      "tile" := t.tile,
      "status" := t.status,
      "pointCount" := t.pointCount,
      "polygonCount" := t.polygonCount,
      "polygonAreaSum" := t.polygonAreaSum,
      "otherCount" := t.otherCount])
  }

  function CentroidToJson(c: Option<(real, real)>): Json {
    if c.Some? then Arr([Float(c.value.0), Float(c.value.1)]) else Null
  }

  /** The summary dict, as written to the manifest and returned. */
  function SummaryToJson(s: Summary): (j: Json)
    ensures j.Obj?
    ensures Get(j.fields, "datasetId") == Str(s.datasetId) && Get(j.fields, "ok") == Bool(s.ok)
    ensures Get(j.fields, "tiles").Arr? && |Get(j.fields, "tiles").elems| == |s.tiles|
    ensures Get(j.fields, "bbox") == BoxToJson(s.totals.bbox)
    ensures Get(j.fields, "pointCentroid") == CentroidToJson(s.centroid)
    ensures Get(j.fields, "pointCount") == Int(s.totals.pointCount)
    ensures Get(j.fields, "polygonCount") == Int(s.totals.polygonCount)
    ensures Get(j.fields, "polygonArea") == Float(s.totals.polygonArea)
    ensures Get(j.fields, "otherCount") == Int(s.totals.otherCount)
  {
    Obj(map[
      "datasetId" := Str(s.datasetId),
      "ok" := Bool(s.ok),
      "tiles" := Arr(MapSeq(TileRowToJson, s.tiles)),
      "bbox" := BoxToJson(s.totals.bbox),
      "pointCount" := Int(s.totals.pointCount),
      "pointCentroid" := CentroidToJson(s.centroid),
      "polygonCount" := Int(s.totals.polygonCount),
      "polygonArea" := Float(s.totals.polygonArea),
      "otherCount" := Int(s.totals.otherCount)])
  }

  /** The environment: `OUTPUT_BUCKET` and `UPDATE_STATUS_FUNCTION` (empty when unset). */
  datatype Config = Config(outputBucket: string, updateStatusFunction: string)

  /** Whether the manifest write and the metric write succeed. */
  datatype Outcome = Outcome(manifestStored: bool, metricStored: bool)

  /**
   * One run: the returned dict, the manifest key written (if any) and the
   * status event sent to the status updater (if any).
   */
  datatype Run = Run(response: Json, manifestKey: Option<string>, statusEvent: Option<Json>)

  /** The payload sent to the status updater. */
  function StatusEvent(s: Summary): (e: Json)
    ensures e.Obj? && Get(e.fields, "datasetId") == Str(s.datasetId)
    ensures Get(e.fields, "status") == Str("COMPLETED") <==> s.ok
    ensures Get(e.fields, "status") == Str("FAILED") <==> !s.ok
    ensures Get(e.fields, "result") == Obj(map["summary" := SummaryToJson(s)])
  {
    Obj(map[
      "datasetId" := Str(s.datasetId),
      "status" := Str(if s.ok then "COMPLETED" else "FAILED"),
      "result" := Obj(map["summary" := SummaryToJson(s)])])
  }

  function ManifestKey(datasetId: string): string {
    datasetId + "/manifest.json"
  }

  /** `handler(event, context)` */
  function Handle(event: Json, cfg: Config, out: Outcome): (r: Result<Run, Error>)
    ensures r.Ok? <==> Aggregate(event).Ok?
    ensures r.Ok? ==> var s := Aggregate(event).value;
      && r.value.response == Obj(map["summary" := SummaryToJson(s)])
      && (r.value.manifestKey.Some? <==> cfg.outputBucket != "" && s.datasetId != "")
      && (r.value.manifestKey.Some? ==> r.value.manifestKey.value == ManifestKey(s.datasetId))
      && (r.value.statusEvent.Some? <==>
          r.value.manifestKey.Some? && out.manifestStored && out.metricStored && cfg.updateStatusFunction != "")
      && (r.value.statusEvent.Some? ==> r.value.statusEvent.value == StatusEvent(s))
  {
    var s :- Aggregate(event);
    var key := if cfg.outputBucket != "" && s.datasetId != "" then Some(ManifestKey(s.datasetId)) else None;
    var sent := if key.Some? && out.manifestStored && out.metricStored && cfg.updateStatusFunction != ""
                then Some(StatusEvent(s)) else None;
    Ok(Run(Obj(map["summary" := SummaryToJson(s)]), key, sent))
  }

  /**
   * Failures of the manifest write, the metric or the status call are
   * swallowed: the returned dict is the same whatever the configuration
   * and whatever those calls do.
   */
  lemma ResponseIgnoresSideEffects(event: Json, c1: Config, o1: Outcome, c2: Config, o2: Outcome)
    ensures Handle(event, c1, o1).Ok? <==> Handle(event, c2, o2).Ok?
    ensures Handle(event, c1, o1).Ok? ==>
      Handle(event, c1, o1).value.response == Handle(event, c2, o2).value.response
  {
  }
}

=== FILE: api.dfy ===
/**
 * The HTTP API (`lambda/api/app.py`): it routes a proxy event by method
 * and path to the upload, status and job-list handlers, and wraps every
 * answer in the same CORS headers.
 */
module Api {
  import opened Wrappers
  import opened PyJson
  import opened Text
  import opened Jobs

  // ---------------------------------------------------------------------
  // Responses
  // ---------------------------------------------------------------------

  const CorsHeaders: map<string, string> := map[
    "Access-Control-Allow-Origin" := "*",
    "Access-Control-Allow-Headers" := "Content-Type",
    "Access-Control-Allow-Methods" := "GET,POST,OPTIONS",
    "Content-Type" := "application/json"]

  /** An HTTP response; `body` is the value whose JSON text is sent. */
  datatype Response = Response(statusCode: int, headers: map<string, string>, body: Json)

  /** `error_response(status_code, message)` */
  function ErrorResponse(code: int, message: string): (r: Response)
    ensures r.statusCode == code && r.headers == CorsHeaders
    ensures r.body.Obj? && r.body.fields.Keys == {"error"} && r.body.fields["error"] == Str(message)
  {
    Response(code, CorsHeaders, Obj(map["error" := Str(message)]))
  }

  /** `cors_response(data)` */
  function CorsResponse(data: Dict): (r: Response)
    ensures r.statusCode == 200 && r.headers == CorsHeaders && r.body == Obj(data)
  {
    Response(200, CorsHeaders, Obj(data))
  }

  /** Success and error responses differ only in code and body. */
  lemma SameHeaders(code: int, message: string, data: Dict)
    ensures ErrorResponse(code, message).headers == CorsResponse(data).headers
    ensures ErrorResponse(200, message).statusCode == CorsResponse(data).statusCode
  {
  }

  /** The text `str(e)` gives for a raised exception; only its class is modelled. */
  function Describe(e: Error): string {
    match e
    case TypeError => "TypeError"
    case AttributeError => "AttributeError"
    case KeyError => "KeyError"
    case IndexError => "IndexError"
    case ValueError => "ValueError"
    case Raised(m) => m
    case ReadFailure => "ReadFailure"
    case PersistenceError => "PersistenceError"
  }

  // ---------------------------------------------------------------------
  // Environment and decoders
  // ---------------------------------------------------------------------

  /** `INPUT_BUCKET` (empty when unset) and whether a job table is configured. */
  datatype Config = Config(inputBucket: string, tableConfigured: bool)

  /**
   * The two decoders the upload uses: `json.loads` on the body text and
   * whether `base64.b64decode` accepts a string.
   */
  datatype Decoders = Decoders(parseJson: string -> Option<Json>, base64Decodes: string -> bool)

  /** The object an upload stores: its key and content type. */
  datatype StoredObject = StoredObject(key: string, contentType: string)

  /** One request: the response, the object stored (if any) and the job table afterwards. */
  datatype Run = Run(response: Response, stored: Option<StoredObject>, table: Table)

  // ---------------------------------------------------------------------
  // Upload
  // ---------------------------------------------------------------------

  /** `json.loads(event.get("body", "{}"))` */
  function BodyOf(event: Dict, dec: Decoders): (r: Result<Json, Error>)
    ensures "body" !in event ==> r == Ok(Obj(map[]))
    ensures "body" in event && event["body"].Str? ==>
      (r.Ok? <==> dec.parseJson(event["body"].s).Some?)
    ensures "body" in event && !event["body"].Str? ==> r == Err(TypeError)
  {
    if "body" !in event then Ok(Obj(map[]))   // the default text "{}"
    else match event["body"]
      case Str(text) =>
        (match dec.parseJson(text)
         case Some(j) => Ok(j)
         case None => Err(ValueError))
      case _ => Err(TypeError)
  }

  /** `base64.b64decode(file_content)` succeeds. */
  function Decode64(content: Json, dec: Decoders): (r: Result<(), Error>)
    ensures r.Ok? <==> content.Str? && dec.base64Decodes(content.s)
  {
    if !content.Str? then Err(TypeError)
    else if dec.base64Decodes(content.s) then Ok(())
    else Err(ValueError)
  }

  /** The key an upload is stored under. */
  function UploadKey(datasetId: Json, fileName: Json): string {
    "ingest/" + Display(datasetId) + "/" + Display(fileName)
  }

  function ContentType(fileType: Json): string {
    if fileType == Str("geojson") then "application/json" else "image/tiff"
  }

  function PendingRecord(datasetId: Json, fileName: Json, fileType: Json, now: string): Item {
    map[
      "datasetId" := datasetId,
      "status" := Str("PENDING"),
      "fileName" := fileName,
      "fileType" := fileType,
      "createdAt" := Str(now),
      "updatedAt" := Str(now)]
  }

  /** `handle_upload(event)`; a raised exception is returned as `Err`. */
  function Upload(event: Dict, cfg: Config, dec: Decoders, now: string, table: Table): (r: Result<Run, Error>)
    ensures r.Ok? ==> BodyOf(event, dec).Ok? && BodyOf(event, dec).value.Obj?
    ensures r.Ok? ==> var b := BodyOf(event, dec).value.fields;
      var missing := !Truthy(Get(b, "datasetId")) || !Truthy(Get(b, "fileContent"));
      && (missing ==> r.value == Run(ErrorResponse(400, "Missing datasetId or fileContent"), None, table))
      && (!missing && cfg.inputBucket == "" ==> r.value == Run(ErrorResponse(500, "S3 not configured"), None, table))
      && (!missing && cfg.inputBucket != "" ==>
          var fileName := GetOr(b, "fileName", Str("upload.geojson"));
          var fileType := GetOr(b, "fileType", Str("geojson"));
          && r.value.stored == Some(StoredObject(UploadKey(b["datasetId"], fileName), ContentType(fileType)))
          && r.value.response == CorsResponse(map[
               "datasetId" := b["datasetId"],
               "status" := Str("PENDING"),
               "message" := Str("File uploaded successfully")]))
    ensures r.Ok? && r.value.stored.None? ==> r.value.table == table
    ensures BodyOf(event, dec).Err? ==> r.Err?
    ensures BodyOf(event, dec).Ok? && !BodyOf(event, dec).value.Obj? ==> r == Err(AttributeError)
    ensures BodyOf(event, dec).Ok? && BodyOf(event, dec).value.Obj? ==>
      var b := BodyOf(event, dec).value.fields;
      var missing := !Truthy(Get(b, "datasetId")) || !Truthy(Get(b, "fileContent"));
      && (r.Ok? <==> missing || Decode64(Get(b, "fileContent"), dec).Ok?)
      && (!missing && Decode64(Get(b, "fileContent"), dec).Err? ==> r == Err(Decode64(Get(b, "fileContent"), dec).error))
    ensures r.Ok? && r.value.stored.Some? ==>
      var b := BodyOf(event, dec).value.fields;
      var id := Get(b, "datasetId");
      var record := PendingRecord(id, GetOr(b, "fileName", Str("upload.geojson")), GetOr(b, "fileType", Str("geojson")), now);
      && (cfg.tableConfigured && ValidKey(id) ==> r.value.table == table[id.s := record])
      && (!cfg.tableConfigured || !ValidKey(id) ==> r.value.table == table)
  {
    var body :- BodyOf(event, dec);
    if !body.Obj? then Err(AttributeError)   // `body.get` on a non-dict
    else
      var b := body.fields;
      var datasetId := Get(b, "datasetId");
      var content := Get(b, "fileContent");
      var fileName := GetOr(b, "fileName", Str("upload.geojson"));
      var fileType := GetOr(b, "fileType", Str("geojson"));
      if !Truthy(datasetId) || !Truthy(content) then
        Ok(Run(ErrorResponse(400, "Missing datasetId or fileContent"), None, table))
      else
        var _ :- Decode64(content, dec);
        if cfg.inputBucket == "" then Ok(Run(ErrorResponse(500, "S3 not configured"), None, table))
        else
          var obj := StoredObject(UploadKey(datasetId, fileName), ContentType(fileType));
          var written := if cfg.tableConfigured then Put(table, PendingRecord(datasetId, fileName, fileType, now)) else Ok(table);
          Ok(Run(
            CorsResponse(map[
              "datasetId" := datasetId,
              "status" := Str("PENDING"),
              "message" := Str("File uploaded successfully")]),
            Some(obj),
            if written.Ok? then written.value else table))
  }

  // ---------------------------------------------------------------------
  // Status and job list
  // ---------------------------------------------------------------------

  /**
   * The status handler's check of a stored `result` raises TypeError: the
   * result is a non-empty dict without a dict `summary`, and it holds an
   * `"M"` entry that `"summary" in ...` cannot search (a number, a bool or
   * null). Every other result is passed on unchanged.
   */
  predicate ResultCheckRaises(result: Json) {
    && Truthy(result) && result.Obj?
    && !("summary" in result.fields && result.fields["summary"].Obj?)
    && "M" in result.fields && !Container(result.fields["M"])
  }

  /** `handle_status(dataset_id)` */
  function Status(datasetId: Json, cfg: Config, table: Table): (r: Response)
    ensures !cfg.tableConfigured ==> r == ErrorResponse(500, "DynamoDB not configured")
    ensures cfg.tableConfigured && datasetId.Str? && datasetId.s !in table ==> r == ErrorResponse(404, "Job not found")
    ensures cfg.tableConfigured && datasetId.Str? && datasetId.s in table &&
            ResultCheckRaises(Get(table[datasetId.s], "result")) ==>
      r == ErrorResponse(500, "Error querying DynamoDB: TypeError")
    ensures cfg.tableConfigured && datasetId.Str? && datasetId.s in table &&
            !ResultCheckRaises(Get(table[datasetId.s], "result")) ==>
      var item := table[datasetId.s];
      && r.statusCode == 200 && r.body.Obj?
      && r.body.fields.Keys == {"datasetId", "status", "fileName", "fileType", "createdAt", "updatedAt", "result", "error"}
      && r.body.fields["datasetId"] == datasetId
      && r.body.fields["status"] == GetOr(item, "status", Str("UNKNOWN"))
      && r.body.fields["result"] == Get(item, "result")
      && r.body.fields["error"] == Get(item, "error")
      && r.body.fields["fileName"] == Get(item, "fileName")
      && r.body.fields["fileType"] == Get(item, "fileType")
      && r.body.fields["createdAt"] == Get(item, "createdAt")
      && r.body.fields["updatedAt"] == Get(item, "updatedAt")
    ensures cfg.tableConfigured && !datasetId.Str? ==> r == ErrorResponse(500, "Error querying DynamoDB: PersistenceError")
  {
    if !cfg.tableConfigured then ErrorResponse(500, "DynamoDB not configured")
    else match GetItem(table, datasetId)
      case Err(e) =>
        assert "Error querying DynamoDB: " + Describe(e) == "Error querying DynamoDB: PersistenceError";
        ErrorResponse(500, "Error querying DynamoDB: " + Describe(e))
      case Ok(None) => ErrorResponse(404, "Job not found")
      case Ok(Some(item)) =>
        if ResultCheckRaises(Get(item, "result")) then
          assert "Error querying DynamoDB: " + Describe(TypeError) == "Error querying DynamoDB: TypeError";
          ErrorResponse(500, "Error querying DynamoDB: " + Describe(TypeError))
        else
          StatusFound(datasetId, item)
  }

  /** The 200 answer for a stored record: its id, its status and its fields. */
  function StatusFound(datasetId: Json, item: Item): (r: Response)
    ensures r.statusCode == 200 && r.headers == CorsHeaders && r.body.Obj?
    ensures r.body.fields.Keys == {"datasetId", "status", "fileName", "fileType", "createdAt", "updatedAt", "result", "error"}
    ensures r.body.fields["datasetId"] == datasetId
    ensures r.body.fields["status"] == GetOr(item, "status", Str("UNKNOWN"))
    ensures forall k :: k in r.body.fields && k != "datasetId" && k != "status" ==> r.body.fields[k] == Get(item, k)
  {
    CorsResponse(map[
      "datasetId" := datasetId,
      "status" := GetOr(item, "status", Str("UNKNOWN")),
      "fileName" := Get(item, "fileName"),
      "fileType" := Get(item, "fileType"),
      "createdAt" := Get(item, "createdAt"),
      "updatedAt" := Get(item, "updatedAt"),
      "result" := Get(item, "result"),
      "error" := Get(item, "error")])
  }

  /**
   * Read after write: an upload with a dict body `b`, a valid id, content
   * that decodes, a bucket and a table succeeds, and the status of its id
   * then reads back PENDING with the upload's file name and type and no
   * result yet.
   */
  lemma StatusAfterUpload(event: Dict, cfg: Config, dec: Decoders, now: string, table: Table, b: Dict)
    requires BodyOf(event, dec) == Ok(Obj(b))
    requires ValidKey(Get(b, "datasetId")) && Truthy(Get(b, "fileContent"))
    requires Decode64(Get(b, "fileContent"), dec).Ok?
    requires cfg.inputBucket != "" && cfg.tableConfigured
    ensures Upload(event, cfg, dec, now, table).Ok?
    ensures var s := Status(Get(b, "datasetId"), cfg, Upload(event, cfg, dec, now, table).value.table);
      && s.statusCode == 200 && s.body.Obj?
      && s.body.fields["datasetId"] == Get(b, "datasetId")
      && s.body.fields["status"] == Str("PENDING")
      && s.body.fields["fileName"] == GetOr(b, "fileName", Str("upload.geojson"))
      && s.body.fields["fileType"] == GetOr(b, "fileType", Str("geojson"))
      && s.body.fields["createdAt"] == Str(now)
      && s.body.fields["result"] == Null
  {
    var id := Get(b, "datasetId");
    var fileName, fileType := GetOr(b, "fileName", Str("upload.geojson")), GetOr(b, "fileType", Str("geojson"));
    var r := Upload(event, cfg, dec, now, table);
    assert r.Ok? && r.value.stored.Some?;
    assert r.value.table == table[id.s := PendingRecord(id, fileName, fileType, now)];
    StatusOfPending(id, fileName, fileType, now, cfg, table);
  }

  /** A stored DynamoDB-shaped `result` whose `"M"` is a number makes the status query fail. */
  lemma NumericMapResultFails(id: string, m: int, cfg: Config)
    requires cfg.tableConfigured
    ensures Status(Str(id), cfg, map[id := map["result" := Obj(map["M" := Int(m)])]]) ==
      ErrorResponse(500, "Error querying DynamoDB: TypeError")
  {
    assert ResultCheckRaises(Obj(map["M" := Int(m)]));
  }

  /** The status of a freshly written PENDING record. */
  lemma StatusOfPending(id: Json, fileName: Json, fileType: Json, now: string, cfg: Config, table: Table)
    requires cfg.tableConfigured && id.Str?
    ensures var s := Status(id, cfg, table[id.s := PendingRecord(id, fileName, fileType, now)]);
      && s.statusCode == 200 && s.body.Obj?
      && s.body.fields["datasetId"] == id
      && s.body.fields["status"] == Str("PENDING")
      && s.body.fields["fileName"] == fileName
      && s.body.fields["fileType"] == fileType
      && s.body.fields["createdAt"] == Str(now)
      && s.body.fields["result"] == Null
  {
    var record := PendingRecord(id, fileName, fileType, now);
    assert "result" !in record;
  }

  /** One entry of the job list. */
  function JobSummary(item: Item): (j: Json)
    ensures j.Obj? && j.fields.Keys == {"datasetId", "status", "fileName", "createdAt"}
    ensures forall k :: k in j.fields ==> j.fields[k] == Get(item, k)
  {
    Obj(map[
      "datasetId" := Get(item, "datasetId"),
      "status" := Get(item, "status"),
      "fileName" := Get(item, "fileName"),
      "createdAt" := Get(item, "createdAt")])
  }

  /** `handle_list_jobs()`, given the items the table scan returns, in its order. */
  function ListJobs(cfg: Config, scanned: seq<Item>): (r: Response)
    ensures !cfg.tableConfigured ==> r == ErrorResponse(500, "DynamoDB not configured")
    ensures cfg.tableConfigured ==>
      && r.statusCode == 200 && r.body.Obj? && r.body.fields.Keys == {"jobs"}
      && r.body.fields["jobs"].Arr?
      && |r.body.fields["jobs"].elems| == |scanned|
      && forall i :: 0 <= i < |scanned| ==> r.body.fields["jobs"].elems[i] == JobSummary(scanned[i])
  {
    if !cfg.tableConfigured then ErrorResponse(500, "DynamoDB not configured")
    else CorsResponse(map["jobs" := Arr(seq(|scanned|, i requires 0 <= i < |scanned| => JobSummary(scanned[i])))])
  }

  // ---------------------------------------------------------------------
  // Routing
  // ---------------------------------------------------------------------

  /** The values `in` accepts on its right: strings, lists and dicts. */
  predicate Container(x: Json) {
    x.Str? || x.Arr? || x.Obj?
  }

  /** `sub in x` for a container: a substring, a list element, a dict key. */
  predicate Member(sub: string, x: Json) {
    match x
    case Str(s) => Contains(s, sub)
    case Arr(xs) => Str(sub) in xs
    case Obj(m) => sub in m
    case _ => false
  }

  /** Where a request goes. */
  datatype Route =
    | ToUpload
    | ToStatus(datasetId: Json)
    | MissingId
    | ToJobs
    | ToOptions
    | NotFound
    | Raises(e: Error)

  /** `path_parameters.get("datasetId") or path.split("/")[-1]` */
  function StatusId(pathParameters: Json, path: Json): (r: Result<Json, Error>)
    ensures !pathParameters.Obj? ==> r == Err(AttributeError)
    ensures pathParameters.Obj? ==>
      var fromParams := GetOr(pathParameters.fields, "datasetId", Null);
      && (Truthy(fromParams) ==> r == Ok(fromParams))
      && (!Truthy(fromParams) && path.Str? ==> r == Ok(Str(LastSegment(path.s))))
      && (!Truthy(fromParams) && !path.Str? ==> r == Err(AttributeError))
  {
    var fromParams :- AttrGet(pathParameters, "datasetId", Null);
    if Truthy(fromParams) then Ok(fromParams)
    else if path.Str? then Ok(Str(LastSegment(path.s)))
    else Err(AttributeError)   // `.split` on a non-string
  }

  /**
   * The `if`/`elif` chain of the handler, tested in order. The `in` tests
   * run only after a method matched, and raise on a path that is not a
   * container.
   */
  function RouteOf(event: Dict): (r: Route)
    ensures var m, p := GetOr(event, "httpMethod", Str("")), GetOr(event, "path", Str(""));
      p.Str? ==>
      && (m == Str("POST") && Contains(p.s, "/upload") ==> r == ToUpload)
      && (m == Str("GET") && Contains(p.s, "/status") ==> r.ToStatus? || r == MissingId || r.Raises?)
      && (m == Str("GET") && !Contains(p.s, "/status") && Contains(p.s, "/jobs") ==> r == ToJobs)
      && (m == Str("OPTIONS") ==> r == ToOptions)
      && ((!(m == Str("POST") && Contains(p.s, "/upload")) &&
           !(m == Str("GET") && (Contains(p.s, "/status") || Contains(p.s, "/jobs"))) &&
           m != Str("OPTIONS")) ==> r == NotFound)
    ensures r.Raises? && GetOr(event, "path", Str("")).Str? ==>
      GetOr(event, "httpMethod", Str("")) == Str("GET") && !Or(Get(event, "pathParameters"), Obj(map[])).Obj?
    ensures r.ToStatus? ==> Truthy(r.datasetId)
    ensures var m, p := GetOr(event, "httpMethod", Str("")), GetOr(event, "path", Str(""));
      var pp := Or(Get(event, "pathParameters"), Obj(map[]));
      p.Str? && m == Str("GET") && Contains(p.s, "/status") && pp.Obj? ==>
        var fromParams := GetOr(pp.fields, "datasetId", Null);
        var id := if Truthy(fromParams) then fromParams else Str(LastSegment(p.s));
        && (Truthy(id) ==> r == ToStatus(id))
        && (!Truthy(id) ==> r == MissingId)
  {
    var verb := GetOr(event, "httpMethod", Str(""));
    var path := GetOr(event, "path", Str(""));
    var pathParameters := Or(Get(event, "pathParameters"), Obj(map[]));
    if (verb == Str("POST") || verb == Str("GET")) && !Container(path) then Raises(TypeError)
    else if verb == Str("POST") && Member("/upload", path) then ToUpload
    else if verb == Str("GET") && Member("/status", path) then
      match StatusId(pathParameters, path)
      case Err(e) => Raises(e)
      case Ok(id) => if Truthy(id) then ToStatus(id) else MissingId
    else if verb == Str("GET") && Member("/jobs", path) then ToJobs
    else if verb == Str("OPTIONS") then ToOptions
    else NotFound
  }

  /** `handler(event, context)`, given the table scan's items and the clock's reading. */
  function Handle(event: Dict, cfg: Config, dec: Decoders, now: string, table: Table, scanned: seq<Item>): (r: Run)
    ensures RouteOf(event) != ToUpload ==> r.stored.None? && r.table == table
    ensures RouteOf(event) == ToUpload && Upload(event, cfg, dec, now, table).Ok? ==>
      r == Upload(event, cfg, dec, now, table).value
    ensures RouteOf(event) == ToUpload && Upload(event, cfg, dec, now, table).Err? ==>
      r == Run(ErrorResponse(500, Describe(Upload(event, cfg, dec, now, table).error)), None, table)
    ensures RouteOf(event).ToStatus? ==> r.response == Status(RouteOf(event).datasetId, cfg, table)
    ensures RouteOf(event) == MissingId ==> r.response == ErrorResponse(400, "Missing datasetId")
    ensures RouteOf(event) == ToJobs ==> r.response == ListJobs(cfg, scanned)
    ensures RouteOf(event) == ToOptions ==> r.response == CorsResponse(map[])
    ensures RouteOf(event) == NotFound ==>
      r.response == ErrorResponse(404, "Not Found: " + Display(GetOr(event, "path", Str(""))))
    ensures RouteOf(event).Raises? ==> r.response == ErrorResponse(500, Describe(RouteOf(event).e))
  {
    match RouteOf(event)
    case ToUpload =>
      (match Upload(event, cfg, dec, now, table)
       case Ok(run) => run
       case Err(e) => Run(ErrorResponse(500, Describe(e)), None, table))
    case ToStatus(id) => Run(Status(id, cfg, table), None, table)
    case MissingId => Run(ErrorResponse(400, "Missing datasetId"), None, table)
    case ToJobs => Run(ListJobs(cfg, scanned), None, table)
    case ToOptions => Run(CorsResponse(map[]), None, table)
    case NotFound => Run(ErrorResponse(404, "Not Found: " + Display(GetOr(event, "path", Str("")))), None, table)
    case Raises(e) => Run(ErrorResponse(500, Describe(e)), None, table)
  }

  /**
   * A status request `GET /status/<id>` without path parameters looks up
   * the last path segment: it is routed to the status query for `id`.
   */
  lemma StatusPathRouted(id: string, cfg: Config, dec: Decoders, now: string, table: Table, scanned: seq<Item>)
    requires |id| > 0 && '/' !in id
    ensures var event := map["httpMethod" := Str("GET"), "path" := Str("/status/" + id)];
      && RouteOf(event) == ToStatus(Str(id))
      && Handle(event, cfg, dec, now, table, scanned).response == Status(Str(id), cfg, table)
  {
    var path := "/status/" + id;
    assert path == "/status" + "/" + id;
    assert path[0..|"/status"|] == "/status";
    ContainsAt(path, "/status", 0);
    LastSegmentAfterSlash("/status", id);
  }

  /**
   * A status request whose path ends in `/` and carries no path parameter
   * has no id to look up: it is answered 400.
   */
  lemma EmptyStatusIdRejected(cfg: Config, dec: Decoders, now: string, table: Table, scanned: seq<Item>)
    ensures var event := map["httpMethod" := Str("GET"), "path" := Str("/status/")];
      Handle(event, cfg, dec, now, table, scanned).response == ErrorResponse(400, "Missing datasetId")
  {
    var event := map["httpMethod" := Str("GET"), "path" := Str("/status/")];
    assert GetOr(event, "path", Str("")) == Str("/status/");
    assert Or(Get(event, "pathParameters"), Obj(map[])) == Obj(map[]);
    assert "/status/"[..7] == "/status";
    assert Member("/status", Str("/status/"));
    assert LastSegment("/status/") == "";
    assert RouteOf(event) == MissingId;
  }

  /** `GET /jobs` lists the jobs: the status test before it does not match. */
  lemma JobsRouted(cfg: Config, dec: Decoders, now: string, table: Table, scanned: seq<Item>)
    ensures var event := map["httpMethod" := Str("GET"), "path" := Str("/jobs")];
      Handle(event, cfg, dec, now, table, scanned).response == ListJobs(cfg, scanned)
  {
    var event := map["httpMethod" := Str("GET"), "path" := Str("/jobs")];
    NotContainsMissingChar("/jobs", "/status", 't');
    assert "/jobs"[..5] == "/jobs";
    assert RouteOf(event) == ToJobs;
  }

  /**
   * An upload that lacks a dataset id or content is refused with 400 and
   * stores nothing, whatever the configuration.
   */
  lemma UploadValidatesFirst(event: Dict, cfg: Config, dec: Decoders, now: string, table: Table)
    requires BodyOf(event, dec).Ok? && BodyOf(event, dec).value.Obj?
    requires var b := BodyOf(event, dec).value.fields;
      !Truthy(Get(b, "datasetId")) || !Truthy(Get(b, "fileContent"))
    ensures Upload(event, cfg, dec, now, table) ==
      Ok(Run(ErrorResponse(400, "Missing datasetId or fileContent"), None, table))
  {
  }
}

=== FILE: format_sns.dfy ===
/**
 * The notification formatter (`lambda/format_sns/app.py`): it chooses the
 * failure or the success notification from the event's shape and fills
 * in the subject, the dataset id and the echoed summary or error. The
 * message body's prose is not modelled; which of its optional sections
 * appear is, and so are the exceptions its format specifications raise.
 */
module Notify {
  import opened Wrappers
  import opened PyJson

  const CompletePrefix: string := "SGAF Processing Complete: "
  const FailedPrefix: string := "SGAF Processing Failed: "

  /** The optional parts of a success message: bbox, centroid and the tile list. */
  datatype Sections = Sections(bbox: bool, centroid: bool, tileCount: Option<nat>)

  /**
   * The returned dict without its `message` text, plus what the message
   * shows: the error type and cause of a failure; whether a success
   * message reports made-up figures, and its optional sections.
   */
  datatype Notification =
    | Failure(subject: string, datasetId: Json, error: Json, errorType: Json, cause: Json)
    | Success(subject: string, datasetId: Json, summary: Json, fabricated: bool, sections: Sections)

  /** The sections a message with made-up figures always shows. */
  const FabricatedSections: Sections := Sections(true, true, Some(3))

  // ---------------------------------------------------------------------
  // Format specifications
  // ---------------------------------------------------------------------

  /** `f"{x:,}"` and `f"{x:.6f}"`: numbers format, strings raise ValueError, the rest TypeError. */
  function FormatNumber(x: Json): (r: Result<(), Error>)
    ensures r.Ok? <==> x.Int? || x.Float? || x.Bool?
    ensures x.Str? ==> r == Err(ValueError)
  {
    match x
    case Int(_) => Ok(())
    case Float(_) => Ok(())
    case Bool(_) => Ok(())
    case Str(_) => Err(ValueError)
    case _ => Err(TypeError)
  }

  /** `f"{x[i]:.6f}"` */
  function FormatEntry(x: Json, i: nat): Result<(), Error> {
    var v :- Subscript(x, i);
    FormatNumber(v)
  }

  /** The formatted entries `x[0] .. x[n-1]`, left to right. */
  function FormatEntries(x: Json, n: nat): (r: Result<(), Error>)
    ensures r.Ok? <==> forall i :: 0 <= i < n ==> FormatEntry(x, i).Ok?
  {
    if n == 0 then Ok(())
    else
      var _ :- FormatEntries(x, n - 1);
      FormatEntry(x, n - 1)
  }

  /** One tile's block of the tile section. */
  function FormatTile(t: Json): (r: Result<(), Error>)
    ensures r.Ok? ==> t.Obj?
    ensures !t.Obj? ==> r == Err(AttributeError)
  {
    if !t.Obj? then Err(AttributeError)
    else
      var _ :- FormatNumber(GetOr(t.fields, "pointCount", Int(0)));
      var _ :- FormatNumber(GetOr(t.fields, "polygonCount", Int(0)));
      FormatNumber(GetOr(t.fields, "polygonAreaSum", Float(0.0)))
  }

  function FormatTiles(ts: seq<Json>): (r: Result<(), Error>)
    ensures r.Ok? <==> forall i :: 0 <= i < |ts| ==> FormatTile(ts[i]).Ok?
  {
    if |ts| == 0 then Ok(())
    else
      var _ :- FormatTile(ts[0]);
      var rest := FormatTiles(ts[1..]);
      assert forall i :: 1 <= i < |ts| ==> ts[i] == ts[1..][i - 1];
      rest
  }

  /**
   * The tile section, shown when `tiles` is truthy: `len(tiles)`, then one
   * block per tile. A truthy value without a length raises TypeError; one
   * whose elements are not dicts raises AttributeError.
   */
  function TileSection(tiles: Json): (r: Result<Option<nat>, Error>)
    ensures r.Ok? ==> (r.value.Some? <==> Truthy(tiles))
    ensures r.Ok? && r.value.Some? ==> tiles.Arr? && r.value.value == |tiles.elems|
    ensures tiles.Arr? && Truthy(tiles) ==> (r.Ok? <==> forall i :: 0 <= i < |tiles.elems| ==> FormatTile(tiles.elems[i]).Ok?)
  {
    if !Truthy(tiles) then Ok(None)
    else match tiles
      case Arr(ts) => var _ :- FormatTiles(ts); Ok(Some(|ts|))
      case Str(_) => Err(AttributeError)   // iterating yields strings, which have no `.get`
      case Obj(_) => Err(AttributeError)   // iterating yields the keys
      case _ => Err(TypeError)             // `len()` of a number or bool
  }

  // ---------------------------------------------------------------------
  // The two formatters
  // ---------------------------------------------------------------------

  /** `format_failure_message(event)` */
  function FormatFailure(event: Dict): (r: Result<Notification, Error>)
    ensures r.Ok? <==> GetOr(event, "error", Obj(map[])).Obj?
    ensures r.Ok? ==> r.value.Failure?
    ensures r.Ok? ==> r.value.subject == FailedPrefix + Display(r.value.datasetId)
    ensures r.Ok? ==> r.value.error == GetOr(event, "error", Obj(map[]))
    ensures r.Ok? ==> var e := r.value.error.fields;
      && r.value.datasetId == GetOr(event, "datasetId", GetOr(e, "datasetId", Str("unknown")))
      && r.value.errorType == GetOr(e, "Error", Str("Unknown Error"))
      && r.value.cause == GetOr(e, "Cause", Str("No additional details available"))
  {
    var error := GetOr(event, "error", Obj(map[]));
    if !error.Obj? then Err(AttributeError)   // `error.get` on a non-dict
    else
      var datasetId := GetOr(event, "datasetId", GetOr(error.fields, "datasetId", Str("unknown")));
      var errorType := GetOr(error.fields, "Error", Str("Unknown Error"));
      var cause := GetOr(error.fields, "Cause", Str("No additional details available"));
      Ok(Failure(FailedPrefix + Display(datasetId), datasetId, error, errorType, cause))
  }

  /** A dict with a `summary` key is unwrapped once. */
  function Unwrap(summary: Json): Json {
    if summary.Obj? && "summary" in summary.fields then summary.fields["summary"] else summary
  }

  /** `not summary or summary.get("pointCount", 0) == 0 and summary.get("polygonCount", 0) == 0` */
  predicate LooksEmpty(summary: Json)
    requires summary.Obj?
  {
    !Truthy(summary) ||
    (EqualsInt(GetOr(summary.fields, "pointCount", Int(0)), 0) &&
     EqualsInt(GetOr(summary.fields, "polygonCount", Int(0)), 0))
  }

  /** The figures a real-data message formats, in the order it formats them. */
  function FormatFigures(s: Dict): (r: Result<Sections, Error>)
    ensures r.Ok? ==> r.value.bbox == Truthy(Get(s, "bbox")) && r.value.centroid == Truthy(Get(s, "pointCentroid"))
    ensures r.Ok? ==> TileSection(GetOr(s, "tiles", Arr([]))) == Ok(r.value.tileCount)
    ensures r.Ok? <==>
      && FormatNumber(GetOr(s, "pointCount", Int(0))).Ok?
      && FormatNumber(GetOr(s, "polygonCount", Int(0))).Ok?
      && FormatNumber(GetOr(s, "polygonArea", Float(0.0))).Ok?
      && FormatNumber(GetOr(s, "otherCount", Int(0))).Ok?
      && (Truthy(Get(s, "bbox")) ==> FormatEntries(Get(s, "bbox"), 4).Ok?)
      && (Truthy(Get(s, "pointCentroid")) ==> FormatEntries(Get(s, "pointCentroid"), 2).Ok?)
      && TileSection(GetOr(s, "tiles", Arr([]))).Ok?
  {
    var _ :- FormatNumber(GetOr(s, "pointCount", Int(0)));
    var _ :- FormatNumber(GetOr(s, "polygonCount", Int(0)));
    var _ :- FormatNumber(GetOr(s, "polygonArea", Float(0.0)));
    var _ :- FormatNumber(GetOr(s, "otherCount", Int(0)));
    var bbox := Get(s, "bbox");
    var _ :- if Truthy(bbox) then FormatEntries(bbox, 4) else Ok(());
    var centroid := Get(s, "pointCentroid");
    var _ :- if Truthy(centroid) then FormatEntries(centroid, 2) else Ok(());
    var tiles :- TileSection(GetOr(s, "tiles", Arr([])));
    Ok(Sections(Truthy(bbox), Truthy(centroid), tiles))
  }

  /**
   * A summary with numeric counters, a four-number bbox and a two-number
   * centroid formats, and its message shows both the bbox and the centroid
   * section.
   */
  lemma BoxAndCentroidShown(s: Dict, minX: real, minY: real, maxX: real, maxY: real, cx: real, cy: real)
    requires Get(s, "pointCount").Int? && Get(s, "polygonCount").Int?
    requires Get(s, "polygonArea").Float? && Get(s, "otherCount").Int?
    requires Get(s, "bbox") == Arr([Float(minX), Float(minY), Float(maxX), Float(maxY)])
    requires Get(s, "pointCentroid") == Arr([Float(cx), Float(cy)])
    requires "tiles" !in s
    ensures FormatFigures(s).Ok?
    ensures FormatFigures(s).value.bbox && FormatFigures(s).value.centroid
    ensures FormatFigures(s).value.tileCount.None?
  {
    var bbox, centroid := Get(s, "bbox"), Get(s, "pointCentroid");
    forall i | 0 <= i < 4 ensures FormatEntry(bbox, i).Ok? {
      assert Subscript(bbox, i) == Ok(bbox.elems[i]);
    }
    forall i | 0 <= i < 2 ensures FormatEntry(centroid, i).Ok? {
      assert Subscript(centroid, i) == Ok(centroid.elems[i]);
    }
  }

  /** `format_success_message(summary, event)` without the made-up figures themselves. */
  function FormatSuccess(summary0: Json, event: Dict): (r: Result<Notification, Error>)
    ensures r.Ok? <==>
      (Unwrap(summary0).Obj? &&
       if LooksEmpty(Unwrap(summary0))
       then FormatNumber(GetOr(Unwrap(summary0).fields, "otherCount", Int(0))).Ok?
       else FormatFigures(Unwrap(summary0).fields).Ok?)
    ensures r.Ok? ==> r.value.Success?
    ensures r.Ok? ==> r.value.summary == Unwrap(summary0)
    ensures r.Ok? ==> r.value.subject == CompletePrefix + Display(r.value.datasetId)
    ensures r.Ok? ==>
      r.value.datasetId == GetOr(r.value.summary.fields, "datasetId", GetOr(event, "datasetId", Str("unknown")))
    ensures r.Ok? ==> (r.value.fabricated <==> LooksEmpty(r.value.summary))
    ensures r.Ok? && r.value.fabricated ==> r.value.sections == FabricatedSections
    ensures r.Ok? && !r.value.fabricated ==>
      var s := r.value.summary.fields;
      && (r.value.sections.bbox <==> Truthy(Get(s, "bbox")))
      && (r.value.sections.centroid <==> Truthy(Get(s, "pointCentroid")))
      && (r.value.sections.tileCount.Some? <==> Truthy(GetOr(s, "tiles", Arr([]))))
      && (r.value.sections.tileCount.Some? ==> r.value.sections.tileCount.value == |GetOr(s, "tiles", Arr([])).elems|)
  {
    var summary := Unwrap(summary0);
    var datasetId :- AttrGet(summary, "datasetId", GetOr(event, "datasetId", Str("unknown")));
    var subject := CompletePrefix + Display(datasetId);
    if LooksEmpty(summary) then
      var _ :- FormatNumber(GetOr(summary.fields, "otherCount", Int(0)));
      Ok(Success(subject, datasetId, summary, true, FabricatedSections))
    else
      var sections :- FormatFigures(summary.fields);
      Ok(Success(subject, datasetId, summary, false, sections))
  }

  // ---------------------------------------------------------------------
  // The handler
  // ---------------------------------------------------------------------

  /**
   * The summary the handler hands on: the event's own, or, when that is
   * falsy and the event has a `result`, the result's.
   */
  function ResolveSummary(event: Dict): (r: Result<Json, Error>)
    ensures Truthy(GetOr(event, "summary", Obj(map[]))) ==> r == Ok(event["summary"])
    ensures !Truthy(GetOr(event, "summary", Obj(map[]))) && "result" !in event ==> r == Ok(GetOr(event, "summary", Obj(map[])))
    ensures !Truthy(GetOr(event, "summary", Obj(map[]))) && "result" in event ==>
      r == AttrGet(event["result"], "summary", Obj(map[]))
  {
    var summary := GetOr(event, "summary", Obj(map[]));
    if !Truthy(summary) && "result" in event then AttrGet(event["result"], "summary", Obj(map[]))
    else Ok(summary)
  }

  /** The event reports a failure: an `error` key, or status `"FAILED"` (default `"COMPLETED"`). */
  predicate IsFailureEvent(event: Dict) {
    "error" in event || GetOr(event, "status", Str("COMPLETED")) == Str("FAILED")
  }

  /** `handler(event, context)` */
  function Handle(event: Dict): (r: Result<Notification, Error>)
    ensures r.Ok? ==> (r.value.Failure? <==> IsFailureEvent(event))
    ensures r.Ok? ==> ResolveSummary(event).Ok? && ResolveSummary(event).value.Obj?
    ensures r.Ok? && IsFailureEvent(event) ==> r == FormatFailure(event)
    ensures r.Ok? && !IsFailureEvent(event) ==> r == FormatSuccess(ResolveSummary(event).value, event)
    ensures ResolveSummary(event).Ok? && !ResolveSummary(event).value.Obj? ==> r == Err(AttributeError)
    ensures ResolveSummary(event).Err? ==> r.Err?
    ensures ResolveSummary(event).Ok? && ResolveSummary(event).value.Obj? ==>
      r == if IsFailureEvent(event) then FormatFailure(event) else FormatSuccess(ResolveSummary(event).value, event)
  {
    var summary :- ResolveSummary(event);
    // The handler's own `summary.get("datasetId", ...)`: its value is unused, but it raises on a non-dict.
    var _ :- AttrGet(summary, "datasetId", GetOr(event, "datasetId", Str("unknown")));
    if IsFailureEvent(event) then FormatFailure(event)
    else FormatSuccess(summary, event)
  }

  /** The returned dict, less its `message`. */
  function ToJson(n: Notification): Json {
    match n
    case Failure(subject, id, error, _, _) =>
      Obj(map["subject" := Str(subject), "datasetId" := id, "error" := error])
    case Success(subject, id, summary, _, _) =>
      Obj(map["subject" := Str(subject), "datasetId" := id, "summary" := summary])
  }

  /**
   * A failure event from the workflow's error handler, with only an
   * `error` dict: the defaults fill in the id, type and cause.
   */
  lemma FailureDefaults()
    ensures Handle(map["error" := Obj(map[])]) ==
      Ok(Failure(FailedPrefix + "unknown", Str("unknown"), Obj(map[]),
                 Str("Unknown Error"), Str("No additional details available")))
  {
  }

  /**
   * The summary can arrive wrapped twice, as the status tracker's `result`
   * holds it: `{"result": {"summary": {"summary": s}}}` reports on `s`.
   */
  lemma NestedSummaryUnwrapped(s: Dict)
    requires "pointCount" in s && s["pointCount"] == Int(1)
    requires "datasetId" in s && s["datasetId"] == Str("d")
    requires forall k :: k in s ==> k in {"datasetId", "pointCount"}
    ensures var event := map["result" := Obj(map["summary" := Obj(map["summary" := Obj(s)])])];
      Handle(event).Ok? && Handle(event).value.Success? &&
      Handle(event).value.summary == Obj(s) &&
      Handle(event).value.subject == CompletePrefix + "d" &&
      !Handle(event).value.fabricated
  {
    var event := map["result" := Obj(map["summary" := Obj(map["summary" := Obj(s)])])];
    assert ResolveSummary(event) == Ok(Obj(map["summary" := Obj(s)]));
    assert !LooksEmpty(Obj(s));
    assert FormatFigures(s) == Ok(Sections(false, false, None));
  }

  /**
   * A failure notification does not depend on the summary: two failure
   * events that differ only in their (dict) summaries are reported alike.
   */
  lemma FailureIgnoresSummary(event: Dict, s1: Dict, s2: Dict)
    requires IsFailureEvent(event)
    requires |s1| > 0 && |s2| > 0
    ensures Handle(event["summary" := Obj(s1)]) == Handle(event["summary" := Obj(s2)])
  {
    var e1, e2 := event["summary" := Obj(s1)], event["summary" := Obj(s2)];
    assert ResolveSummary(e1) == Ok(Obj(s1)) && ResolveSummary(e2) == Ok(Obj(s2));
    assert IsFailureEvent(e1) && IsFailureEvent(e2);
    assert GetOr(e1, "error", Obj(map[])) == GetOr(e2, "error", Obj(map[]));
    assert GetOr(e1, "datasetId", Str("unknown")) == GetOr(e2, "datasetId", Str("unknown"));
  }

  /** A summary that is not a dict makes the handler raise, even for a failure event. */
  lemma NonDictSummaryRaises()
    ensures Handle(map["summary" := Str("x"), "error" := Obj(map[])]) == Err(AttributeError)
  {
  }
}

=== FILE: geometry.dfy ===
/**
 * The numeric routines of the shard processor: bounding-box growth and
 * merge, and the shoelace polygon area. Coordinates are exact reals.
 */
module Geometry {
  import opened Wrappers

  datatype Point = Point(x: real, y: real)

  /** An axis-aligned box `[minX, minY, maxX, maxY]`. */
  datatype Box = Box(minX: real, minY: real, maxX: real, maxY: real)

  predicate WellFormed(b: Box) {
    b.minX <= b.maxX && b.minY <= b.maxY
  }

  predicate Covers(b: Box, p: Point) {
    b.minX <= p.x <= b.maxX && b.minY <= p.y <= b.maxY
  }

  /** `b` reaches at least as far as `inner` on every side. */
  predicate Encloses(b: Box, inner: Box) {
    b.minX <= inner.minX && b.minY <= inner.minY && inner.maxX <= b.maxX && inner.maxY <= b.maxY
  }

  /** Python's `min(a, b)`: `a` unless `b` is strictly smaller. */
  function Min(a: real, b: real): real {
    if b < a then b else a
  }

  /** Python's `max(a, b)`: `a` unless `b` is strictly larger. */
  function Max(a: real, b: real): real {
    if b > a then b else a
  }

  /**
   * One iteration of the `_expand_bbox` loop. `None` is the box still
   * holding its `+inf`/`-inf` sentinel: every comparison against it
   * succeeds, so the first point becomes the whole box.
   */
  function ExpandOne(b: Option<Box>, p: Point): Box {
    match b
    case None => Box(p.x, p.y, p.x, p.y)
    case Some(bx) => Box(Min(bx.minX, p.x), Min(bx.minY, p.y), Max(bx.maxX, p.x), Max(bx.maxY, p.y))
  }

  /** Every side of `r` is the side of the old box `b` or a coordinate of one of `pts`. */
  predicate Attained(r: Box, b: Option<Box>, pts: seq<Point>) {
    && ((b.Some? && r.minX == b.value.minX) || exists k :: 0 <= k < |pts| && r.minX == pts[k].x)
    && ((b.Some? && r.minY == b.value.minY) || exists k :: 0 <= k < |pts| && r.minY == pts[k].y)
    && ((b.Some? && r.maxX == b.value.maxX) || exists k :: 0 <= k < |pts| && r.maxX == pts[k].x)
    && ((b.Some? && r.maxY == b.value.maxY) || exists k :: 0 <= k < |pts| && r.maxY == pts[k].y)
  }

  /** `_expand_bbox(minx, miny, maxx, maxy, pts)`, folding the points in order. */
  function ExpandBox(b: Option<Box>, pts: seq<Point>): (r: Option<Box>)
    ensures |pts| == 0 ==> r == b
    ensures r.None? <==> b.None? && |pts| == 0
    ensures r.Some? ==> forall k :: 0 <= k < |pts| ==> Covers(r.value, pts[k])
    ensures r.Some? && b.Some? ==> Encloses(r.value, b.value)
    ensures r.Some? ==> Attained(r.value, b, pts)
    ensures r.Some? && (b.None? || WellFormed(b.value)) ==> WellFormed(r.value)
    decreases |pts|
  {
    if |pts| == 0 then b
    else
      var e := Some(ExpandOne(b, pts[0]));
      var r := ExpandBox(e, pts[1..]);
      assert Attained(r.value, b, pts) by {
        AttainedStep(r.value, b, e.value, pts);
      }
      r
  }

  lemma AttainedStep(r: Box, b: Option<Box>, e: Box, pts: seq<Point>)
    requires |pts| > 0 && e == ExpandOne(b, pts[0])
    requires Attained(r, Some(e), pts[1..])
    ensures Attained(r, b, pts)
  {
    forall k | 0 <= k < |pts[1..]|
      ensures pts[1..][k] == pts[k + 1]
    {
    }
  }

  /** The `for x, y in pts` loop of `_expand_bbox`, statement by statement. */
  method ExpandBoxLoop(b: Option<Box>, pts: seq<Point>) returns (r: Option<Box>)
    ensures r == ExpandBox(b, pts)
  {
    r := b;
    var k := 0;
    while k < |pts|
      invariant 0 <= k <= |pts|
      invariant ExpandBox(r, pts[k..]) == ExpandBox(b, pts)
    {
      var p := pts[k];
      var minX, minY, maxX, maxY;
      if r.None? {
        minX, minY, maxX, maxY := p.x, p.y, p.x, p.y;
      } else {
        minX, minY, maxX, maxY := r.value.minX, r.value.minY, r.value.maxX, r.value.maxY;
        if p.x < minX { minX := p.x; }
        if p.y < minY { minY := p.y; }
        if p.x > maxX { maxX := p.x; }
        if p.y > maxY { maxY := p.y; }
      }
      assert pts[k..][1..] == pts[k + 1..];
      r := Some(Box(minX, minY, maxX, maxY));
      k := k + 1;
    }
  }

  /**
   * The aggregator's bbox merge: an absent box contributes nothing, the
   * first present box is copied, later ones take min of mins and max of maxes.
   */
  function MergeBox(a: Option<Box>, b: Option<Box>): (r: Option<Box>)
    ensures r.None? <==> a.None? && b.None?
    ensures a.None? ==> r == b
    ensures b.None? ==> r == a
    ensures a.Some? && b.Some? ==> Encloses(r.value, a.value) && Encloses(r.value, b.value)
    ensures a.Some? && b.Some? ==>
      && (r.value.minX == a.value.minX || r.value.minX == b.value.minX)
      && (r.value.minY == a.value.minY || r.value.minY == b.value.minY)
      && (r.value.maxX == a.value.maxX || r.value.maxX == b.value.maxX)
      && (r.value.maxY == a.value.maxY || r.value.maxY == b.value.maxY)
  {
    match (a, b)
    case (None, _) => b
    case (_, None) => a
    case (Some(x), Some(y)) =>
      Some(Box(Min(x.minX, y.minX), Min(x.minY, y.minY), Max(x.maxX, y.maxX), Max(x.maxY, y.maxY)))
  }

  lemma MergeBoxCommutes(a: Option<Box>, b: Option<Box>)
    ensures MergeBox(a, b) == MergeBox(b, a)
  {
  }

  lemma MergeBoxAssociates(a: Option<Box>, b: Option<Box>, c: Option<Box>)
    ensures MergeBox(MergeBox(a, b), c) == MergeBox(a, MergeBox(b, c))
  {
  }

  /** The degenerate box of one point. */
  function PointBox(p: Point): Box {
    Box(p.x, p.y, p.x, p.y)
  }

  /**
   * Growing a box by points is merging it with the box of those points:
   * a shard's `_expand_bbox` and the aggregator's merge agree.
   */
  lemma {:induction false} ExpandIsMerge(a: Option<Box>, c: Option<Box>, pts: seq<Point>)
    ensures ExpandBox(MergeBox(a, c), pts) == MergeBox(a, ExpandBox(c, pts))
    decreases |pts|
  {
    if |pts| > 0 {
      var p := Some(PointBox(pts[0]));
      assert Some(ExpandOne(MergeBox(a, c), pts[0])) == MergeBox(MergeBox(a, c), p);
      assert Some(ExpandOne(c, pts[0])) == MergeBox(c, p);
      MergeBoxAssociates(a, c, p);
      ExpandIsMerge(a, MergeBox(c, p), pts[1..]);
    }
  }

  lemma ExpandFromNothing(b: Option<Box>, pts: seq<Point>)
    ensures ExpandBox(b, pts) == MergeBox(b, ExpandBox(None, pts))
  {
    ExpandIsMerge(b, None, pts);
  }

  // ---------------------------------------------------------------------
  // Shoelace area
  // ---------------------------------------------------------------------

  function Cross(p: Point, q: Point): real {
    p.x * q.y - q.x * p.y
  }

  /** The cyclic successor of index `i` in a ring of `n` points. */
  function Next(i: nat, n: nat): nat
    requires i < n
  {
    if i + 1 < n then i + 1 else 0
  }

  /** `Next` is the source's `(i + 1) % n`. */
  lemma NextIsModulo(i: nat, n: nat)
    requires i < n
    ensures Next(i, n) == (i + 1) % n
  {
  }

  /** The terms `x_i * y_(i+1) - x_(i+1) * y_i` over cyclic indices. */
  function EdgeTerms(ring: seq<Point>): (t: seq<real>)
    ensures |t| == |ring|
  {
    seq(|ring|, i requires 0 <= i < |ring| => Cross(ring[i], ring[Next(i, |ring|)]))
  }

  /** Left-to-right sum, in the order the source's loop accumulates. */
  function Sum(xs: seq<real>): real {
    if |xs| == 0 then 0.0 else Sum(xs[..|xs| - 1]) + xs[|xs| - 1]
  }

  /** `_shoelace_area`: half the cyclic cross-product sum; 0 for fewer than three points. */
  function ShoelaceArea(ring: seq<Point>): real {
    if |ring| < 3 then 0.0 else 0.5 * Sum(EdgeTerms(ring))
  }

  /** The `for i in range(n)` loop of `_shoelace_area`. */
  method ShoelaceLoop(ring: seq<Point>) returns (area: real)
    ensures area == ShoelaceArea(ring)
  {
    var n := |ring|;
    if n < 3 {
      return 0.0;
    }
    var area2 := 0.0;
    var i := 0;
    while i < n
      invariant 0 <= i <= n
      invariant area2 == Sum(EdgeTerms(ring)[..i])
    {
      NextIsModulo(i, n);
      var p1 := ring[i];
      var p2 := ring[(i + 1) % n];
      assert EdgeTerms(ring)[..i + 1][..i] == EdgeTerms(ring)[..i];
      area2 := area2 + (p1.x * p2.y - p2.x * p1.y);
      i := i + 1;
    }
    assert EdgeTerms(ring)[..n] == EdgeTerms(ring);
    area := 0.5 * area2;
  }

  lemma {:induction false} SumConcat(a: seq<real>, b: seq<real>)
    ensures Sum(a + b) == Sum(a) + Sum(b)
    decreases |b|
  {
    if |b| > 0 {
      var b' := b[..|b| - 1];
      assert (a + b)[..|a + b| - 1] == a + b';
      assert (a + b)[|a + b| - 1] == b[|b| - 1];
      SumConcat(a, b');
      assert Sum(a + b) == Sum(a + b') + b[|b| - 1];
    } else {
      assert a + b == a;
    }
  }

  function Negate(xs: seq<real>): (ys: seq<real>)
    ensures |ys| == |xs|
    ensures forall k :: 0 <= k < |xs| ==> ys[k] == -xs[k]
  {
    seq(|xs|, k requires 0 <= k < |xs| => -xs[k])
  }

  function Reverse<T>(xs: seq<T>): (ys: seq<T>)
    ensures |ys| == |xs|
    ensures forall k :: 0 <= k < |xs| ==> ys[k] == xs[|xs| - 1 - k]
  {
    seq(|xs|, k requires 0 <= k < |xs| => xs[|xs| - 1 - k])
  }

  lemma {:induction false} SumNegate(xs: seq<real>)
    ensures Sum(Negate(xs)) == -Sum(xs)
    decreases |xs|
  {
    if |xs| > 0 {
      var init := xs[..|xs| - 1];
      assert Negate(xs)[..|xs| - 1] == Negate(init);
      SumNegate(init);
    }
  }

  lemma {:induction false} SumReverse(xs: seq<real>)
    ensures Sum(Reverse(xs)) == Sum(xs)
    decreases |xs|
  {
    if |xs| > 0 {
      var tail := xs[1..];
      assert Reverse(xs) == Reverse(tail) + [xs[0]];
      SumReverse(tail);
      assert Sum(Reverse(xs)) == Sum(tail) + xs[0];
      SumConcat([xs[0]], tail);
      assert [xs[0]] + tail == xs;
      SumSingle(xs[0]);
    }
  }

  lemma SumSingle(x: real)
    ensures Sum([x]) == x
  {
    assert [x][..0] == [];
  }

  /** Moving the first vertex to the end of the ring. */
  function RotateOnce(ring: seq<Point>): seq<Point>
    requires |ring| > 0
  {
    ring[1..] + [ring[0]]
  }

  lemma EdgeTermsRotateOnce(ring: seq<Point>)
    requires |ring| > 0
    ensures EdgeTerms(RotateOnce(ring)) == EdgeTerms(ring)[1..] + [EdgeTerms(ring)[0]]
  {
    var n := |ring|;
    var r := RotateOnce(ring);
    var e := EdgeTerms(ring);
    forall i | 0 <= i < n
      ensures EdgeTerms(r)[i] == (e[1..] + [e[0]])[i]
    {
      if i + 1 < n {
        assert EdgeTerms(r)[i] == Cross(ring[i + 1], ring[Next(i + 1, n)]);
      } else {
        assert EdgeTerms(r)[i] == Cross(ring[0], ring[Next(0, n)]);
      }
    }
  }

  /** The same ring started at vertex `k`. */
  function Rotate(ring: seq<Point>, k: nat): seq<Point>
    requires k <= |ring|
  {
    ring[k..] + ring[..k]
  }

  lemma {:induction false} RotateStep(ring: seq<Point>, k: nat)
    requires k < |ring|
    ensures Rotate(ring, k + 1) == RotateOnce(Rotate(ring, k))
  {
    assert Rotate(ring, k)[0] == ring[k];
    assert Rotate(ring, k)[1..] == ring[k + 1..] + ring[..k];
    assert ring[..k + 1] == ring[..k] + [ring[k]];
  }

  lemma EdgeSumRotateOnce(ring: seq<Point>)
    requires |ring| > 0
    ensures Sum(EdgeTerms(RotateOnce(ring))) == Sum(EdgeTerms(ring))
  {
    EdgeTermsRotateOnce(ring);
    var e := EdgeTerms(ring);
    SumConcat(e[1..], [e[0]]);
    SumConcat([e[0]], e[1..]);
    assert [e[0]] + e[1..] == e;
    SumSingle(e[0]);
  }

  lemma {:induction false} EdgeSumRotate(ring: seq<Point>, k: nat)
    requires k <= |ring|
    ensures Sum(EdgeTerms(Rotate(ring, k))) == Sum(EdgeTerms(ring))
    decreases k
  {
    if k == 0 {
      assert Rotate(ring, 0) == ring;
    } else {
      EdgeSumRotate(ring, k - 1);
      RotateStep(ring, k - 1);
      EdgeSumRotateOnce(Rotate(ring, k - 1));
    }
  }

  /** The shoelace area does not depend on which vertex the ring starts at. */
  lemma ShoelaceRotationInvariant(ring: seq<Point>, k: nat)
    requires k <= |ring|
    ensures ShoelaceArea(Rotate(ring, k)) == ShoelaceArea(ring)
  {
    EdgeSumRotate(ring, k);
    assert |Rotate(ring, k)| == |ring|;
  }

  lemma EdgeTermsReverse(ring: seq<Point>)
    requires |ring| > 0
    ensures EdgeTerms(Reverse(ring)) ==
      Negate(Reverse(EdgeTerms(ring)[..|ring| - 1])) + [-EdgeTerms(ring)[|ring| - 1]]
  {
    var n := |ring|;
    var rv := Reverse(ring);
    var e := EdgeTerms(ring);
    var rhs := Negate(Reverse(e[..n - 1])) + [-e[n - 1]];
    forall i | 0 <= i < n
      ensures EdgeTerms(rv)[i] == rhs[i]
    {
      if i + 1 < n {
        assert EdgeTerms(rv)[i] == Cross(ring[n - 1 - i], ring[n - 2 - i]);
        assert e[n - 2 - i] == Cross(ring[n - 2 - i], ring[n - 1 - i]);
      } else {
        assert EdgeTerms(rv)[i] == Cross(ring[0], ring[n - 1]);
        assert e[n - 1] == Cross(ring[n - 1], ring[0]);
      }
    }
  }

  /** Reversing the ring's orientation negates the signed area. */
  lemma ShoelaceReversalNegates(ring: seq<Point>)
    ensures ShoelaceArea(Reverse(ring)) == -ShoelaceArea(ring)
  {
    var n := |ring|;
    if n >= 3 {
      var e := EdgeTerms(ring);
      EdgeTermsReverse(ring);
      SumConcat(Negate(Reverse(e[..n - 1])), [-e[n - 1]]);
      SumNegate(Reverse(e[..n - 1]));
      SumReverse(e[..n - 1]);
      assert e[..n - 1] + [e[n - 1]] == e;
      SumConcat(e[..n - 1], [e[n - 1]]);
      SumSingle(-e[n - 1]);
      SumSingle(e[n - 1]);
    }
  }

  function Abs(r: real): real {
    if r < 0.0 then -r else r
  }

  /** The reported (absolute) area is the same for either orientation and any start vertex. */
  lemma ReportedAreaIgnoresOrientation(ring: seq<Point>, k: nat)
    requires k <= |ring|
    ensures Abs(ShoelaceArea(Reverse(ring))) == Abs(ShoelaceArea(ring))
    ensures Abs(ShoelaceArea(Rotate(ring, k))) == Abs(ShoelaceArea(ring))
  {
    ShoelaceReversalNegates(ring);
    ShoelaceRotationInvariant(ring, k);
  }

  /** The right triangle (0,0), (2,0), (0,2) has area 2, counter-clockwise positive. */
  lemma TriangleArea()
    ensures ShoelaceArea([Point(0.0, 0.0), Point(2.0, 0.0), Point(0.0, 2.0)]) == 2.0
  {
    var p0, p1, p2 := Point(0.0, 0.0), Point(2.0, 0.0), Point(0.0, 2.0);
    var ring := [p0, p1, p2];
    var e := EdgeTerms(ring);
    assert Next(2, 3) == 0;
    assert e == [Cross(p0, p1), Cross(p1, p2), Cross(p2, p0)];
    assert Cross(p0, p1) == 0.0;
    assert Cross(p1, p2) == 4.0;
    assert Cross(p2, p0) == 0.0;
    SumThree(0.0, 4.0, 0.0);
  }

  lemma SumThree(a: real, b: real, c: real)
    ensures Sum([a, b, c]) == a + b + c
  {
    assert [a, b, c][..2] == [a, b];
    assert [a, b][..1] == [a];
    SumSingle(a);
  }
}

=== FILE: ingest.dfy ===
/**
 * The partitioner (`lambda/ingest/app.py`): it takes the storage event of
 * an uploaded object, rejects files over the size limit, derives the
 * dataset id from the object key and starts the workflow with at most
 * three work items, one per shard.
 */
module Ingest {
  import opened Wrappers
  import opened PyJson
  import opened Text
  import opened Jobs

  /** `MAX_FILE_SIZE_BYTES` and `MAX_ITEMS` when the environment leaves them unset. */
  const DefaultMaxFileSize: int := 1048576
  const DefaultMaxItems: int := 3

  /** The upper bound on the number of shards, whatever `MAX_ITEMS` says. */
  const TileCap: int := 3

  // ---------------------------------------------------------------------
  // `_derive_dataset_id`: the regular expression `ingest/([^/]+)/`
  // ---------------------------------------------------------------------

  const Prefix: string := "ingest/"

  /** The length of the run of non-`/` characters of `s` starting at `i`. */
  function RunLength(s: string, i: nat): (n: nat)
    requires i <= |s|
    ensures i + n <= |s|
    ensures forall k :: i <= k < i + n ==> s[k] != '/'
    ensures i + n == |s| || s[i + n] == '/'
    decreases |s| - i
  {
    if i == |s| || s[i] == '/' then 0 else 1 + RunLength(s, i + 1)
  }

  /**
   * The pattern matches at `p`: `ingest/`, then at least one non-`/`
   * character, then a `/`. The greedy group cannot stop before the next
   * `/`, so the group is the whole run up to it.
   */
  predicate MatchesAt(key: string, p: nat) {
    && p + |Prefix| <= |key|
    && key[p..p + |Prefix|] == Prefix
    && RunLength(key, p + |Prefix|) > 0
    && p + |Prefix| + RunLength(key, p + |Prefix|) < |key|
  }

  /** The captured group of a match at `p`. */
  function GroupAt(key: string, p: nat): (id: string)
    requires MatchesAt(key, p)
    ensures |id| > 0 && '/' !in id
  {
    var start := p + |Prefix|;
    var id := key[start..start + RunLength(key, start)];
    assert forall k :: 0 <= k < |id| ==> id[k] == key[start + k];
    id
  }

  /** `re.search` scanning from position `p` on. */
  function SearchFrom(key: string, p: nat): (r: Option<nat>)
    requires p <= |key|
    ensures r.Some? ==> p <= r.value && MatchesAt(key, r.value)
    ensures r.Some? ==> forall q: nat :: p <= q < r.value ==> !MatchesAt(key, q)
    ensures r.None? ==> forall q: nat :: p <= q ==> !MatchesAt(key, q)
    decreases |key| - p
  {
    if MatchesAt(key, p) then Some(p)
    else if p == |key| then None
    else SearchFrom(key, p + 1)
  }

  /** The leftmost match's group, or `"unknown"` when the pattern occurs nowhere. */
  function DeriveDatasetId(key: string): (id: string)
    ensures |id| > 0 && '/' !in id
    ensures (forall p: nat :: !MatchesAt(key, p)) ==> id == "unknown"
    ensures forall p: nat :: MatchesAt(key, p) && (forall q: nat :: q < p ==> !MatchesAt(key, q)) ==> id == GroupAt(key, p)
  {
    match SearchFrom(key, 0)
    case None => "unknown"
    case Some(p) => GroupAt(key, p)
  }

  /**
   * The key an upload is stored under gives back the dataset id it was
   * uploaded for, as long as that id is non-empty and has no `/`.
   */
  lemma {:induction false} UploadKeyRoundTrip(id: string, name: string)
    requires |id| > 0 && '/' !in id
    ensures DeriveDatasetId(Prefix + id + "/" + name) == id
  {
    var key := Prefix + id + "/" + name;
    RunOfId(key, id, |Prefix|);
    assert key[..|Prefix|] == Prefix;
    assert MatchesAt(key, 0);
    assert key[|Prefix|..|Prefix| + |id|] == id;
  }

  /** The run after `start` in `key` is exactly `id` when a `/` follows it. */
  lemma {:induction false} RunOfId(key: string, id: string, start: nat)
    requires '/' !in id
    requires start + |id| < |key| && key[start..start + |id|] == id && key[start + |id|] == '/'
    ensures RunLength(key, start) == |id|
    decreases |id|
  {
    if |id| > 0 {
      assert key[start] == id[0];
      assert key[start + 1..start + 1 + |id[1..]|] == id[1..];
      RunOfId(key, id[1..], start + 1);
    }
  }

  /**
   * A dataset id with a `/` in it does not survive the trip: the key
   * `ingest/a/b/f.geojson` yields `a`.
   */
  lemma SlashedIdTruncated()
    ensures DeriveDatasetId("ingest/a/b/f.geojson") == "a"
  {
    var key := "ingest/a/b/f.geojson";
    RunOfId(key, "a", 7);
    assert key[..7] == Prefix;
    assert MatchesAt(key, 0);
  }

  // ---------------------------------------------------------------------
  // Work items
  // ---------------------------------------------------------------------

  function WorkItem(datasetId: string, objectKey: string, numTiles: int, tile: nat): Json {
    Obj(map[
      "datasetId" := Str(datasetId),
      "tile" := Int(tile),
      "objectKey" := Str(objectKey),
      "numTiles" := Int(numTiles)])
  }

  /** `range(num_tiles)` has no elements when `num_tiles` is not positive. */
  function RangeLength(n: int): (r: nat)
    ensures r == if n > 0 then n else 0
  {
    if n > 0 then n else 0
  }

  /** `_derive_work_items`: one item per shard, all about the same object. */
  function DeriveWorkItems(datasetId: string, objectKey: string, numTiles: int): (items: seq<Json>)
    ensures |items| == RangeLength(numTiles)
    ensures forall i :: 0 <= i < |items| ==>
      items[i].Obj? && Get(items[i].fields, "tile") == Int(i) &&
      Get(items[i].fields, "datasetId") == Str(datasetId) &&
      Get(items[i].fields, "objectKey") == Str(objectKey) &&
      Get(items[i].fields, "numTiles") == Int(numTiles)
  {
    seq(RangeLength(numTiles), i requires 0 <= i => WorkItem(datasetId, objectKey, numTiles, i))
  }

  // ---------------------------------------------------------------------
  // The handler
  // ---------------------------------------------------------------------

  /** The environment: size and item limits, and whether a job table is configured. */
  datatype Config = Config(maxFileSize: int, maxItems: int, tableConfigured: bool)

  const DefaultConfig: Config := Config(DefaultMaxFileSize, DefaultMaxItems, true)

  /** One run: the returned dict, the workflow's input and the job table afterwards. */
  datatype Run = Run(response: Json, workflowInput: Json, table: Table)

  function Min(a: int, b: int): int {
    if a <= b then a else b
  }

  function FileType(key: string): string {
    if IsGeotiffKey(key) then "geotiff" else "geojson"
  }

  /** The record written when the workflow starts. */
  function JobRecord(datasetId: string, key: string, executionArn: Json, now: string): Item {
    map[
      "datasetId" := Str(datasetId),
      "status" := Str("PROCESSING"),
      "fileName" := Str(LastSegment(key)),
      "fileType" := Str(FileType(key)),
      "executionArn" := executionArn,
      "createdAt" := Str(now),
      "updatedAt" := Str(now)]
  }

  /** The storage event's object: `event["Records"][0]["s3"]["object"]`. */
  function ObjectOf(event: Dict): (r: Result<Json, Error>)
    ensures r.Ok? ==> r.value.Obj? && "key" in r.value.fields
    ensures r.Ok? <==>
      && "Records" in event && event["Records"].Arr? && |event["Records"].elems| > 0
      && var rec := event["Records"].elems[0];
      && rec.Obj? && "s3" in rec.fields
      && var s3 := rec.fields["s3"];
      && s3.Obj? && "object" in s3.fields
      && s3.fields["object"].Obj? && "key" in s3.fields["object"].fields
    ensures r.Ok? ==> r.value == event["Records"].elems[0].fields["s3"].fields["object"]
  {
    if "Records" !in event then Err(Raised("Expected S3 event Records"))
    else
      var rec :- Subscript(event["Records"], 0);
      var s3 :- Lookup(rec, "s3");
      var obj :- Lookup(s3, "object");
      var _ :- Lookup(obj, "key");
      Ok(obj)
  }

  /** The declared size of the object, `"0"` when the event gives none. */
  function SizeOf(obj: Json): Result<int, Error>
    requires obj.Obj?
  {
    ToInt(GetOr(obj.fields, "size", Str("0")))
  }

  /**
   * `handler(event, context)`, given the execution ARN the workflow start
   * returns and the clock's reading.
   */
  function Handle(event: Dict, cfg: Config, executionArn: Json, now: string, table: Table): (r: Result<Run, Error>)
    ensures "Records" !in event ==> r == Err(Raised("Expected S3 event Records"))
    ensures r.Ok? <==>
      && ObjectOf(event).Ok?
      && SizeOf(ObjectOf(event).value).Ok?
      && SizeOf(ObjectOf(event).value).value <= cfg.maxFileSize
      && ObjectOf(event).value.fields["key"].Str?
    ensures (ObjectOf(event).Ok? && SizeOf(ObjectOf(event).value).Ok? &&
             SizeOf(ObjectOf(event).value).value > cfg.maxFileSize) ==> r.Err? && r.error.Raised?
    ensures r.Ok? ==> var key := ObjectOf(event).value.fields["key"];
      && key.Str?
      && r.value.response == Obj(map["executionArn" := executionArn, "datasetId" := Str(DeriveDatasetId(key.s))])
      && r.value.workflowInput == Obj(map[
           "datasetId" := Str(DeriveDatasetId(key.s)),
           "objectKey" := key,
           "workItems" := Arr(DeriveWorkItems(DeriveDatasetId(key.s), key.s, Min(cfg.maxItems, TileCap))),
           "numTiles" := Int(Min(cfg.maxItems, TileCap))])
      && r.value.table == (if cfg.tableConfigured
                           then table[DeriveDatasetId(key.s) := JobRecord(DeriveDatasetId(key.s), key.s, executionArn, now)]
                           else table)
  {
    var obj :- ObjectOf(event);
    var key := obj.fields["key"];
    var size :- SizeOf(obj);
    if size > cfg.maxFileSize then
      Err(Raised("File too large: " + IntToString(size) + " > " + IntToString(cfg.maxFileSize)))
    else if !key.Str? then Err(TypeError)   // `re.search` on a non-string key
    else
      var datasetId := DeriveDatasetId(key.s);
      var numTiles := Min(cfg.maxItems, TileCap);
      var input := Obj(map[
        "datasetId" := Str(datasetId),
        "objectKey" := key,
        "workItems" := Arr(DeriveWorkItems(datasetId, key.s, numTiles)),
        "numTiles" := Int(numTiles)]);
      var stored := if cfg.tableConfigured then Put(table, JobRecord(datasetId, key.s, executionArn, now)) else Ok(table);
      Ok(Run(
        Obj(map["executionArn" := executionArn, "datasetId" := Str(datasetId)]),
        input,
        if stored.Ok? then stored.value else table))
  }

  /**
   * The workflow never gets more than three work items, one per shard
   * `0 .. n-1`, and a file exactly at the size limit is accepted.
   */
  lemma AtMostThreeItems(event: Dict, cfg: Config, executionArn: Json, now: string, table: Table)
    ensures Handle(event, cfg, executionArn, now, table).Ok? ==>
      var input := Handle(event, cfg, executionArn, now, table).value.workflowInput;
      input.Obj? && "workItems" in input.fields && input.fields["workItems"].Arr? &&
      |input.fields["workItems"].elems| <= TileCap &&
      Get(input.fields, "numTiles") == Int(Min(cfg.maxItems, TileCap))
  {
  }

  /** A file of exactly the limit passes the size gate. */
  lemma LimitSizeAccepted(key: string, cfg: Config, executionArn: Json, now: string, table: Table)
    ensures var obj := Obj(map["key" := Str(key), "size" := Int(cfg.maxFileSize)]);
      var event := map["Records" := Arr([Obj(map["s3" := Obj(map["object" := obj])])])];
      Handle(event, cfg, executionArn, now, table).Ok?
  {
    var obj := Obj(map["key" := Str(key), "size" := Int(cfg.maxFileSize)]);
    var event := map["Records" := Arr([Obj(map["s3" := Obj(map["object" := obj])])])];
    assert ObjectOf(event) == Ok(obj);
    assert SizeOf(obj) == Ok(cfg.maxFileSize);
  }

  /** One byte over the limit raises before anything is started or stored. */
  lemma OverLimitRejected(key: string, cfg: Config, executionArn: Json, now: string, table: Table)
    ensures var obj := Obj(map["key" := Str(key), "size" := Int(cfg.maxFileSize + 1)]);
      var event := map["Records" := Arr([Obj(map["s3" := Obj(map["object" := obj])])])];
      Handle(event, cfg, executionArn, now, table).Err?
  {
    var obj := Obj(map["key" := Str(key), "size" := Int(cfg.maxFileSize + 1)]);
    var event := map["Records" := Arr([Obj(map["s3" := Obj(map["object" := obj])])])];
    assert ObjectOf(event) == Ok(obj);
    assert SizeOf(obj) == Ok(cfg.maxFileSize + 1);
  }
}

=== FILE: jobs.dfy ===
/**
 * The job table the handlers share: one record per dataset id. Only the
 * operations the handlers use are modelled: a whole-record put, an
 * attribute-setting update that creates the record when it is missing,
 * a point read and a scan.
 */
module Jobs {
  import opened Wrappers
  import opened PyJson

  /** One record: attribute name to value. */
  type Item = map<string, Json>

  /** The table, keyed by `datasetId`. */
  type Table = map<string, Item>

  /** The table's key attribute is a string; the store rejects an empty one. */
  predicate ValidKey(k: Json) {
    k.Str? && |k.s| > 0
  }

  /** `put_item(Item=item)`: the record replaces whatever the table held under its key. */
  function Put(t: Table, item: Item): (r: Result<Table, Error>)
    ensures r.Ok? <==> "datasetId" in item && ValidKey(item["datasetId"])
    ensures r.Err? ==> r.error == PersistenceError
    ensures r.Ok? ==> item["datasetId"].s in r.value && r.value[item["datasetId"].s] == item
    ensures r.Ok? ==> forall k :: k in t && k != item["datasetId"].s ==> k in r.value && r.value[k] == t[k]
    ensures r.Ok? ==> r.value.Keys == t.Keys + {item["datasetId"].s}
  {
    if "datasetId" in item && ValidKey(item["datasetId"]) then Ok(t[item["datasetId"].s := item])
    else Err(PersistenceError)
  }

  /**
   * `update_item(Key={"datasetId": key}, UpdateExpression="SET ...")`: the
   * named attributes take the given values, every other attribute keeps its
   * value, and a missing record is created holding only its key.
   */
  function Update(t: Table, key: Json, sets: Item): (r: Result<Table, Error>)
    ensures r.Ok? <==> ValidKey(key)
    ensures r.Err? ==> r.error == PersistenceError
    ensures r.Ok? ==> key.s in r.value && r.value.Keys == t.Keys + {key.s}
    ensures r.Ok? ==> forall a :: a in sets ==> a in r.value[key.s] && r.value[key.s][a] == sets[a]
    ensures r.Ok? && key.s in t ==>
      forall a :: a in t[key.s] && a !in sets ==> a in r.value[key.s] && r.value[key.s][a] == t[key.s][a]
    ensures r.Ok? ==>
      forall a :: a in r.value[key.s] ==> a in sets || (key.s in t && a in t[key.s]) || a == "datasetId"
    ensures r.Ok? ==> forall k :: k in t && k != key.s ==> k in r.value && r.value[k] == t[k]
  {
    if ValidKey(key) then
      var base := if key.s in t then t[key.s] else map["datasetId" := key];
      Ok(t[key.s := base + sets])
    else Err(PersistenceError)
  }

  /** Setting the same attributes twice is setting them once with the later values. */
  lemma UpdateTwice(t: Table, key: Json, s1: Item, s2: Item)
    requires s1.Keys == s2.Keys
    requires Update(t, key, s1).Ok?
    ensures Update(Update(t, key, s1).value, key, s2) == Update(t, key, s2)
  {
    var base := if key.s in t then t[key.s] else map["datasetId" := key];
    var t1 := Update(t, key, s1).value;
    assert t1[key.s] == base + s1;
    var m1, m2 := (base + s1) + s2, base + s2;
    assert m1.Keys == m2.Keys;
    assert forall a :: a in m1 ==> m1[a] == m2[a];
    assert m1 == m2;
    assert t1[key.s := m1] == t[key.s := m2];
  }

  /** `get_item(Key={"datasetId": key})`: the record, if the table holds one. */
  function GetItem(t: Table, key: Json): (r: Result<Option<Item>, Error>)
    ensures r.Ok? <==> key.Str?
    ensures r.Err? ==> r.error == PersistenceError
    ensures r.Ok? ==> (r.value.Some? <==> key.s in t)
    ensures r.Ok? && r.value.Some? ==> r.value.value == t[key.s]
  {
    if !key.Str? then Err(PersistenceError)
    else if key.s in t then Ok(Some(t[key.s]))
    else Ok(None)
  }
}

=== FILE: pipeline.dfy ===
/**
 * Properties of the stages together: what the shard processor returns the
 * aggregator reads back unchanged, the shards' totals merge to the totals
 * of one pass over the whole file, an uploaded file's key names the dataset
 * it was uploaded for, and the status updater's reading of the
 * aggregator's events.
 */
module Pipeline {
  import opened Wrappers
  import opened PyJson
  import opened Geometry
  import opened Accumulator
  import opened Process
  import opened Aggregate
  import Ingest
  import Api
  import UpdateStatus
  import Jobs

  // ---------------------------------------------------------------------
  // Shard results through the aggregator
  // ---------------------------------------------------------------------

  /** The aggregator decodes a shard's returned dict to exactly the shard's statistics. */
  lemma ShardRoundTrip(r: ShardResult)
    ensures StatsOf(Process.ToJson(r)) == Ok(r.stats)
  {
    var d := Process.ToJson(r).fields;
    assert "bbox" in d && d["bbox"] == BoxToJson(r.stats.bbox);
    assert d == d["bbox" := BoxToJson(r.stats.bbox)];
    BboxRoundTrip(d, r.stats.bbox);
    assert GetOr(d, "pointCount", Int(0)) == Int(r.stats.pointCount);
    assert GetOr(d, "polygonCount", Int(0)) == Int(r.stats.polygonCount);
    assert GetOr(d, "otherCount", Int(0)) == Int(r.stats.otherCount);
    assert GetOr(d, "polygonAreaSum", Float(0.0)) == Float(r.stats.polygonArea);
    assert Get(d, "pointSum") == Arr([Float(r.stats.sumX), Float(r.stats.sumY)]);
    assert PointSumOf(d) == Ok((r.stats.sumX, r.stats.sumY));
  }

  /** The statistics the aggregator sums for a list of shard results are theirs, in order. */
  lemma ShardsDecode(shards: seq<ShardResult>)
    ensures AllDecode(MapSeq(Process.ToJson, shards))
    ensures MapSeq(StatsOrZero, MapSeq(Process.ToJson, shards)) == MapSeq((r: ShardResult) => r.stats, shards)
  {
    var js := MapSeq(Process.ToJson, shards);
    forall k | 0 <= k < |shards|
      ensures StatsOf(js[k]) == Ok(shards[k].stats)
    {
      ShardRoundTrip(shards[k]);
    }
  }

  // ---------------------------------------------------------------------
  // Merging the shards is exact
  // ---------------------------------------------------------------------

  /** What one feature adds when its shard selects it. */
  function ContributionOf(f: Json): Stats {
    if Classify(f).Ok? then Single(Classify(f).value) else Zero
  }

  /** The contributions shard `tile` folds, in feature order. */
  function Part(fs: seq<Json>, tile: int, numTiles: int): seq<Stats>
    decreases |fs|
  {
    if |fs| == 0 then []
    else
      var n := |fs| - 1;
      Part(fs[..n], tile, numTiles) + (if Selected(n, tile, numTiles) then [ContributionOf(fs[n])] else [])
  }

  lemma FoldSnoc(ts: seq<Stats>, x: Stats)
    ensures Fold(ts + [x]) == Combine(Fold(ts), x)
  {
    assert (ts + [x])[..|ts|] == ts;
  }

  /** A shard's loop is the fold of the contributions of the features it selects. */
  lemma {:induction false} AccumulateIsFold(fs: seq<Json>, tile: int, numTiles: int)
    requires Accumulate(fs, tile, numTiles).Ok?
    ensures Accumulate(fs, tile, numTiles).value == Fold(Part(fs, tile, numTiles))
    decreases |fs|
  {
    if |fs| > 0 {
      var n := |fs| - 1;
      AccumulateStep(fs, tile, numTiles);
      AccumulateIsFold(fs[..n], tile, numTiles);
      var s := Accumulate(fs[..n], tile, numTiles).value;
      if Selected(n, tile, numTiles) {
        assert Accumulate(fs, tile, numTiles).value == Apply(s, Classify(fs[n]).value);
        ApplyIsCombine(s, Classify(fs[n]).value);
        assert Part(fs, tile, numTiles) == Part(fs[..n], tile, numTiles) + [ContributionOf(fs[n])];
        FoldSnoc(Part(fs[..n], tile, numTiles), ContributionOf(fs[n]));
      } else {
        assert Accumulate(fs, tile, numTiles).value == s;
        assert Part(fs, tile, numTiles) == Part(fs[..n], tile, numTiles);
      }
    }
  }

  /**
   * A shard that handled a GeoJSON work item reports the fold of the
   * contributions of exactly the features its tile selects.
   */
  lemma HandledShardIsFold(event: map<string, Json>, doc: Json)
    ensures var r := Process.Handle(event, Body(Some(doc)));
      r.Ok? && !r.value.geotiff ==>
        FeaturesOf(doc).Ok? && r.value.stats == Fold(Part(FeaturesOf(doc).value, r.value.tile, r.value.numTiles))
  {
    var r := Process.Handle(event, Body(Some(doc)));
    if r.Ok? && !r.value.geotiff {
      AccumulateIsFold(FeaturesOf(doc).value, r.value.tile, r.value.numTiles);
    }
  }

  /** The shards' folds, shard `0` first. */
  function ShardTotals(fs: seq<Json>, numTiles: nat): (ts: seq<Stats>)
    ensures |ts| == numTiles
  {
    seq(numTiles, t requires 0 <= t < numTiles => Fold(Part(fs, t, numTiles)))
  }

  /** Combining one element of a fold with `x` combines the whole fold with `x`. */
  lemma FoldUpdate(ts: seq<Stats>, i: nat, x: Stats)
    requires i < |ts|
    ensures Fold(ts[i := Combine(ts[i], x)]) == Combine(Fold(ts), x)
  {
    var us := ts[i := Combine(ts[i], x)];
    assert us[..i] + us[i + 1..] == ts[..i] + ts[i + 1..];
    FoldExtract(us, i);
    FoldExtract(ts, i);
    CombineAssociates(Fold(ts[..i] + ts[i + 1..]), ts[i], x);
  }

  lemma {:induction false} FoldZeros(ts: seq<Stats>)
    requires forall k :: 0 <= k < |ts| ==> ts[k] == Zero
    ensures Fold(ts) == Zero
    decreases |ts|
  {
    if |ts| > 0 {
      var init := ts[..|ts| - 1];
      FoldZeros(init);
      assert Fold(ts) == Combine(Fold(init), ts[|ts| - 1]);
      assert ts[|ts| - 1] == Zero;
      CombineIdentity(Zero);
    }
  }

  /** Adding a feature changes only the fold of the shard that selects it. */
  lemma ShardTotalsStep(fs: seq<Json>, numTiles: nat)
    requires numTiles >= 1 && |fs| > 0
    ensures var n := |fs| - 1;
      var before := ShardTotals(fs[..n], numTiles);
      var t0 := n % numTiles;
      ShardTotals(fs, numTiles) == before[t0 := Combine(before[t0], ContributionOf(fs[n]))]
  {
    var n := |fs| - 1;
    var init := fs[..n];
    var x := ContributionOf(fs[n]);
    var t0 := n % numTiles;
    var before := ShardTotals(init, numTiles);
    var after := ShardTotals(fs, numTiles);
    forall t | 0 <= t < numTiles
      ensures after[t] == before[t0 := Combine(before[t0], x)][t]
    {
      if t == t0 {
        assert Part(fs, t, numTiles) == Part(init, t, numTiles) + [x];
        FoldSnoc(Part(init, t, numTiles), x);
      } else {
        assert !Selected(n, t, numTiles);
        assert Part(fs, t, numTiles) == Part(init, t, numTiles);
      }
    }
  }

  lemma ShardTotalsEmpty(fs: seq<Json>, numTiles: nat)
    requires |fs| == 0
    ensures Fold(ShardTotals(fs, numTiles)) == Zero && Part(fs, 0, 1) == []
  {
    var ts := ShardTotals(fs, numTiles);
    forall k | 0 <= k < |ts|
      ensures ts[k] == Zero
    {
      assert Part(fs, k, numTiles) == [];
    }
    FoldZeros(ts);
  }

  /** The shards' folds together are the fold a single shard makes over every feature. */
  lemma {:induction false} ShardsSumToWhole(fs: seq<Json>, numTiles: nat)
    requires numTiles >= 1
    ensures Fold(ShardTotals(fs, numTiles)) == Fold(Part(fs, 0, 1))
    decreases |fs|
  {
    if |fs| == 0 {
      ShardTotalsEmpty(fs, numTiles);
    } else {
      var n := |fs| - 1;
      var init := fs[..n];
      var x := ContributionOf(fs[n]);
      var before := ShardTotals(init, numTiles);
      var t0 := n % numTiles;
      assert 0 <= t0 < |before|;
      ShardTotalsStep(fs, numTiles);
      assert ShardTotals(fs, numTiles) == before[t0 := Combine(before[t0], x)];
      FoldUpdate(before, t0, x);
      ShardsSumToWhole(init, numTiles);
      assert Part(fs, 0, 1) == Part(init, 0, 1) + [x];
      FoldSnoc(Part(init, 0, 1), x);
    }
  }

  /**
   * Every feature is processed by exactly one of the shards `0 .. n-1`,
   * so the merged totals of the shards equal the totals of processing the
   * whole file as one shard.
   */
  lemma ShardMergeExact(fs: seq<Json>, numTiles: nat)
    requires numTiles >= 1
    requires forall t :: 0 <= t < numTiles ==> Accumulate(fs, t, numTiles).Ok?
    ensures Accumulate(fs, 0, 1).Ok?
    ensures Fold(seq(numTiles, t requires 0 <= t < numTiles => Accumulate(fs, t, numTiles).value)) ==
      Accumulate(fs, 0, 1).value
  {
    WholeFileClassifies(fs, numTiles);
    AccumulateIsFold(fs, 0, 1);
    var totals := seq(numTiles, t requires 0 <= t < numTiles => Accumulate(fs, t, numTiles).value);
    forall t | 0 <= t < numTiles
      ensures totals[t] == ShardTotals(fs, numTiles)[t]
    {
      AccumulateIsFold(fs, t, numTiles);
    }
    assert totals == ShardTotals(fs, numTiles);
    ShardsSumToWhole(fs, numTiles);
  }

  /** When every shard's loop succeeds, so does one loop over every feature. */
  lemma WholeFileClassifies(fs: seq<Json>, numTiles: nat)
    requires numTiles >= 1
    requires forall t :: 0 <= t < numTiles ==> Accumulate(fs, t, numTiles).Ok?
    ensures Accumulate(fs, 0, 1).Ok?
  {
    forall idx | 0 <= idx < |fs| && Selected(idx, 0, 1)
      ensures Classify(fs[idx]).Ok?
    {
      var t := idx % numTiles;
      assert 0 <= t < numTiles;
      assert Selected(idx, t, numTiles);
      assert Accumulate(fs, t, numTiles).Ok?;
    }
    assert SelectedClassify(fs, 0, 1);
  }

  /**
   * End to end: when shard `t` of `n` processed the GeoJSON file for
   * tile `t`, the aggregator's totals for the shards' returned dicts are
   * the totals of one pass over the whole file.
   */
  lemma PipelineTotals(source: SourceObject, shards: seq<ShardResult>)
    requires |shards| >= 1
    requires forall t :: 0 <= t < |shards| ==> ProcessGeojson(source, t, |shards|) == Ok(shards[t].stats)
    ensures ProcessGeojson(source, 0, 1).Ok?
    ensures Summarize(MapSeq(Process.ToJson, shards)).Ok?
    ensures Summarize(MapSeq(Process.ToJson, shards)).value.totals == ProcessGeojson(source, 0, 1).value
  {
    var n := |shards|;
    assert ProcessGeojson(source, 0, n).Ok?;
    var fs := FeaturesOf(source.doc.value).value;
    forall t | 0 <= t < n
      ensures Accumulate(fs, t, n) == Ok(shards[t].stats)
    {
      assert ProcessGeojson(source, t, n) == Accumulate(fs, t, n);
    }
    ShardMergeExact(fs, n);
    ShardsDecode(shards);
    assert MapSeq((r: ShardResult) => r.stats, shards) ==
      seq(n, t requires 0 <= t < n => Accumulate(fs, t, n).value);
  }

  // ---------------------------------------------------------------------
  // Upload and ingest
  // ---------------------------------------------------------------------

  /**
   * The ingest trigger recovers the dataset id from the key the upload
   * stored the file under, for a non-empty id without `/`.
   */
  lemma UploadKeyNamesDataset(id: string, fileName: string)
    requires |id| > 0 && '/' !in id
    ensures Ingest.DeriveDatasetId(Api.UploadKey(Str(id), Str(fileName))) == id
  {
    assert Api.UploadKey(Str(id), Str(fileName)) == Ingest.Prefix + id + "/" + fileName;
    Ingest.UploadKeyRoundTrip(id, fileName);
  }

  // ---------------------------------------------------------------------
  // The aggregator's events at the status updater
  // ---------------------------------------------------------------------

  /**
   * The status event the aggregator sends records `COMPLETED` for a run
   * whose tiles all finished `"ok"` and `FAILED` otherwise, and stores the
   * summary and the manifest key.
   */
  lemma StatusEventRecorded(s: Summary, now: string, table: Jobs.Table)
    requires s.datasetId != ""
    ensures var o := UpdateStatus.Handle(StatusEvent(s).fields, now, table);
      && s.datasetId in o.table
      && Get(o.table[s.datasetId], "status") == Str(if s.ok then "COMPLETED" else "FAILED")
      && Get(o.table[s.datasetId], "result") == Obj(map["summary" := SummaryToJson(s)])
      && Get(o.table[s.datasetId], "manifestKey") == Str(ManifestKey(s.datasetId))
  {
    var e := StatusEvent(s).fields;
    var req := UpdateStatus.Request(
      Str(s.datasetId),
      Obj(map["summary" := SummaryToJson(s)]),
      Str(if s.ok then "COMPLETED" else "FAILED"),
      Null);
    StatusEventRead(s);
    RecordOf(e, req, now, table);
  }

  /** The record the status updater leaves for a request with a result. */
  lemma RecordOf(e: map<string, Json>, req: UpdateStatus.Request, now: string, table: Jobs.Table)
    requires UpdateStatus.ReadEvent(e) == Ok(req) && Jobs.ValidKey(req.datasetId) && Truthy(req.result)
    ensures var t := UpdateStatus.Handle(e, now, table).table;
      && req.datasetId.s in t
      && t[req.datasetId.s]["status"] == req.status
      && t[req.datasetId.s]["result"] == req.result
      && t[req.datasetId.s]["manifestKey"] == Str(Display(req.datasetId) + "/manifest.json")
  {
    UpdateStatus.WrittenFields(e, now, table);
  }

  /** How the status updater reads the aggregator's status event. */
  lemma StatusEventRead(s: Summary)
    ensures UpdateStatus.ReadEvent(StatusEvent(s).fields) == Ok(UpdateStatus.Request(
      Str(s.datasetId),
      Obj(map["summary" := SummaryToJson(s)]),
      Str(if s.ok then "COMPLETED" else "FAILED"),
      Null))
  {
  }

  /**
   * The aggregator's own return value, `{"summary": ...}`, carries no
   * status, so the status updater records `COMPLETED` for it even when
   * some tile failed.
   */
  lemma ReturnedSummaryRecordsCompleted(s: Summary, now: string, table: Jobs.Table)
    requires s.datasetId != ""
    ensures var o := UpdateStatus.Handle(map["summary" := SummaryToJson(s)], now, table);
      && s.datasetId in o.table
      && Get(o.table[s.datasetId], "status") == Str("COMPLETED")
  {
    var e := map["summary" := SummaryToJson(s)];
    assert UpdateStatus.ReadEvent(e).value.datasetId == Str(s.datasetId);
    assert UpdateStatus.Writes(e);
    UpdateStatus.WrittenFields(e, now, table);
  }

  // ---------------------------------------------------------------------
  // A worked example
  // ---------------------------------------------------------------------

  function Feature(geometryType: string, coordinates: Json): Json {
    Obj(map[
      "type" := Str("Feature"),
      "geometry" := Obj(map["type" := Str(geometryType), "coordinates" := coordinates])])
  }

  function Pair(x: int, y: int): Json {
    Arr([Int(x), Int(y)])
  }

  const PointFeature := Feature("Point", Pair(1, 1))
  const TriangleFeature := Feature("Polygon", Arr([Arr([Pair(0, 0), Pair(2, 0), Pair(0, 2)])]))
  const LineFeature := Feature("LineString", Arr([Pair(0, 0), Pair(1, 1)]))
  const Triangle := [Point(0.0, 0.0), Point(2.0, 0.0), Point(0.0, 2.0)]

  lemma RingPointsCons(x: int, y: int, rest: seq<Json>)
    requires RingPoints(rest).Ok?
    ensures RingPoints([Pair(x, y)] + rest) == Ok([Point(x as real, y as real)] + RingPoints(rest).value)
  {
    var ps := [Pair(x, y)] + rest;
    assert ps[1..] == rest;
    assert ps[0].elems[0] == Int(x) && ps[0].elems[1] == Int(y);
  }

  lemma PointClassified()
    ensures Classify(PointFeature) == Ok(PointHit(Point(1.0, 1.0)))
  {
    assert GeometryOf(PointFeature) == Ok(map["type" := Str("Point"), "coordinates" := Pair(1, 1)]);
  }

  lemma TriangleClassified()
    ensures Classify(TriangleFeature) == Ok(PolygonHit(Triangle))
  {
    var ring := [Pair(0, 0), Pair(2, 0), Pair(0, 2)];
    assert GeometryOf(TriangleFeature) == Ok(map["type" := Str("Polygon"), "coordinates" := Arr([Arr(ring)])]);
    assert RingPoints([]) == Ok([]);
    RingPointsCons(0, 2, []);
    assert [Pair(0, 2)] + [] == [Pair(0, 2)];
    assert [Point(0.0, 2.0)] + [] == [Point(0.0, 2.0)];
    assert RingPoints([Pair(0, 2)]) == Ok([Point(0.0, 2.0)]);
    RingPointsCons(2, 0, [Pair(0, 2)]);
    assert [Pair(2, 0)] + [Pair(0, 2)] == [Pair(2, 0), Pair(0, 2)];
    assert [Point(2.0, 0.0)] + [Point(0.0, 2.0)] == [Point(2.0, 0.0), Point(0.0, 2.0)];
    assert RingPoints([Pair(2, 0), Pair(0, 2)]) == Ok([Point(2.0, 0.0), Point(0.0, 2.0)]);
    RingPointsCons(0, 0, [Pair(2, 0), Pair(0, 2)]);
    assert [Pair(0, 0)] + [Pair(2, 0), Pair(0, 2)] == ring;
    assert [Point(0.0, 0.0)] + [Point(2.0, 0.0), Point(0.0, 2.0)] == Triangle;
    assert RingPoints(ring) == Ok(Triangle);
  }

  lemma LineClassified()
    ensures Classify(LineFeature) == Ok(OtherHit)
  {
    assert GeometryOf(LineFeature) == Ok(map["type" := Str("LineString"), "coordinates" := Arr([Pair(0, 0), Pair(1, 1)])]);
  }

  /** A single shard folds each feature's contribution into the running statistics. */
  lemma AccumulateLast(fs: seq<Json>, s: Stats, c: Contribution)
    requires |fs| > 0
    requires Accumulate(fs[..|fs| - 1], 0, 1) == Ok(s)
    requires Classify(fs[|fs| - 1]) == Ok(c)
    ensures Accumulate(fs, 0, 1) == Ok(Apply(s, c))
  {
    assert Selected(|fs| - 1, 0, 1);
  }

  const AfterPoint := Stats(1, 1.0, 1.0, 0, 0.0, 0, Some(Box(1.0, 1.0, 1.0, 1.0)))
  const AfterTriangle := Stats(1, 1.0, 1.0, 1, 2.0, 0, Some(Box(0.0, 0.0, 2.0, 2.0)))
  const AfterLine := Stats(1, 1.0, 1.0, 1, 2.0, 1, Some(Box(0.0, 0.0, 2.0, 2.0)))

  /** Three features in one shard: the contributions applied in order. */
  lemma AccumulateThree(fs: seq<Json>, c0: Contribution, c1: Contribution, c2: Contribution)
    requires |fs| == 3
    requires Classify(fs[0]) == Ok(c0) && Classify(fs[1]) == Ok(c1) && Classify(fs[2]) == Ok(c2)
    ensures Accumulate(fs, 0, 1) == Ok(Apply(Apply(Apply(Zero, c0), c1), c2))
  {
    assert fs[..1][..0] == [];
    AccumulateLast(fs[..1], Zero, c0);
    assert fs[..2][..1] == fs[..1];
    AccumulateLast(fs[..2], Apply(Zero, c0), c1);
    AccumulateLast(fs, Apply(Apply(Zero, c0), c1), c2);
  }

  lemma PointAdds()
    ensures Apply(Zero, PointHit(Point(1.0, 1.0))) == AfterPoint
  {
  }

  lemma TriangleAdds()
    ensures Apply(AfterPoint, PolygonHit(Triangle)) == AfterTriangle
  {
    TriangleArea();
    TriangleBox();
    ApplyPolygon(AfterPoint, Triangle, 2.0, Box(0.0, 0.0, 2.0, 2.0));
  }

  lemma ApplyPolygon(s: Stats, ring: seq<Point>, area: real, b: Box)
    requires ShoelaceArea(ring) == area && area >= 0.0
    requires ExpandBox(s.bbox, ring) == Some(b)
    ensures Apply(s, PolygonHit(ring)) ==
      s.(polygonCount := s.polygonCount + 1, polygonArea := s.polygonArea + area, bbox := Some(b))
  {
  }

  lemma TriangleBox()
    ensures ExpandBox(Some(Box(1.0, 1.0, 1.0, 1.0)), Triangle) == Some(Box(0.0, 0.0, 2.0, 2.0))
  {
    assert Triangle[1..] == [Point(2.0, 0.0), Point(0.0, 2.0)];
    assert Triangle[1..][1..] == [Point(0.0, 2.0)];
    assert Triangle[1..][1..][1..] == [];
  }

  /**
   * One Point at (1, 1), one triangle of area 2 and one LineString,
   * processed as one shard: one of each count, area 2, the triangle's
   * bounding box, and the point as the centroid.
   */
  lemma WorkedExample()
    ensures Accumulate([PointFeature, TriangleFeature, LineFeature], 0, 1) == Ok(AfterLine)
    ensures Centroid(AfterLine) == Some((1.0, 1.0))
  {
    PointClassified();
    TriangleClassified();
    LineClassified();
    AccumulateThree([PointFeature, TriangleFeature, LineFeature],
                    PointHit(Point(1.0, 1.0)), PolygonHit(Triangle), OtherHit);
    PointAdds();
    TriangleAdds();
  }
}

=== FILE: process.dfy ===
/**
 * The shard processor (`lambda/process/app.py`): selects the features of
 * one shard by ordinal modulo, classifies each geometry as a Point, a
 * counted Polygon, an uncounted Polygon or "other", and accumulates the
 * shard's statistics.
 */
module Process {
  import opened Wrappers
  import opened PyJson
  import opened Text
  import opened Geometry
  import opened Accumulator

  // ---------------------------------------------------------------------
  // Shard selection
  // ---------------------------------------------------------------------

  /** `max(1, num_tiles)` */
  function Modulus(numTiles: int): (m: int)
    ensures m >= 1
    ensures numTiles >= 1 ==> m == numTiles
  {
    if numTiles > 1 then numTiles else 1
  }

  /** Feature `idx` belongs to shard `tile` (`idx % max(1, num_tiles) == tile`). */
  predicate Selected(idx: nat, tile: int, numTiles: int) {
    idx % Modulus(numTiles) == tile
  }

  /** The ordinals in `[0, count)` that shard `tile` processes. */
  function ShardIndices(count: nat, tile: int, numTiles: int): set<nat> {
    set idx: nat | idx < count && Selected(idx, tile, numTiles)
  }

  /**
   * For `num_tiles >= 1` the shards `0 .. num_tiles - 1` partition the
   * feature ordinals: every ordinal is in exactly one shard.
   */
  lemma ShardsPartition(count: nat, numTiles: int)
    requires numTiles >= 1
    ensures forall idx: nat | idx < count :: idx in ShardIndices(count, idx % numTiles, numTiles)
    ensures forall idx: nat, t: int | idx < count && idx in ShardIndices(count, t, numTiles) ::
      0 <= t < numTiles && t == idx % numTiles
  {
  }

  /** For `num_tiles <= 0` the `max(1, ...)` guard leaves every feature to shard 0. */
  lemma NonPositiveTileCount(idx: nat, tile: int, numTiles: int)
    requires numTiles <= 0
    ensures Selected(idx, tile, numTiles) <==> tile == 0
  {
  }

  // ---------------------------------------------------------------------
  // Classification of one feature
  // ---------------------------------------------------------------------

  /** What one selected feature contributes to its shard. */
  datatype Contribution =
    | PointHit(p: Point)
    | PolygonHit(ring: seq<Point>)
    | OtherHit
    | Uncounted   // a Polygon whose outer ring has fewer than 3 valid points

  /** `(feat or {}).get("geometry") or {}`: the geometry dict of a feature. */
  function GeometryOf(feat: Json): (r: Result<Dict, Error>)
    ensures !Truthy(feat) ==> r == Ok(map[])
    ensures Truthy(feat) && !feat.Obj? ==> r == Err(AttributeError)
    ensures feat.Obj? ==>
      var g := Get(feat.fields, "geometry");
      && (!Truthy(g) ==> r == Ok(map[]))
      && (Truthy(g) && g.Obj? ==> r == Ok(g.fields))
      && (Truthy(g) && !g.Obj? ==> r == Err(AttributeError))
  {
    var f := Or(feat, Obj(map[]));
    var g :- AttrGet(f, "geometry", Null);
    var geom := Or(g, Obj(map[]));
    if geom.Obj? then Ok(geom.fields) else Err(AttributeError)
  }

  /** `gtype == "Point" and isinstance(coords, list) and len(coords) >= 2` */
  predicate PointShaped(g: Dict) {
    var coords := Get(g, "coordinates");
    Get(g, "type") == Str("Point") && coords.Arr? && |coords.elems| >= 2
  }

  /** `gtype == "Polygon" and isinstance(coords, list) and coords` */
  predicate PolygonShaped(g: Dict) {
    var coords := Get(g, "coordinates");
    Get(g, "type") == Str("Polygon") && coords.Arr? && |coords.elems| > 0
  }

  /** `isinstance(p, list) and len(p) >= 2`: a ring entry that yields a vertex. */
  predicate IsPair(p: Json) {
    p.Arr? && |p.elems| >= 2
  }

  function CountPairs(ps: seq<Json>): (n: nat)
    ensures n <= |ps|
  {
    if |ps| == 0 then 0 else (if IsPair(ps[0]) then 1 else 0) + CountPairs(ps[1..])
  }

  /** The ring entry at `k` is a pair whose coordinates `float()` accepts. */
  predicate ConvertibleAt(ps: seq<Json>, k: int)
    requires 0 <= k < |ps|
  {
    IsPair(ps[k]) ==> ToFloat(ps[k].elems[0]).Ok? && ToFloat(ps[k].elems[1]).Ok?
  }

  /** `[(float(p[0]), float(p[1])) for p in outer if isinstance(p, list) and len(p) >= 2]` */
  function RingPoints(ps: seq<Json>): (r: Result<seq<Point>, Error>)
    ensures r.Ok? <==> forall k :: 0 <= k < |ps| ==> ConvertibleAt(ps, k)
    ensures r.Ok? ==> |r.value| == CountPairs(ps)
    ensures |ps| == 1 && IsPair(ps[0]) && ToFloat(ps[0].elems[0]).Ok? && ToFloat(ps[0].elems[1]).Ok? ==>
      r == Ok([Point(ToFloat(ps[0].elems[0]).value, ToFloat(ps[0].elems[1]).value)])
    ensures |ps| == 1 && !IsPair(ps[0]) ==> r == Ok([])
    decreases |ps|
  {
    if |ps| == 0 then Ok([])
    else
      var rest := RingPoints(ps[1..]);
      assert rest.Ok? <==> forall k :: 0 <= k < |ps| - 1 ==> ConvertibleAt(ps[1..], k);
      assert (forall k :: 0 <= k < |ps| ==> ConvertibleAt(ps, k)) <==>
        ConvertibleAt(ps, 0) && forall k :: 0 <= k < |ps| - 1 ==> ConvertibleAt(ps[1..], k) by {
        forall k | 0 <= k < |ps| - 1
          ensures ConvertibleAt(ps, k + 1) == ConvertibleAt(ps[1..], k)
        {
          assert ps[1..][k] == ps[k + 1];
        }
        if forall k :: 0 <= k < |ps| - 1 ==> ConvertibleAt(ps[1..], k) {
          forall k | 1 <= k < |ps| ensures ConvertibleAt(ps, k) {
            assert ConvertibleAt(ps[1..], k - 1);
          }
        }
      }
      if IsPair(ps[0]) then
        var x :- ToFloat(ps[0].elems[0]);
        var y :- ToFloat(ps[0].elems[1]);
        var tail :- rest;
        assert |ps| == 1 ==> ps[1..] == [] && tail == [] && [Point(x, y)] + tail == [Point(x, y)];
        Ok([Point(x, y)] + tail)
      else
        rest
  }

  /**
   * Converting a ring piecewise: the points of a concatenation are the points
   * of its parts, in order. With the one-entry cases of `RingPoints` this
   * pins down exactly which points a ring yields.
   */
  lemma {:induction false} RingPointsConcat(a: seq<Json>, b: seq<Json>)
    ensures RingPoints(a + b).Ok? <==> RingPoints(a).Ok? && RingPoints(b).Ok?
    ensures RingPoints(a + b).Ok? ==> RingPoints(a + b).value == RingPoints(a).value + RingPoints(b).value
    decreases |a|
  {
    if |a| == 0 {
      assert a + b == b;
    } else {
      assert (a + b)[0] == a[0];
      assert (a + b)[1..] == a[1..] + b;
      RingPointsConcat(a[1..], b);
      if RingPoints(a + b).Ok? && IsPair(a[0]) {
        var head := [Point(ToFloat(a[0].elems[0]).value, ToFloat(a[0].elems[1]).value)];
        assert RingPoints(a).value == head + RingPoints(a[1..]).value;
        assert RingPoints(a + b).value == head + (RingPoints(a[1..]).value + RingPoints(b).value);
      }
    }
  }

  /**
   * One pass of the shard loop for one selected feature: which branch it
   * takes, or the exception `float()` or `.get` raises on the way.
   */
  function Classify(feat: Json): (r: Result<Contribution, Error>)
    ensures GeometryOf(feat).Err? ==> r.Err?
    ensures r.Ok? ==> GeometryOf(feat).Ok?
    ensures r.Ok? ==>
      var g := GeometryOf(feat).value;
      && (r.value.OtherHit? <==> !PointShaped(g) && !PolygonShaped(g))
      && (r.value.PointHit? <==> PointShaped(g))
      && (r.value.PolygonHit? ==> PolygonShaped(g) && |r.value.ring| >= 3)
      && (r.value.Uncounted? ==> PolygonShaped(g))
    ensures r.Ok? && r.value.PointHit? ==>
      var coords := Get(GeometryOf(feat).value, "coordinates").elems;
      ToFloat(coords[0]) == Ok(r.value.p.x) && ToFloat(coords[1]) == Ok(r.value.p.y)
    ensures r.Ok? && r.value.PolygonHit? ==>
      var outer := Get(GeometryOf(feat).value, "coordinates").elems[0];
      outer.Arr? && RingPoints(outer.elems) == Ok(r.value.ring)
    ensures GeometryOf(feat).Ok? && PolygonShaped(GeometryOf(feat).value) ==>
      var outer := Get(GeometryOf(feat).value, "coordinates").elems[0];
      outer.Arr? && |outer.elems| >= 3 ==>
        && (RingPoints(outer.elems).Err? ==> r.Err?)
        && (RingPoints(outer.elems).Ok? && |RingPoints(outer.elems).value| >= 3 ==>
              r == Ok(PolygonHit(RingPoints(outer.elems).value)))
    ensures GeometryOf(feat).Ok? && !PointShaped(GeometryOf(feat).value) && !PolygonShaped(GeometryOf(feat).value) ==>
      r == Ok(OtherHit)
  {
    var g :- GeometryOf(feat);
    var coords := Get(g, "coordinates");
    if PointShaped(g) then
      var x :- ToFloat(coords.elems[0]);
      var y :- ToFloat(coords.elems[1]);
      Ok(PointHit(Point(x, y)))
    else if PolygonShaped(g) then
      var outer := coords.elems[0];
      if outer.Arr? && |outer.elems| >= 3 then
        var ring :- RingPoints(outer.elems);
        if |ring| >= 3 then Ok(PolygonHit(ring)) else Ok(Uncounted)
      else Ok(Uncounted)
    else Ok(OtherHit)
  }

  /**
   * When classification succeeds, and that it does not raise on anything
   * but a failed `float()`: a geometry that is neither a Point nor a Polygon
   * is "other", and a Polygon whose outer ring is not a list, has fewer than
   * three entries or converts to fewer than three points is uncounted.
   */
  lemma ClassifyOutcome(feat: Json)
    ensures GeometryOf(feat).Ok? ==>
      var g := GeometryOf(feat).value;
      var coords := Get(g, "coordinates");
      Classify(feat).Ok? <==>
        && (PointShaped(g) ==> ToFloat(coords.elems[0]).Ok? && ToFloat(coords.elems[1]).Ok?)
        && (!PointShaped(g) && PolygonShaped(g) && coords.elems[0].Arr? && |coords.elems[0].elems| >= 3 ==>
              RingPoints(coords.elems[0].elems).Ok?)
    ensures GeometryOf(feat).Ok? && !PointShaped(GeometryOf(feat).value) && !PolygonShaped(GeometryOf(feat).value) ==>
      Classify(feat) == Ok(OtherHit)
    ensures GeometryOf(feat).Ok? && PolygonShaped(GeometryOf(feat).value) ==>
      var outer := Get(GeometryOf(feat).value, "coordinates").elems[0];
      (!outer.Arr? || |outer.elems| < 3 ||
       (RingPoints(outer.elems).Ok? && |RingPoints(outer.elems).value| < 3)) ==> Classify(feat) == Ok(Uncounted)
  {
  }

  /**
   * Any geometry type other than Point and Polygon (a LineString, say) is
   * counted as "other" whatever its coordinates, and adds only to
   * `otherCount`.
   */
  lemma OtherGeometryCounted(feat: Json, geometryType: string)
    requires feat.Obj? && "geometry" in feat.fields && feat.fields["geometry"].Obj?
    requires Get(feat.fields["geometry"].fields, "type") == Str(geometryType)
    requires geometryType != "Point" && geometryType != "Polygon"
    ensures Classify(feat) == Ok(OtherHit)
    ensures Single(OtherHit) == Zero.(otherCount := 1)
  {
  }

  /** A polygon counts only when at least three of its outer-ring entries are pairs. */
  lemma ShortRingUncounted(feat: Json)
    requires Classify(feat).Ok? && GeometryOf(feat).Ok?
    requires PolygonShaped(GeometryOf(feat).value)
    requires var outer := Get(GeometryOf(feat).value, "coordinates").elems[0];
      outer.Arr? && CountPairs(outer.elems) < 3
    ensures Classify(feat) == Ok(Uncounted)
  {
  }

  /** The shard loop's in-place accumulator update for one contribution. */
  function Apply(s: Stats, c: Contribution): Stats {
    match c
    case PointHit(p) =>
      s.(pointCount := s.pointCount + 1, sumX := s.sumX + p.x, sumY := s.sumY + p.y,
         bbox := ExpandBox(s.bbox, [p]))
    case PolygonHit(ring) =>
      s.(polygonCount := s.polygonCount + 1, polygonArea := s.polygonArea + Abs(ShoelaceArea(ring)),
         bbox := ExpandBox(s.bbox, ring))
    case OtherHit => s.(otherCount := s.otherCount + 1)
    case Uncounted => s
  }

  /** The statistics of one contribution on its own. */
  function Single(c: Contribution): Stats {
    Apply(Zero, c)
  }

  /** Updating the accumulator in place is combining it with the contribution's own statistics. */
  lemma ApplyIsCombine(s: Stats, c: Contribution)
    ensures Apply(s, c) == Combine(s, Single(c))
  {
    match c
    case PointHit(p) => ExpandFromNothing(s.bbox, [p]);
    case PolygonHit(ring) => ExpandFromNothing(s.bbox, ring);
    case OtherHit =>
    case Uncounted =>
  }

  // ---------------------------------------------------------------------
  // The shard loop
  // ---------------------------------------------------------------------

  /** `|ShardIndices(count, tile, numTiles)|`, counted ordinal by ordinal. */
  function SelectedCount(count: nat, tile: int, numTiles: int): (n: nat)
    ensures n <= count
  {
    if count == 0 then 0
    else SelectedCount(count - 1, tile, numTiles) + (if Selected(count - 1, tile, numTiles) then 1 else 0)
  }

  /** Every selected feature of `fs` classifies without raising. */
  predicate SelectedClassify(fs: seq<Json>, tile: int, numTiles: int) {
    forall idx :: 0 <= idx < |fs| && Selected(idx, tile, numTiles) ==> Classify(fs[idx]).Ok?
  }

  /** Some selected feature is a Point or a counted Polygon, so it grew the bbox. */
  predicate SomeGeometrySeen(fs: seq<Json>, tile: int, numTiles: int) {
    exists idx :: 0 <= idx < |fs| && Selected(idx, tile, numTiles) && Classify(fs[idx]).Ok? &&
      (Classify(fs[idx]).value.PointHit? || Classify(fs[idx]).value.PolygonHit?)
  }

  /** A point of a selected Point or counted Polygon feature. */
  predicate SeenPoint(fs: seq<Json>, tile: int, numTiles: int, p: Point) {
    exists idx :: 0 <= idx < |fs| && Selected(idx, tile, numTiles) && Classify(fs[idx]).Ok? &&
      ((Classify(fs[idx]).value.PointHit? && Classify(fs[idx]).value.p == p) ||
       (Classify(fs[idx]).value.PolygonHit? && p in Classify(fs[idx]).value.ring))
  }

  /**
   * `_process_geojson`'s loop over `enumerate(features)`; `bbox` is `None`
   * while the sentinel is in place, which is when `_finalize_bbox` returns None.
   */
  function Accumulate(fs: seq<Json>, tile: int, numTiles: int): (r: Result<Stats, Error>)
    ensures r.Ok? <==> SelectedClassify(fs, tile, numTiles)
    ensures r.Ok? ==> 0 <= r.value.pointCount && 0 <= r.value.polygonCount && 0 <= r.value.otherCount
    ensures r.Ok? ==> r.value.pointCount + r.value.polygonCount + r.value.otherCount
                      <= SelectedCount(|fs|, tile, numTiles)
    ensures r.Ok? ==> r.value.polygonArea >= 0.0
    ensures r.Ok? ==> (r.value.bbox.None? <==> !SomeGeometrySeen(fs, tile, numTiles))
    ensures r.Ok? && r.value.bbox.Some? ==> WellFormed(r.value.bbox.value)
    decreases |fs|
  {
    if |fs| == 0 then Ok(Zero)
    else
      var init := fs[..|fs| - 1];
      var idx := |fs| - 1;
      AccumulateStep(fs, tile, numTiles);
      var s :- Accumulate(init, tile, numTiles);
      if !Selected(idx, tile, numTiles) then Ok(s)
      else
        var c :- Classify(fs[idx]);
        Ok(Apply(s, c))
  }

  /** How the predicates about `fs` split into `fs[..n-1]` and the last feature. */
  lemma AccumulateStep(fs: seq<Json>, tile: int, numTiles: int)
    requires |fs| > 0
    ensures var init, idx := fs[..|fs| - 1], |fs| - 1;
      && (SelectedClassify(fs, tile, numTiles) <==>
          SelectedClassify(init, tile, numTiles) && (Selected(idx, tile, numTiles) ==> Classify(fs[idx]).Ok?))
      && (SomeGeometrySeen(fs, tile, numTiles) <==>
          SomeGeometrySeen(init, tile, numTiles) ||
          (Selected(idx, tile, numTiles) && Classify(fs[idx]).Ok? &&
           (Classify(fs[idx]).value.PointHit? || Classify(fs[idx]).value.PolygonHit?)))
  {
    var init, idx := fs[..|fs| - 1], |fs| - 1;
    assert forall k :: 0 <= k < |init| ==> init[k] == fs[k];
  }

  /** The points a contribution adds to the bbox. */
  function Vertices(c: Contribution): seq<Point> {
    match c
    case PointHit(p) => [p]
    case PolygonHit(ring) => ring
    case _ => []
  }

  lemma SeenPointStep(fs: seq<Json>, tile: int, numTiles: int, p: Point)
    requires |fs| > 0
    requires SeenPoint(fs, tile, numTiles, p)
    ensures var idx := |fs| - 1;
      SeenPoint(fs[..idx], tile, numTiles, p) ||
      (Selected(idx, tile, numTiles) && Classify(fs[idx]).Ok? && p in Vertices(Classify(fs[idx]).value))
  {
    var idx := |fs| - 1;
    var k :| 0 <= k < |fs| && Selected(k, tile, numTiles) && Classify(fs[k]).Ok? &&
      ((Classify(fs[k]).value.PointHit? && Classify(fs[k]).value.p == p) ||
       (Classify(fs[k]).value.PolygonHit? && p in Classify(fs[k]).value.ring));
    if k < idx {
      assert fs[..idx][k] == fs[k];
    }
  }

  /** Every vertex of a selected Point or counted Polygon lies inside the shard's bbox. */
  lemma {:induction false} BboxCoversSeenPoints(fs: seq<Json>, tile: int, numTiles: int, p: Point)
    ensures Accumulate(fs, tile, numTiles).Ok? && SeenPoint(fs, tile, numTiles, p) ==>
      && Accumulate(fs, tile, numTiles).value.bbox.Some?
      && Covers(Accumulate(fs, tile, numTiles).value.bbox.value, p)
    decreases |fs|
  {
    if Accumulate(fs, tile, numTiles).Ok? && SeenPoint(fs, tile, numTiles, p) {
      var init, idx := fs[..|fs| - 1], |fs| - 1;
      AccumulateStep(fs, tile, numTiles);
      SeenPointStep(fs, tile, numTiles, p);
      var s := Accumulate(init, tile, numTiles).value;
      var r := Accumulate(fs, tile, numTiles).value;
      if Selected(idx, tile, numTiles) {
        var c := Classify(fs[idx]).value;
        assert r == Apply(s, c);
        assert c.PointHit? || c.PolygonHit? ==> r.bbox == ExpandBox(s.bbox, Vertices(c));
        if SeenPoint(init, tile, numTiles, p) {
          BboxCoversSeenPoints(init, tile, numTiles, p);
        } else {
          var j :| 0 <= j < |Vertices(c)| && Vertices(c)[j] == p;
          assert Covers(r.bbox.value, Vertices(c)[j]);
        }
      } else {
        assert r == s;
        BboxCoversSeenPoints(init, tile, numTiles, p);
      }
    }
  }

  /** Features a shard does not select never influence its result, however malformed. */
  lemma {:induction false} UnselectedIgnored(fs: seq<Json>, gs: seq<Json>, tile: int, numTiles: int)
    requires |fs| == |gs|
    requires forall idx :: 0 <= idx < |fs| && Selected(idx, tile, numTiles) ==> fs[idx] == gs[idx]
    ensures Accumulate(fs, tile, numTiles) == Accumulate(gs, tile, numTiles)
    decreases |fs|
  {
    if |fs| > 0 {
      var n := |fs| - 1;
      assert forall idx :: 0 <= idx < n ==> fs[..n][idx] == fs[idx] && gs[..n][idx] == gs[idx];
      UnselectedIgnored(fs[..n], gs[..n], tile, numTiles);
    }
  }

  // ---------------------------------------------------------------------
  // The handler
  // ---------------------------------------------------------------------

  /** What reading the work item's source object yields. */
  datatype SourceObject =
    | Unreadable            // the object read fails
    | Body(doc: Option<Json>)  // `None`: the body is not valid JSON

  /** The fixed statistics `_process_geotiff` reports (one full-extent unit square). */
  const GeotiffStats: Stats := Stats(0, 0.0, 0.0, 1, 1.0, 0, Some(Box(0.0, 0.0, 1.0, 1.0)))

  /** `data.get("features", []) if isinstance(data, dict) else []`, iterated as a list. */
  function FeaturesOf(data: Json): (r: Result<seq<Json>, Error>)
    ensures !data.Obj? ==> r == Ok([])
    ensures data.Obj? && "features" !in data.fields ==> r == Ok([])
    ensures data.Obj? && "features" in data.fields && data.fields["features"].Arr? ==>
      r == Ok(data.fields["features"].elems)
  {
    var features := if data.Obj? then GetOr(data.fields, "features", Arr([])) else Arr([]);
    if features.Arr? then Ok(features.elems) else Err(TypeError)
  }

  function ProcessGeojson(source: SourceObject, tile: int, numTiles: int): Result<Stats, Error> {
    match source
    case Unreadable => Err(ReadFailure)
    case Body(None) => Err(ReadFailure)
    case Body(Some(data)) =>
      var fs :- FeaturesOf(data);
      Accumulate(fs, tile, numTiles)
  }

  function ProcessGeotiff(source: SourceObject): Result<Stats, Error> {
    if source.Unreadable? then Err(ReadFailure) else Ok(GeotiffStats)
  }

  /** The shard's partial result; `status` is always `"ok"` (failures raise instead). */
  datatype ShardResult = ShardResult(
    stats: Stats,
    geotiff: bool,
    datasetId: Json,
    tile: int,
    numTiles: int,
    objectKey: string)

  /** `handler(event, context)` for one work item, given what reading its object yields. */
  function Handle(event: Dict, source: SourceObject): (r: Result<ShardResult, Error>)
    ensures r.Ok? ==>
      && Truthy(Get(event, "objectKey"))
      && Get(event, "objectKey") == Str(r.value.objectKey)
      && r.value.datasetId == GetOr(event, "datasetId", Str("unknown"))
      && ToInt(GetOr(event, "tile", Int(0))) == Ok(r.value.tile)
      && ToInt(GetOr(event, "numTiles", Int(3))) == Ok(r.value.numTiles)
      && (r.value.geotiff <==> IsGeotiffKey(r.value.objectKey))
      && (r.value.geotiff ==> r.value.stats == GeotiffStats)
      && (!r.value.geotiff ==> ProcessGeojson(source, r.value.tile, r.value.numTiles) == Ok(r.value.stats))
    ensures (ToInt(GetOr(event, "tile", Int(0))).Ok? && ToInt(GetOr(event, "numTiles", Int(3))).Ok? &&
             !Truthy(Get(event, "objectKey"))) ==> r == Err(Raised("objectKey missing in work item"))
    ensures source.Unreadable? ==> r.Err?
    ensures r.Ok? <==>
      var tile := ToInt(GetOr(event, "tile", Int(0)));
      var numTiles := ToInt(GetOr(event, "numTiles", Int(3)));
      var key := Get(event, "objectKey");
      && tile.Ok? && numTiles.Ok? && key.Str? && |key.s| > 0
      && (if IsGeotiffKey(key.s) then ProcessGeotiff(source) else ProcessGeojson(source, tile.value, numTiles.value)).Ok?
  {
    var datasetId := GetOr(event, "datasetId", Str("unknown"));
    var tile :- ToInt(GetOr(event, "tile", Int(0)));
    var numTiles :- ToInt(GetOr(event, "numTiles", Int(3)));
    var objectKey := Get(event, "objectKey");
    if !Truthy(objectKey) then Err(Raised("objectKey missing in work item"))
    else if !objectKey.Str? then Err(AttributeError)   // `.lower()` on a non-string
    else
      var geotiff := IsGeotiffKey(objectKey.s);
      var stats :- if geotiff then ProcessGeotiff(source) else ProcessGeojson(source, tile, numTiles);
      Ok(ShardResult(stats, geotiff, datasetId, tile, numTiles, objectKey.s))
  }

  /**
   * The dict the handler returns: the processor's statistics fields, the
   * echoed work item and `status: "ok"`.
   */
  function ToJson(r: ShardResult): (j: Json)
    ensures j.Obj? && Get(j.fields, "status") == Str("ok")
    ensures Get(j.fields, "tile") == Int(r.tile) && Get(j.fields, "numTiles") == Int(r.numTiles)
    ensures Get(j.fields, "datasetId") == r.datasetId && Get(j.fields, "objectKey") == Str(r.objectKey)
  {
    var base := map[
      "bbox" := BoxToJson(r.stats.bbox),
      "pointCount" := Int(r.stats.pointCount),
      "pointSum" := Arr([Float(r.stats.sumX), Float(r.stats.sumY)]),
      "polygonCount" := Int(r.stats.polygonCount),
      "polygonAreaSum" := Float(r.stats.polygonArea),
      "otherCount" := Int(r.stats.otherCount),
      "datasetId" := r.datasetId,
      "tile" := Int(r.tile),
      "numTiles" := Int(r.numTiles),
      "objectKey" := Str(r.objectKey),
      "status" := Str("ok")];
    Obj(if r.geotiff then base["geotiffProcessed" := Bool(true)] else base)
  }
}

=== FILE: pyjson.dfy ===
/**
 * JSON values as the handlers receive them after `json.loads`, and the few
 * Python built-ins the handlers apply to them: truthiness, `dict.get`,
 * subscripting, `int()`, `float()`, `str()` and equality with a literal.
 * Integers and floats stay distinct, as `json.loads` keeps them.
 */
module PyJson {
  import opened Wrappers

  datatype Json =
    | Null
    | Bool(b: bool)
    | Int(i: int)
    | Float(r: real)
    | Str(s: string)
    | Arr(elems: seq<Json>)
    | Obj(fields: map<string, Json>)

  /** A Python `dict` with string keys, the declared type of most handler events. */
  type Dict = map<string, Json>

  /** The Python exception a modelled statement raises. */
  datatype Error =
    | TypeError
    | AttributeError
    | KeyError
    | IndexError
    | ValueError
    | Raised(message: string)   // an explicit `raise Exception(message)`
    | ReadFailure               // the source object could not be read or parsed
    | PersistenceError          // the record store rejected a write

  /** Python truthiness (`if x:`, `not x`, `x or y`). */
  predicate Truthy(j: Json) {
    match j
    case Null => false
    case Bool(b) => b
    case Int(i) => i != 0
    case Float(r) => r != 0.0
    case Str(s) => |s| > 0
    case Arr(xs) => |xs| > 0
    case Obj(m) => |m| > 0
  }

  /** `x or y` */
  function Or(x: Json, y: Json): (r: Json)
    ensures Truthy(x) ==> r == x
    ensures !Truthy(x) ==> r == y
  {
    if Truthy(x) then x else y
  }

  /** `d.get(k, default)` on a dict. */
  function GetOr(d: Dict, k: string, default: Json): (r: Json)
    ensures k in d ==> r == d[k]
    ensures k !in d ==> r == default
  {
    if k in d then d[k] else default
  }

  /** `d.get(k)`: a missing key reads as `None`. */
  function Get(d: Dict, k: string): (r: Json)
    ensures k in d ==> r == d[k]
    ensures k !in d ==> r == Null
  {
    GetOr(d, k, Null)
  }

  /** `x.get(k, default)` where `x` may be any value: only a dict has `.get`. */
  function AttrGet(x: Json, k: string, default: Json): (r: Result<Json, Error>)
    ensures r.Ok? <==> x.Obj?
    ensures r.Ok? ==> r.value == GetOr(x.fields, k, default)
    ensures r.Err? ==> r.error == AttributeError
  {
    if x.Obj? then Ok(GetOr(x.fields, k, default)) else Err(AttributeError)
  }

  /** `x[i]` for a non-negative literal index `i`. */
  function Subscript(x: Json, i: nat): (r: Result<Json, Error>)
    ensures x.Arr? && i < |x.elems| ==> r == Ok(x.elems[i])
    ensures x.Str? && i < |x.s| ==> r == Ok(Str([x.s[i]]))
    ensures r.Ok? ==> (x.Arr? && i < |x.elems|) || (x.Str? && i < |x.s|)
  {
    match x
    case Arr(xs) => if i < |xs| then Ok(xs[i]) else Err(IndexError)
    case Str(s) => if i < |s| then Ok(Str([s[i]])) else Err(IndexError)
    case Obj(_) => Err(KeyError)   // JSON object keys are strings, never the int `i`
    case _ => Err(TypeError)
  }

  /** `x[k]` for a string key `k`. */
  function Lookup(x: Json, k: string): (r: Result<Json, Error>)
    ensures r.Ok? <==> x.Obj? && k in x.fields
    ensures r.Ok? ==> r.value == x.fields[k]
    ensures x.Obj? && k !in x.fields ==> r == Err(KeyError)
  {
    match x
    case Obj(m) => if k in m then Ok(m[k]) else Err(KeyError)
    case _ => Err(TypeError)
  }

  /** `x == n` for an int literal `n` (`bool` compares as 0/1 in Python). */
  predicate EqualsInt(x: Json, n: int) {
    match x
    case Bool(b) => (if b then 1 else 0) == n
    case Int(i) => i == n
    case Float(r) => r == n as real
    case _ => false
  }

  /** `x == b` for a bool `b` (`True == 1` and `False == 0.0` hold in Python). */
  predicate EqualsBool(x: Json, b: bool) {
    EqualsInt(x, if b then 1 else 0)
  }

  /** Truncation toward zero, as Python's `int()` applies to a float. */
  function Truncate(r: real): (v: int)
    ensures r >= 0.0 ==> v as real <= r < v as real + 1.0
    ensures r < 0.0 ==> v as real - 1.0 < r <= v as real
  {
    if r >= 0.0 then r.Floor else -((-r).Floor)
  }

  /** `float(x)`. Strings raise ValueError here: numeric-string parsing is not modelled. */
  function ToFloat(x: Json): (r: Result<real, Error>)
    ensures x.Float? ==> r == Ok(x.r)
    ensures x.Int? ==> r == Ok(x.i as real)
    ensures r.Ok? <==> x.Float? || x.Int? || x.Bool?
  {
    match x
    case Bool(b) => Ok(if b then 1.0 else 0.0)
    case Int(i) => Ok(i as real)
    case Float(r) => Ok(r)
    case Str(_) => Err(ValueError)
    case _ => Err(TypeError)
  }

  /** `int(x)`: floats truncate toward zero, strings are parsed as decimal integers. */
  function ToInt(x: Json): (r: Result<int, Error>)
    ensures x.Int? ==> r == Ok(x.i)
    ensures x.Float? ==> r == Ok(Truncate(x.r))
    ensures x.Str? ==> r == ParseInt(x.s)
    ensures x.Null? || x.Arr? || x.Obj? ==> r == Err(TypeError)
  {
    match x
    case Bool(b) => Ok(if b then 1 else 0)
    case Int(i) => Ok(i)
    case Float(r) => Ok(Truncate(r))
    case Str(s) => ParseInt(s)
    case _ => Err(TypeError)
  }

  predicate IsDigit(c: char) {
    '0' <= c <= '9'
  }

  predicate AllDigits(s: string) {
    forall k :: 0 <= k < |s| ==> IsDigit(s[k])
  }

  /** The value of a run of decimal digits, most significant first. */
  function DigitsValue(s: string): (v: nat)
    requires AllDigits(s)
  {
    if |s| == 0 then 0
    else DigitsValue(s[..|s| - 1]) * 10 + (s[|s| - 1] as int - '0' as int)
  }

  /** `int(s)` for a string: an optional sign followed by at least one decimal digit. */
  function ParseInt(s: string): (r: Result<int, Error>)
    ensures r.Ok? <==>
      (|s| > 0 && AllDigits(s)) ||
      (|s| > 1 && (s[0] == '-' || s[0] == '+') && AllDigits(s[1..]))
  {
    if |s| > 0 && (s[0] == '-' || s[0] == '+') then
      if |s| > 1 && AllDigits(s[1..]) then
        var v: int := DigitsValue(s[1..]);
        Ok(if s[0] == '-' then -v else v)
      else Err(ValueError)
    else if |s| > 0 && AllDigits(s) then Ok(DigitsValue(s))
    else Err(ValueError)
  }

  /** The decimal digits of a natural number, without leading zeros. */
  function NatToString(n: nat): (s: string)
    ensures |s| > 0 && AllDigits(s)
    ensures |s| > 1 ==> s[0] != '0'
    decreases n
  {
    var d := [(n % 10 + '0' as int) as char];
    if n < 10 then d else NatToString(n / 10) + d
  }

  /** `str(i)` for an int. */
  function IntToString(i: int): (s: string)
    ensures |s| > 0
  {
    if i < 0 then "-" + NatToString(-i) else NatToString(i)
  }

  lemma {:induction false} NatToStringValue(n: nat)
    ensures DigitsValue(NatToString(n)) == n
    decreases n
  {
    var s := NatToString(n);
    if n >= 10 {
      NatToStringValue(n / 10);
      assert s[..|s| - 1] == NatToString(n / 10);
    }
  }

  /** `int(str(i)) == i`: printing an int and parsing it back is the identity. */
  lemma IntToStringRoundTrip(i: int)
    ensures ParseInt(IntToString(i)) == Ok(i)
  {
    if i < 0 {
      var t := NatToString(-i);
      NatToStringValue(-i);
      assert ("-" + t)[1..] == t;
    } else {
      NatToStringValue(i);
    }
  }

  /**
   * `str(x)` as an f-string renders it. Exact for strings, None, bools and
   * ints; floats, lists and dicts render as a fixed placeholder.
   */
  function Display(x: Json): (s: string)
    ensures x.Str? ==> s == x.s
    ensures x.Int? ==> s == IntToString(x.i)
  {
    match x
    case Str(t) => t
    case Null => "None"
    case Bool(b) => if b then "True" else "False"
    case Int(i) => IntToString(i)
    case _ => "<value>"
  }
}

=== FILE: text.dfy ===
/** The string operations the handlers use on object keys and paths. */
module Text {

  predicate StartsWith(s: string, prefix: string) {
    |prefix| <= |s| && s[..|prefix|] == prefix
  }

  predicate EndsWith(s: string, suffix: string) {
    |suffix| <= |s| && s[|s| - |suffix|..] == suffix
  }

  /** `sub in s` for strings: `sub` occurs at some position of `s`. */
  predicate Contains(s: string, sub: string)
    decreases |s|
  {
    StartsWith(s, sub) || (|s| > 0 && Contains(s[1..], sub))
  }

  lemma {:induction false} ContainsAt(s: string, sub: string, k: nat)
    requires k + |sub| <= |s| && s[k..k + |sub|] == sub
    ensures Contains(s, sub)
    decreases k
  {
    if k == 0 {
      assert s[..|sub|] == sub;
    } else {
      assert s[1..][k - 1..k - 1 + |sub|] == s[k..k + |sub|];
      ContainsAt(s[1..], sub, k - 1);
    }
  }

  /** A string cannot contain a text with a character it lacks. */
  lemma {:induction false} NotContainsMissingChar(s: string, sub: string, c: char)
    requires c in sub && c !in s
    ensures !Contains(s, sub)
    decreases |s|
  {
    assert !StartsWith(s, sub) by {
      var i :| 0 <= i < |sub| && sub[i] == c;
      if |sub| <= |s| {
        assert s[..|sub|][i] == s[i];
      }
    }
    if |s| > 0 {
      assert forall k :: 0 <= k < |s| - 1 ==> s[1..][k] == s[k + 1];
      NotContainsMissingChar(s[1..], sub, c);
    }
  }

  function LowerChar(c: char): char {
    if 'A' <= c <= 'Z' then (c as int + 32) as char else c
  }

  /** `s.lower()` on ASCII letters; other characters are left as they are. */
  function Lower(s: string): (r: string)
    ensures |r| == |s|
    ensures forall k :: 0 <= k < |s| ==> r[k] == LowerChar(s[k])
  {
    seq(|s|, k requires 0 <= k < |s| => LowerChar(s[k]))
  }

  /**
   * `s.split("/")[-1]`: the text after the last `/`, or all of `s` when it
   * has none.
   */
  function LastSegment(s: string): (r: string)
    ensures '/' !in r
    ensures EndsWith(s, r)
    ensures |r| == |s| || s[|s| - |r| - 1] == '/'
    decreases |s|
  {
    if |s| == 0 then ""
    else if s[|s| - 1] == '/' then ""
    else
      var r := LastSegment(s[..|s| - 1]) + [s[|s| - 1]];
      assert s[|s| - |r|..] == s[..|s| - 1][|s| - |r|..] + [s[|s| - 1]];
      r
  }

  lemma {:induction false} LastSegmentAfterSlash(prefix: string, name: string)
    requires '/' !in name
    ensures LastSegment(prefix + "/" + name) == name
    decreases |name|
  {
    var s := prefix + "/" + name;
    if |name| > 0 {
      var init := name[..|name| - 1];
      assert s[..|s| - 1] == prefix + "/" + init;
      LastSegmentAfterSlash(prefix, init);
      assert init + [name[|name| - 1]] == name;
    }
  }

  /** `key.lower().endswith((".tif", ".tiff", ".geotiff"))`: the key names a GeoTIFF file. */
  predicate IsGeotiffKey(key: string) {
    var k := Lower(key);
    EndsWith(k, ".tif") || EndsWith(k, ".tiff") || EndsWith(k, ".geotiff")
  }
}

=== FILE: update_status.dfy ===
/**
 * The status tracker (`lambda/update_status/app.py`): it reads a dataset
 * id, a status, a result and an error from its event, sets those fields of
 * the job's record, creating the record if needed, and answers with the
 * status and the summary.
 */
module UpdateStatus {
  import opened Wrappers
  import opened PyJson
  import opened Jobs

  /** What the handler takes from its event. */
  datatype Request = Request(datasetId: Json, result: Json, status: Json, error: Json)

  /**
   * The event-shape branch. An event with a `summary` comes from the
   * aggregator: the id is the summary's, else the event's, else
   * `"unknown"`, and the result wraps the summary. Otherwise id and result
   * are the event's own.
   */
  function ReadEvent(event: Dict): (r: Result<Request, Error>)
    ensures "summary" in event ==> (r.Ok? <==> event["summary"].Obj?)
    ensures "summary" !in event ==> r.Ok?
    ensures r.Ok? && "summary" in event ==>
      && r.value.result == Obj(map["summary" := event["summary"]])
      && r.value.datasetId == GetOr(event["summary"].fields, "datasetId", GetOr(event, "datasetId", Str("unknown")))
    ensures r.Ok? && "summary" !in event ==>
      r.value.result == Get(event, "result") && r.value.datasetId == GetOr(event, "datasetId", Str("unknown"))
    ensures r.Ok? ==> r.value.status == GetOr(event, "status", Str("COMPLETED")) && r.value.error == Get(event, "error")
  {
    var fallbackId := GetOr(event, "datasetId", Str("unknown"));
    var idAndResult :-
      if "summary" in event then
        var summary := event["summary"];
        var id :- AttrGet(summary, "datasetId", fallbackId);
        Ok((id, Obj(map["summary" := summary])))
      else Ok((fallbackId, Get(event, "result")));
    Ok(Request(idAndResult.0, idAndResult.1, GetOr(event, "status", Str("COMPLETED")), Get(event, "error")))
  }

  function ManifestKey(datasetId: Json): string {
    Display(datasetId) + "/manifest.json"
  }

  /** The attributes the update expression sets. */
  function Sets(req: Request, now: string): (s: Item)
    ensures "status" in s && s["status"] == req.status
    ensures "updatedAt" in s && s["updatedAt"] == Str(now)
    ensures "result" in s <==> Truthy(req.result)
    ensures "manifestKey" in s <==> Truthy(req.result)
    ensures "result" in s ==> s["result"] == req.result && s["manifestKey"] == Str(ManifestKey(req.datasetId))
    ensures "error" in s <==> Truthy(req.error)
    ensures "error" in s ==> s["error"] == req.error
    ensures forall a :: a in s ==> a in TouchedAttributes
  {
    var base := map["status" := req.status, "updatedAt" := Str(now)];
    var withResult :=
      if Truthy(req.result)
      then base["result" := req.result]["manifestKey" := Str(ManifestKey(req.datasetId))]
      else base;
    if Truthy(req.error) then withResult["error" := req.error] else withResult
  }

  /** The only attributes the handler ever writes. */
  const TouchedAttributes: set<string> := {"status", "updatedAt", "result", "manifestKey", "error"}

  /** The table after the handler, and what it returns or raises. */
  datatype Outcome = Outcome(table: Table, response: Result<Json, Error>)

  /** The returned dict, built after the write. */
  function Response(req: Request): (r: Result<Json, Error>)
    ensures r.Ok? ==> r.value.Obj?
    ensures r.Ok? ==>
      Get(r.value.fields, "statusCode") == Int(200) &&
      Get(r.value.fields, "datasetId") == req.datasetId &&
      Get(r.value.fields, "status") == req.status
    ensures r.Ok? ==> ("summary" in r.value.fields <==> Truthy(req.result))
    ensures Truthy(req.result) ==> (r.Ok? <==> req.result.Obj?)
    ensures r.Ok? && Truthy(req.result) ==>
      r.value.fields["summary"] == GetOr(req.result.fields, "summary", req.result)
  {
    var base := map["statusCode" := Int(200), "datasetId" := req.datasetId, "status" := req.status];
    if Truthy(req.result) then
      var summary :- AttrGet(req.result, "summary", req.result);
      Ok(Obj(base["summary" := summary]))
    else Ok(Obj(base))
  }

  /** `handler(event, context)`, given the clock's reading. */
  function Handle(event: Dict, now: string, table: Table): (o: Outcome)
    ensures ReadEvent(event).Err? ==> o == Outcome(table, Err(ReadEvent(event).error))
    ensures ReadEvent(event).Ok? && !ValidKey(ReadEvent(event).value.datasetId) ==>
      o == Outcome(table, Err(PersistenceError))
    ensures ReadEvent(event).Ok? && ValidKey(ReadEvent(event).value.datasetId) ==>
      var req := ReadEvent(event).value;
      o.table == Update(table, req.datasetId, Sets(req, now)).value && o.response == Response(req)
  {
    match ReadEvent(event)
    case Err(e) => Outcome(table, Err(e))
    case Ok(req) =>
      match Update(table, req.datasetId, Sets(req, now))
      case Err(e) => Outcome(table, Err(e))
      case Ok(t) => Outcome(t, Response(req))
  }

  /** The record the handler writes, when it writes one. */
  predicate Writes(event: Dict) {
    ReadEvent(event).Ok? && ValidKey(ReadEvent(event).value.datasetId)
  }

  function WrittenKey(event: Dict): string
    requires ReadEvent(event).Ok? && ReadEvent(event).value.datasetId.Str?
  {
    ReadEvent(event).value.datasetId.s
  }

  /**
   * `status` and `updatedAt` are always set, the status defaulting to
   * `"COMPLETED"`; `result` and `manifestKey` are set exactly when the
   * result is truthy, and `error` exactly when the error is.
   */
  lemma WrittenFields(event: Dict, now: string, table: Table)
    requires Writes(event)
    ensures var req := ReadEvent(event).value;
      var item := Handle(event, now, table).table[WrittenKey(event)];
      && item["status"] == GetOr(event, "status", Str("COMPLETED"))
      && item["updatedAt"] == Str(now)
      && (Truthy(req.result) ==> item["result"] == req.result && item["manifestKey"] == Str(ManifestKey(req.datasetId)))
      && (Truthy(req.error) ==> item["error"] == req.error)
  {
  }

  /**
   * Nothing else changes: other records are untouched, and every attribute
   * the handler does not set keeps its stored value. In particular a falsy
   * result or error never clears a stored one, and `createdAt`, `fileName`
   * and `fileType` survive.
   */
  lemma OnlyNamedFieldsChange(event: Dict, now: string, table: Table, a: string)
    requires Writes(event)
    requires WrittenKey(event) in table && a in table[WrittenKey(event)]
    requires a !in TouchedAttributes ||
      (a in {"result", "manifestKey"} && !Truthy(ReadEvent(event).value.result)) ||
      (a == "error" && !Truthy(ReadEvent(event).value.error))
    ensures var t := Handle(event, now, table).table;
      a in t[WrittenKey(event)] && t[WrittenKey(event)][a] == table[WrittenKey(event)][a]
    ensures forall k :: k in table && k != WrittenKey(event) ==>
      k in Handle(event, now, table).table && Handle(event, now, table).table[k] == table[k]
  {
    var req := ReadEvent(event).value;
    var s := Sets(req, now);
    assert a !in s;
  }

  /** Applying the same event twice gives the record applying it once at the later time gives. */
  lemma Idempotent(event: Dict, t1: string, t2: string, table: Table)
    ensures Handle(event, t2, Handle(event, t1, table).table).table == Handle(event, t2, table).table
  {
    if Writes(event) {
      var req := ReadEvent(event).value;
      UpdateTwice(table, req.datasetId, Sets(req, t1), Sets(req, t2));
    }
  }

  /**
   * A result that is truthy but not a dict is written, then the response
   * raises: the record changes although the handler fails.
   */
  lemma ResponseRaisesAfterWrite(now: string, table: Table)
    ensures var event := map["datasetId" := Str("d"), "result" := Str("done")];
      var o := Handle(event, now, table);
      o.response == Err(AttributeError) && "d" in o.table && o.table["d"]["result"] == Str("done")
  {
    var event := map["datasetId" := Str("d"), "result" := Str("done")];
    assert ReadEvent(event) == Ok(Request(Str("d"), Str("done"), Str("COMPLETED"), Null));
  }
}

=== FILE: view_output.dfy ===
/**
 * The manifest checker of the output viewer (`verify_manifest` in
 * `scripts/view_output.py`): it checks a manifest's top-level fields and
 * each tile entry, collecting errors and warnings; the manifest is valid
 * when there are no errors.
 *
 * The checker looks for `total_area` and per-tile `area`, names the
 * aggregator never writes (it writes `polygonArea` and `polygonAreaSum`),
 * so it rejects every manifest the pipeline produces. `AsWritten` is the
 * checker as written; `Corrected` reads the aggregator's names and does not
 * raise on a tile that is not a dict.
 */
module ManifestCheck {
  import opened Wrappers
  import opened PyJson
  import opened Accumulator
  import opened Aggregate

  /** One message of the report. */
  datatype Finding =
    | MissingField(name: string)
    | TilesNotList
    | TileCount(found: nat)
    | TileNotObject(index: nat)
    | TileMissing(index: nat, field: string)
    | BadStatus(tile: Json, status: Json)
    | AreaMismatch(tile: Json, area: Json)
    | TotalMismatch(total: Json, expected: real)
    | OkMismatch

  /** Warnings are reported after the errors and do not make a manifest invalid. */
  predicate IsWarning(f: Finding) {
    f.TileCount? || f.AreaMismatch? || f.TotalMismatch?
  }

  /** The errors a tile entry can produce. */
  predicate IsTileError(f: Finding) {
    f.TileNotObject? || f.TileMissing? || f.BadStatus?
  }

  /** Every error comes before every warning. */
  predicate ErrorsFirst(fs: seq<Finding>) {
    forall i, j :: 0 <= i < j < |fs| && IsWarning(fs[i]) ==> IsWarning(fs[j])
  }

  /** The area every tile is expected to have: a 0.001 by 0.001 square. */
  const ExpectedArea: real := 0.000001
  const Tolerance: real := 0.0000001

  function Abs(x: real): real {
    if x < 0.0 then -x else x
  }

  /** A value as an arithmetic operand (`x + 1`, `x - y`): bools, ints and floats. */
  function Numeric(x: Json): (r: Result<real, Error>)
    ensures r.Ok? <==> x.Bool? || x.Int? || x.Float?
    ensures x.Int? ==> r == Ok(x.i as real)
    ensures x.Float? ==> r == Ok(x.r)
  {
    match x
    case Bool(b) => Ok(if b then 1.0 else 0.0)
    case Int(i) => Ok(i as real)
    case Float(v) => Ok(v)
    case _ => Err(TypeError)
  }

  /**
   * The names the checker reads, and whether its `ok` recomputation guards
   * against tiles that are not dicts.
   */
  datatype Variant = Variant(totalField: string, tileAreaField: string, guarded: bool)

  const AsWritten := Variant("total_area", "area", false)
  const Corrected := Variant("polygonArea", "polygonAreaSum", true)

  // ---------------------------------------------------------------------
  // One tile
  // ---------------------------------------------------------------------

  /** The tile's number and area feed arithmetic without raising. */
  predicate TileArithmeticOk(v: Variant, i: nat, t: Json) {
    t.Obj? ==>
      Numeric(GetOr(t.fields, "tile", Int(i))).Ok? && Numeric(GetOr(t.fields, v.tileAreaField, Int(0))).Ok?
  }

  datatype TileReport = TileReport(errors: seq<Finding>, warnings: seq<Finding>, expected: real)

  /** The body of the loop for tile `i`. */
  function CheckTile(v: Variant, i: nat, t: Json): (r: Result<TileReport, Error>)
    ensures r.Ok? <==> TileArithmeticOk(v, i, t)
    ensures r.Ok? ==> forall f :: f in r.value.errors ==> IsTileError(f)
    ensures r.Ok? ==> forall f :: f in r.value.warnings ==> f.AreaMismatch?
    ensures r.Ok? ==> (TileNotObject(i) in r.value.errors <==> !t.Obj?)
    ensures r.Ok? ==> forall f :: f in r.value.errors && f.TileNotObject? ==> f.index == i
    ensures r.Ok? && !t.Obj? ==> r.value == TileReport([TileNotObject(i)], [], 0.0)
    ensures r.Ok? && t.Obj? ==> r.value.expected == ExpectedArea
    ensures r.Ok? && t.Obj? ==> (r.value.errors == [] <==>
      "tile" in t.fields && v.tileAreaField in t.fields && Get(t.fields, "status") == Str("ok"))
    ensures r.Ok? && t.Obj? ==>
      var status := Get(t.fields, "status");
      (BadStatus(GetOr(t.fields, "tile", Int(i)), status) in r.value.errors <==> status != Str("ok"))
  {
    if !t.Obj? then Ok(TileReport([TileNotObject(i)], [], 0.0))
    else
      var m := t.fields;
      var missing :=
        (if "tile" !in m then [TileMissing(i, "tile")] else []) +
        (if v.tileAreaField !in m then [TileMissing(i, v.tileAreaField)] else []) +
        (if "status" !in m then [TileMissing(i, "status")] else []);
      var status := Get(m, "status");
      var statusError := if status != Str("ok") then [BadStatus(GetOr(m, "tile", Int(i)), status)] else [];
      var tileNum := GetOr(m, "tile", Int(i));
      var _ :- Numeric(tileNum);   // `0.001 * (tile_num + 1)`
      var area := GetOr(m, v.tileAreaField, Int(0));
      var actual :- Numeric(area);
      var warning := if Abs(actual - ExpectedArea) > Tolerance then [AreaMismatch(tileNum, area)] else [];
      assert missing == [] <==> "tile" in m && v.tileAreaField in m && "status" in m;
      assert statusError == [] <==> status == Str("ok");
      Ok(TileReport(missing + statusError, warning, ExpectedArea))
  }

  // ---------------------------------------------------------------------
  // The loop over the tiles
  // ---------------------------------------------------------------------

  function DictCount(tiles: seq<Json>): nat {
    if |tiles| == 0 then 0
    else DictCount(tiles[..|tiles| - 1]) + (if tiles[|tiles| - 1].Obj? then 1 else 0)
  }

  /** The loop, tile by tile in order; the first exception ends it. */
  function CheckTiles(v: Variant, tiles: seq<Json>): (r: Result<TileReport, Error>)
    ensures r.Ok? <==> forall i :: 0 <= i < |tiles| ==> TileArithmeticOk(v, i, tiles[i])
    ensures r.Ok? ==> forall f :: f in r.value.errors ==> IsTileError(f)
    ensures r.Ok? ==> forall f :: f in r.value.warnings ==> f.AreaMismatch?
    decreases |tiles|
  {
    if |tiles| == 0 then Ok(TileReport([], [], 0.0))
    else
      var n := |tiles| - 1;
      var prefix := tiles[..n];
      assert forall i :: 0 <= i < n ==> prefix[i] == tiles[i];
      match CheckTiles(v, prefix)
      case Err(e) => Err(e)
      case Ok(before) =>
        match CheckTile(v, n, tiles[n])
        case Err(e) => Err(e)
        case Ok(last) =>
          Ok(TileReport(before.errors + last.errors, before.warnings + last.warnings, before.expected + last.expected))
  }

  /** The expected total is the expected tile area once for every tile that is a dict. */
  lemma {:induction false} ExpectedTotal(v: Variant, tiles: seq<Json>)
    requires CheckTiles(v, tiles).Ok?
    ensures CheckTiles(v, tiles).value.expected == ExpectedArea * DictCount(tiles) as real
    decreases |tiles|
  {
    if |tiles| > 0 {
      var n := |tiles| - 1;
      var prefix := tiles[..n];
      assert forall i :: 0 <= i < n ==> prefix[i] == tiles[i];
      ExpectedTotal(v, prefix);
      assert CheckTiles(v, tiles).value.expected ==
        CheckTiles(v, prefix).value.expected + CheckTile(v, n, tiles[n]).value.expected;
    }
  }

  /** Tile `i` is reported as not an object exactly when it is not a dict. */
  lemma {:induction false} TileNotObjectReported(v: Variant, tiles: seq<Json>)
    requires CheckTiles(v, tiles).Ok?
    ensures forall f :: f in CheckTiles(v, tiles).value.errors && f.TileNotObject? ==> f.index < |tiles|
    ensures forall i :: 0 <= i < |tiles| ==>
      (TileNotObject(i) in CheckTiles(v, tiles).value.errors <==> !tiles[i].Obj?)
    decreases |tiles|
  {
    if |tiles| > 0 {
      var n := |tiles| - 1;
      var prefix := tiles[..n];
      assert forall i :: 0 <= i < n ==> prefix[i] == tiles[i];
      TileNotObjectReported(v, prefix);
      var before := CheckTiles(v, prefix).value;
      var last := CheckTile(v, n, tiles[n]).value;
      assert CheckTiles(v, tiles).value.errors == before.errors + last.errors;
      assert TileNotObject(n) !in before.errors;
    }
  }

  /** A loop that reports no error saw only dicts with status `"ok"`. */
  lemma {:induction false} NoErrorsAllOk(v: Variant, tiles: seq<Json>)
    requires CheckTiles(v, tiles).Ok? && CheckTiles(v, tiles).value.errors == []
    ensures forall i :: 0 <= i < |tiles| ==> tiles[i].Obj? && Get(tiles[i].fields, "status") == Str("ok")
    decreases |tiles|
  {
    if |tiles| > 0 {
      var n := |tiles| - 1;
      var prefix := tiles[..n];
      assert forall i :: 0 <= i < n ==> prefix[i] == tiles[i];
      NoErrorsAllOk(v, prefix);
    }
  }

  /** `all(t.get('status') == 'ok' for t in tiles)`, short-circuiting at the first `False`. */
  function AllStatusOk(v: Variant, tiles: seq<Json>): (r: Result<bool, Error>)
    ensures r.Ok? ==> (r.value <==> forall i :: 0 <= i < |tiles| ==>
      tiles[i].Obj? && Get(tiles[i].fields, "status") == Str("ok"))
    ensures v.guarded ==> r.Ok?
    ensures r.Err? <==> !v.guarded && exists k :: (0 <= k < |tiles| && !tiles[k].Obj? &&
      forall i :: 0 <= i < k ==> tiles[i].Obj? && Get(tiles[i].fields, "status") == Str("ok"))
  {
    if |tiles| == 0 then Ok(true)
    else if !tiles[0].Obj? then (if v.guarded then Ok(false) else Err(AttributeError))
    else if Get(tiles[0].fields, "status") != Str("ok") then Ok(false)
    else
      var rest := AllStatusOk(v, tiles[1..]);
      assert forall i :: 1 <= i < |tiles| ==> tiles[i] == tiles[1..][i - 1];
      if rest.Err? then
        assert exists k :: (0 <= k < |tiles[1..]| && !tiles[1..][k].Obj? &&
          forall i :: 0 <= i < k ==> tiles[1..][i].Obj? && Get(tiles[1..][i].fields, "status") == Str("ok"));
        rest
      else
        rest
  }

  // ---------------------------------------------------------------------
  // The whole manifest
  // ---------------------------------------------------------------------

  function MissingTopLevel(v: Variant, manifest: Dict): (fs: seq<Finding>)
    ensures forall f :: f in fs ==> f.MissingField?
    ensures fs == [] <==> "tiles" in manifest && "ok" in manifest && v.totalField in manifest
  {
    (if "tiles" !in manifest then [MissingField("tiles")] else []) +
    (if "ok" !in manifest then [MissingField("ok")] else []) +
    (if v.totalField !in manifest then [MissingField(v.totalField)] else [])
  }

  /** The returned pair: valid when there are no errors, then the errors followed by the warnings. */
  function Assemble(errors: seq<Finding>, warnings: seq<Finding>): (r: (bool, seq<Finding>))
    requires forall f :: f in errors ==> !IsWarning(f)
    requires forall f :: f in warnings ==> IsWarning(f)
    ensures r.0 <==> forall f :: f in r.1 ==> IsWarning(f)
    ensures ErrorsFirst(r.1)
    ensures forall f :: f in r.1 <==> f in errors || f in warnings
  {
    assert |errors| > 0 ==> errors[0] in errors + warnings;
    (|errors| == 0, errors + warnings)
  }

  /** The checks that follow once `tiles` is known to be a list. */
  function VerifyTiles(v: Variant, tiles: seq<Json>, ok: Json, totalJson: Json): (r: Result<(bool, seq<Finding>), Error>)
    ensures r.Ok? <==>
      (forall i :: 0 <= i < |tiles| ==> TileArithmeticOk(v, i, tiles[i])) &&
      Numeric(totalJson).Ok? && AllStatusOk(v, tiles).Ok?
    ensures r.Ok? ==> (r.value.0 <==> forall f :: f in r.value.1 ==> IsWarning(f))
    ensures r.Ok? ==> ErrorsFirst(r.value.1)
  {
    var countWarning := if |tiles| != 3 then [TileCount(|tiles|)] else [];
    var report :- CheckTiles(v, tiles);
    TileNotObjectReported(v, tiles);
    var total :- Numeric(totalJson);
    var totalWarning :=
      if Abs(total - report.expected) > Tolerance then [TotalMismatch(totalJson, report.expected)] else [];
    var allOk :- AllStatusOk(v, tiles);
    var okError := if !EqualsBool(ok, allOk) then [OkMismatch] else [];
    var errors := report.errors + okError;
    var warnings := countWarning + report.warnings + totalWarning;
    Ok(Assemble(errors, warnings))
  }

  /** The errors and warnings `VerifyTiles` assembles, once its checks have passed. */
  lemma TilesParts(v: Variant, tiles: seq<Json>, ok: Json, totalJson: Json)
    returns (errors: seq<Finding>, warnings: seq<Finding>)
    requires VerifyTiles(v, tiles, ok, totalJson).Ok?
    ensures VerifyTiles(v, tiles, ok, totalJson).value.1 == errors + warnings
    ensures errors == CheckTiles(v, tiles).value.errors +
      (if !EqualsBool(ok, AllStatusOk(v, tiles).value) then [OkMismatch] else [])
    ensures forall f :: f in warnings ==> IsWarning(f) && !f.OkMismatch? && !f.TileNotObject?
    ensures TileCount(|tiles|) in warnings <==> |tiles| != 3
  {
    var report := CheckTiles(v, tiles).value;
    var total := Numeric(totalJson).value;
    var countWarning := if |tiles| != 3 then [TileCount(|tiles|)] else [];
    var totalWarning :=
      if Abs(total - report.expected) > Tolerance then [TotalMismatch(totalJson, report.expected)] else [];
    errors := report.errors + (if !EqualsBool(ok, AllStatusOk(v, tiles).value) then [OkMismatch] else []);
    warnings := countWarning + report.warnings + totalWarning;
  }

  /**
   * A tile count other than three is warned about, an `ok` flag that
   * disagrees with the tiles' statuses is an error, and so is every tile
   * that is not a dict.
   */
  lemma TilesFindings(v: Variant, tiles: seq<Json>, ok: Json, totalJson: Json)
    requires VerifyTiles(v, tiles, ok, totalJson).Ok?
    ensures var fs := VerifyTiles(v, tiles, ok, totalJson).value.1;
      && (TileCount(|tiles|) in fs <==> |tiles| != 3)
      && (OkMismatch in fs <==> !EqualsBool(ok, AllStatusOk(v, tiles).value))
      && forall i :: 0 <= i < |tiles| ==> (TileNotObject(i) in fs <==> !tiles[i].Obj?)
  {
    var errors, warnings := TilesParts(v, tiles, ok, totalJson);
    TileNotObjectReported(v, tiles);
    var tileErrors := CheckTiles(v, tiles).value.errors;
    assert OkMismatch !in tileErrors && TileCount(|tiles|) !in tileErrors;
  }

  /** `verify_manifest(manifest)`: the valid flag and the errors followed by the warnings. */
  function Verify(v: Variant, manifest: Dict): (r: Result<(bool, seq<Finding>), Error>)
    ensures MissingTopLevel(v, manifest) != [] ==> r == Ok((false, MissingTopLevel(v, manifest)))
    ensures MissingTopLevel(v, manifest) == [] && !manifest["tiles"].Arr? ==> r == Ok((false, [TilesNotList]))
    ensures MissingTopLevel(v, manifest) == [] && manifest["tiles"].Arr? ==>
      r == VerifyTiles(v, manifest["tiles"].elems, manifest["ok"], manifest[v.totalField])
    ensures r.Ok? ==> (r.value.0 <==> forall f :: f in r.value.1 ==> IsWarning(f))
    ensures r.Ok? ==> ErrorsFirst(r.value.1)
  {
    var missing := MissingTopLevel(v, manifest);
    if missing != [] then
      assert missing[0] in missing && !IsWarning(missing[0]);
      Ok((false, missing))
    else if !manifest["tiles"].Arr? then
      assert TilesNotList in [TilesNotList];
      Ok((false, [TilesNotList]))
    else VerifyTiles(v, manifest["tiles"].elems, manifest["ok"], manifest[v.totalField])
  }

  function VerifyManifest(manifest: Dict): Result<(bool, seq<Finding>), Error> {
    Verify(AsWritten, manifest)
  }

  function VerifyCorrected(manifest: Dict): Result<(bool, seq<Finding>), Error> {
    Verify(Corrected, manifest)
  }

  // ---------------------------------------------------------------------
  // Against the aggregator's manifests
  // ---------------------------------------------------------------------

  /**
   * The checker as written rejects every manifest the aggregator writes,
   * reporting only that `total_area` is missing.
   */
  lemma AggregatorManifestRejected(s: Summary)
    ensures VerifyManifest(SummaryToJson(s).fields) == Ok((false, [MissingField("total_area")]))
  {
    var m := SummaryToJson(s).fields;
    assert "total_area" !in m;
    assert MissingTopLevel(AsWritten, m) == [MissingField("total_area")];
  }

  /** A first tile that is not a dict is reported, then the `ok` recomputation raises on it. */
  lemma NonDictTileRaises()
    ensures VerifyManifest(map["tiles" := Arr([Int(5)]), "ok" := Bool(true), "total_area" := Int(0)]) ==
      Err(AttributeError)
  {
    var m := map["tiles" := Arr([Int(5)]), "ok" := Bool(true), "total_area" := Int(0)];
    assert CheckTiles(AsWritten, [Int(5)]).Ok?;
    assert AllStatusOk(AsWritten, [Int(5)]) == Err(AttributeError);
  }

  /** The corrected checker raises only on a tile number, tile area or total that is not a number. */
  lemma CorrectedRaisesOnlyOnArithmetic(manifest: Dict)
    requires MissingTopLevel(Corrected, manifest) == [] && manifest["tiles"].Arr?
    ensures var tiles := manifest["tiles"].elems;
      VerifyCorrected(manifest).Ok? <==>
        (forall i :: 0 <= i < |tiles| ==> TileArithmeticOk(Corrected, i, tiles[i])) &&
        Numeric(manifest["polygonArea"]).Ok?
    ensures var tiles := manifest["tiles"].elems;
      VerifyCorrected(manifest).Ok? ==> forall i :: 0 <= i < |tiles| ==>
        (TileNotObject(i) in VerifyCorrected(manifest).value.1 <==> !tiles[i].Obj?)
  {
    var tiles := manifest["tiles"].elems;
    if VerifyCorrected(manifest).Ok? {
      TilesFindings(Corrected, tiles, manifest["ok"], manifest["polygonArea"]);
    }
  }

  /** A summary whose `ok` flag says whether every tile's status is `"ok"`, as the aggregator computes it. */
  predicate Consistent(s: Summary) {
    s.ok <==> forall k :: 0 <= k < |s.tiles| ==> s.tiles[k].status == Str("ok")
  }

  /** The aggregator's summaries are consistent. */
  lemma SummariesConsistent(results: seq<Json>)
    requires Summarize(results).Ok?
    ensures Consistent(Summarize(results).value)
  {
    var s := Summarize(results).value;
    forall k | 0 <= k < |s.tiles|
      ensures s.tiles[k].status == Str("ok") <==> StatusOk(results[k])
    {
      assert s.tiles[k] == RowOf(results[k].fields);
    }
  }

  /** Every tile row carries a number and a numeric area. */
  predicate NumericRows(s: Summary) {
    forall k :: 0 <= k < |s.tiles| ==> Numeric(s.tiles[k].tile).Ok? && Numeric(s.tiles[k].polygonAreaSum).Ok?
  }

  /**
   * The corrected checker accepts an aggregator manifest exactly when every
   * tile finished `"ok"`; its findings beyond that are warnings.
   */
  lemma CorrectedAcceptsAggregatorManifests(s: Summary)
    requires Consistent(s) && NumericRows(s)
    ensures VerifyCorrected(SummaryToJson(s).fields).Ok?
    ensures VerifyCorrected(SummaryToJson(s).fields).value.0 <==> s.ok
  {
    var m := SummaryToJson(s).fields;
    var tiles := m["tiles"].elems;
    assert MissingTopLevel(Corrected, m) == [];
    assert Numeric(m["polygonArea"]).Ok?;
    RowsChecked(s);
    assert AllStatusOk(Corrected, tiles) == Ok(s.ok);
    assert VerifyCorrected(m) == VerifyTiles(Corrected, tiles, m["ok"], m["polygonArea"]);
    var errors, warnings := TilesParts(Corrected, tiles, m["ok"], m["polygonArea"]);
    var tileErrors := CheckTiles(Corrected, tiles).value.errors;
    assert errors == tileErrors;
    if s.ok {
      NoTileErrors(Corrected, tiles);
    } else {
      if tileErrors == [] {
        NoErrorsAllOk(Corrected, tiles);
        assert false;
      }
      assert tileErrors[0] in errors + warnings;
    }
  }

  /** The rows of a manifest pass the per-tile arithmetic, and their statuses are the summary's. */
  lemma RowsChecked(s: Summary)
    requires Consistent(s) && NumericRows(s)
    ensures var tiles := SummaryToJson(s).fields["tiles"].elems;
      && (forall i :: 0 <= i < |tiles| ==> TileArithmeticOk(Corrected, i, tiles[i]))
      && (forall i :: 0 <= i < |tiles| ==> tiles[i].Obj? && "tile" in tiles[i].fields && "polygonAreaSum" in tiles[i].fields)
      && (s.ok <==> forall i :: 0 <= i < |tiles| ==> Get(tiles[i].fields, "status") == Str("ok"))
  {
    var tiles := SummaryToJson(s).fields["tiles"].elems;
    assert tiles == MapSeq(TileRowToJson, s.tiles);
    forall i | 0 <= i < |tiles|
      ensures tiles[i] == TileRowToJson(s.tiles[i])
    {
    }
  }

  /** Tiles that are dicts carrying every field with status `"ok"` produce no errors. */
  lemma {:induction false} NoTileErrors(v: Variant, tiles: seq<Json>)
    requires forall i :: 0 <= i < |tiles| ==> TileArithmeticOk(v, i, tiles[i])
    requires forall i :: 0 <= i < |tiles| ==> (tiles[i].Obj? && Get(tiles[i].fields, "status") == Str("ok") &&
      "tile" in tiles[i].fields && v.tileAreaField in tiles[i].fields)
    ensures CheckTiles(v, tiles).Ok? && CheckTiles(v, tiles).value.errors == []
    decreases |tiles|
  {
    if |tiles| > 0 {
      var n := |tiles| - 1;
      assert forall i :: 0 <= i < n ==> tiles[..n][i] == tiles[i];
      NoTileErrors(v, tiles[..n]);
    }
  }
}

=== FILE: wrappers.dfy ===
/** Failure-compatible Option and Result types used by every module. */
module Wrappers {

  /** An optional value; `None` stands for Python's `None` where a value may be absent. */
  datatype Option<+T> = None | Some(value: T) {

    /** The carried value, or `default` when there is none. */
    function GetOr(default: T): T {
      match this
      case Some(v) => v
      case None => default
    }
  }

  /** The outcome of code that may raise: `Err` carries the exception raised. */
  datatype Result<+T, +E> = Ok(value: T) | Err(error: E) {

    predicate IsFailure() {
      Err?
    }

    function PropagateFailure<U>(): Result<U, E>
      requires Err?
    {
      Err(error)
    }

    function Extract(): T
      requires Ok?
    {
      value
    }
  }
}
